=== FILE: README.md ===
# Academy knowledge base: ingestion and query policy in Dafny

This project models the deterministic logic around the retrieval engine of the Academy knowledge base, and proves properties of it.

The ingestion side has three scripts:
- Two scripts turn CSV exports of live sessions and blog posts into Markdown notes with YAML front matter: scripts/csv_to_md_multi.py and its older sibling scripts/csv_sessions_to_md.py.
- scripts/build_index.py collects the files under `data/raw`. It loads them with their front matter and gives each document its default metadata.

The serving side is app/main.py:
- The `/query` endpoint compares the best retrieval score with a threshold. Below the threshold it declines and offers suggestions and rephrasings; otherwise it builds a grounded context and lists the sources.
- The `/reindex` endpoint lets one index build run at a time.

The model is functional. Strings are `seq<char>`, files and directories are sequences and sets of names, and every call into the outside world is a parameter:
- the chat model, the retriever and YAML parsing;
- `strptime`, the clock and the file modification time;
- HTML conversion and URL extraction.

Python's `str.lower`, `str.isdigit` and `\d` are modelled on ASCII. `str.isspace` and `\s` are modelled with the full whitespace list.

Modules, one per concern of the source:
- `Wrappers`, `Text`, `Lists`: Option/Result, Python string operations and order-preserving deduplication.
- `Slug`, `Dates`, `ListFields`, `Headers`, `FrontMatter`, `UniqueNames`, `Notes`: the helpers of the CSV scripts.
- `CsvMulti`, `CsvSessions`: the two scripts. `Compare` relates their two list-field normalisations.
- `Paths`, `Sorting`, `CsvTable`, `Values`, `BuildIndex`: the indexer.
- `Query`, `Reindex`: app/main.py.

## Model

| member | source | states |
|---|---|---|
| Slug.Slugify | scripts/csv_to_md_multi.py:83-88 | The result is never empty and uses only `[a-z0-9-]`. It has no leading, trailing or doubled `-`. It keeps exactly the letters and digits of the lowered, respelled input (`&` becomes `and`), and is `"untitled"` when there are none. |
| Slug.SlugJoin | scripts/csv_to_md_multi.py:84-88 | Two slugs with a gap between them are joined by exactly one `-`. The gap is any non-empty run of characters that give no letter or digit and are not respelled: `"a b"`, `"a -- b"` and `"a, b"` all give `"a-b"`. |
| Slug.SlugAmpersand | scripts/csv_to_md_multi.py:84-88 | `&` between two slugs, with any gaps around it, becomes `-and-`: `"q & a"` and `"q&a"` both give `"q-and-a"`. |
| Slug.DashRunsRun | scripts/csv_to_md_multi.py:86 | A run of characters outside `[a-z0-9]` followed by a letter, a digit or the end becomes a single `-`. |
| Slug.DashRunsConcat | scripts/csv_to_md_multi.py:86 | A letter or digit ends every run, so the text on either side of it is replaced independently. |
| Slug.SlugifyIdempotent | scripts/csv_to_md_multi.py:83-88 | Slugifying a slug changes nothing. |
| Slug.SlugFixpoint | scripts/csv_to_md_multi.py:83-88 | Every well-formed slug is its own slug. |
| Slug.NoLettersGivesUntitled | scripts/csv_to_md_multi.py:83-88 | A text with no letter, digit or `&` gives `"untitled"`. |
| Slug.SessionSlug | scripts/csv_to_md_multi.py:255-256 | The file slug of a session is always a well-formed slug. |
| Slug.SessionSlugCases | scripts/csv_to_md_multi.py:255-256 | The slug base is the title unless the title reads "untitled session" in any case. In that case it is the session id when there is one, else the title. An empty base gives `"session"`, so an empty title gives `"session"`. |
| Slug.GuardedSessionSlug | scripts/csv_sessions_to_md.py:209-210 | The sessions script's form with its extra `title and` test: an empty title with a session id takes the id. |
| Slug.GuardedAgrees | scripts/csv_sessions_to_md.py:195-210 | The sessions script's form equals Slug.SessionSlug on every non-empty title. That script defaults its title to `Untitled Session`, so its titles are never empty, and its extra `title and` test never changes the slug. |
| Dates.FirstFormat | scripts/csv_to_md_multi.py:94-99 | The formats are tried in order: the chosen one parses and no earlier one does. |
| Dates.ParseDate | scripts/csv_to_md_multi.py:90-104 | Blank input gives None. When no format parses, any result is a zero-padded `YYYY-MM-DD` from the regex fallback. |
| Dates.FirstFormatWins | scripts/csv_to_md_multi.py:94-99 | The first format that parses decides the result. |
| Dates.MonthFirst | scripts/csv_to_md_multi.py:94-99 | A date that parses both month-first and day-first is read month-first. |
| Dates.FallbackKeepsDigits | scripts/csv_to_md_multi.py:100-103 | The regex fallback gives back a `YYYY-MM-DD` text unchanged, without checking month or day ranges. |
| Dates.FallbackPads | scripts/csv_to_md_multi.py:100-103 | When no format parses, `YYYY`, a separator, a month of one or two digits, a separator and a day of one or two digits give `YYYY-MM-DD`, with month and day zero-padded: `2024/3/5` gives `2024-03-05`. `-` and `/` may be mixed. |
| Dates.Pad2 | scripts/csv_to_md_multi.py:103 | `{int(x):02d}` for one or two digits: two digits with the same value. |
| Dates.Decimal2Injective | scripts/csv_to_md_multi.py:103 | Two two-digit texts with the same value are the same text, so the padded form is unique. |
| Dates.Render | scripts/csv_to_md_multi.py:102-103 | The output has the `dddd-dd-dd` shape. Its year is the matched year, and its month and day have the values of the matched groups, each written in two digits. |
| ListFields.Items | scripts/csv_sessions_to_md.py:116-135 | No duplicates, empty for empty input. Every item is the normalisation of some trimmed non-blank part, and every such part is represented. |
| ListFields.ItemsOrder | scripts/csv_sessions_to_md.py:128-135 | Items keep the order of their first appearance. |
| CsvMulti.SplitListField | scripts/csv_to_md_multi.py:106-119 | Empty input gives `[]`. Items are non-empty and lower-case, contain no whitespace and no `;`, `,` or `\|`, and have no duplicates. |
| CsvMulti.SplitListFieldKeeps | scripts/csv_to_md_multi.py:106-119 | Every trimmed part appears with its whitespace runs collapsed to one `-`, nothing else appears, and the order is that of first appearance. |
| CsvMulti.SpaceRunsRun | scripts/csv_to_md_multi.py:116 | A run of whitespace between two words becomes a single `-`. |
| CsvMulti.SpaceRuns | scripts/csv_to_md_multi.py:116 | The rewrite leaves no whitespace, and a non-empty input gives a non-empty result. |
| CsvMulti.SpaceRunsSolid | scripts/csv_to_md_multi.py:116 | The characters other than whitespace and `-` come out as they went in, in the same order. |
| CsvMulti.SpaceRunsChars | scripts/csv_to_md_multi.py:116 | Every character of the result is a `-` or a character of the input. |
| CsvSessions.SplitListField | scripts/csv_sessions_to_md.py:116-135 | Empty input gives `[]`. Items are non-empty and lower-case, contain no space and no `;`, `,` or `\|`, and have no duplicates. |
| CsvSessions.NormSessions | scripts/csv_sessions_to_md.py:123-126 | Each character is lowered, and each single space becomes its own `-`. |
| CsvSessions.SplitListFieldKeeps | scripts/csv_sessions_to_md.py:116-135 | Every trimmed part appears normalised, and the order is that of first appearance. |
| Compare.NormsAgree | scripts/csv_sessions_to_md.py:123-126 | On single-spaced text the two scripts normalise list items alike. |
| Compare.NormsDisagree | scripts/csv_to_md_multi.py:116 | A tab or other non-space whitespace character makes the two normalisations differ. |
| Compare.NormsSpaceRun | scripts/csv_sessions_to_md.py:126 | A run of spaces gives one `-` per space in the older script but a single `-` in the newer one. |
| FrontMatter.YamlKv | scripts/csv_to_md_multi.py:121-127 | The line is empty exactly for an empty value. The value is double-quoted exactly when it holds `:` and does not start with `http`, and is verbatim otherwise. |
| FrontMatter.YamlListLine | scripts/csv_to_md_multi.py:129-132 | The line is empty exactly for an empty list, and `key: [a, b, ...]` otherwise. |
| FrontMatter.ListLineItems | scripts/csv_to_md_multi.py:132 | Splitting the bracketed part of a list line on `,` gives back the items, each after its separator space. |
| FrontMatter.Present | scripts/csv_to_md_multi.py:198-201 | The emitted keys are exactly the keys of the order whose values are non-empty. |
| FrontMatter.PresentOrder | scripts/csv_to_md_multi.py:194-201 | Emitted keys keep the fixed key order. |
| FrontMatter.SplitFrontMatter | scripts/build_index.py:30-42 | Without an opening `---` line, or without a later closing one, there is no block and the body is the whole text. Otherwise the text is the opening line, the block, a closing delimiter and the body, so the body is a suffix of the text. No closing delimiter starts inside the block, so it is the first one (the lazy `.*?`). |
| FrontMatter.FirstCloseWins | scripts/build_index.py:33-40 | When the block holds no delimiter, the text splits at the delimiter right after it. A later `\n---\n` stays in the body. |
| FrontMatter.FrontMatterRoundTrip | scripts/build_index.py:30-42 | The front matter the CSV scripts write is read back by the indexer as exactly the lines written, followed by the body. |
| Notes.WriteAll | scripts/csv_to_md_multi.py:287-293 | One note per row, in order. Each is written under a name not taken before and with its own text, and no two share a name. |
| Notes.WriteAllChoice | scripts/csv_to_md_multi.py:291-292 | Each note's name is chosen against the names existing beforehand plus those written for earlier rows. |
| Notes.BlockSplits | scripts/csv_to_md_multi.py:186-211 | The emitted block parses back as front matter holding exactly its inner lines. |
| Notes.BlockText | scripts/csv_to_md_multi.py:193-211 | The block's first and last lines are `---`. |
| Notes.BlockFilled | scripts/csv_to_md_multi.py:211 | No line of the block is empty. |
| Notes.BodyLayout | scripts/csv_to_md_multi.py:213-227 | The body holds the description and a blank line when present. The topics heading comes only when there are topics, then one `- t` bullet per topic in order, and the body ends with the notes section. |
| Notes.BodyEnds | scripts/csv_to_md_multi.py:224-227 | The body always ends with the placeholder line and a line break. |
| Notes.BodyRecoverable | scripts/csv_to_md_multi.py:213-227 | Splitting the body on line breaks gives back its lines. |
| CsvMulti.PickVideoUrl | scripts/csv_to_md_multi.py:75-80 | None exactly for no URLs. Otherwise the first URL with a video host when there is one, else the first URL. |
| CsvMulti.BuildYaml | scripts/csv_to_md_multi.py:186-211 | The front matter is `---`, the non-empty keys in the fixed order, the list lines, `source` and `last_updated`, then `---`. |
| CsvMulti.YamlKeys | scripts/csv_to_md_multi.py:194-209 | Each emitted key line starts with its key, every non-empty key is emitted in the fixed order, and the `source:` line is always present. |
| CsvMulti.YamlSplits | scripts/csv_to_md_multi.py:186-211 | A note's front matter parses back as written. |
| CsvMulti.BuildBody | scripts/csv_to_md_multi.py:213-227 | The body ends with the placeholder line and a line break. |
| CsvMulti.LiveTableMissing | scripts/csv_to_md_multi.py:149-161 | For any enumeration of the live alias sets, a canonical field is unmapped exactly when none of its aliases names a header. |
| CsvMulti.BlogTableMissing | scripts/csv_to_md_multi.py:163-173 | For any enumeration of the blog alias sets, a canonical field is unmapped exactly when none of its aliases names a header. |
| CsvMulti.WithTag | scripts/csv_to_md_multi.py:259-262 | The session tag is appended only when absent: the earlier tags keep their places and no duplicate appears. |
| CsvMulti.WithTagIsDedup | scripts/csv_to_md_multi.py:259-262 | Appending when absent is order-preserving deduplication of the tags plus the new one. |
| CsvMulti.LiveTags | scripts/csv_to_md_multi.py:244-262 | The tags are non-empty and free of duplicates and whitespace, and include the slug of a non-empty session id. |
| CsvMulti.BaseTags | scripts/csv_to_md_multi.py:244 | Tags default to `["live-session"]` when the cell gives none. |
| CsvMulti.LiveVideo | scripts/csv_to_md_multi.py:247-250 | A video cell wins. Otherwise the URL is picked from the description, preferring a video host, and is empty when there are no URLs. |
| CsvMulti.LiveMeta | scripts/csv_to_md_multi.py:276-285 | The title, date and video URL are recorded as derived, and the site is `academy`. |
| CsvMulti.LiveDraft | scripts/csv_to_md_multi.py:238-290 | A live row gives a note with source `live-session`, non-empty duplicate-free tags, clean list fields and a well-formed slug. |
| CsvMulti.LiveBlankTitle | scripts/csv_to_md_multi.py:239-256 | A whitespace-only title survives the `or` but is stripped to nothing, so the title key is left out and the slug is `session`. |
| CsvMulti.LiveDraftVideo | scripts/csv_to_md_multi.py:247-250 | The note's video URL is the one the row's cells give. |
| CsvMulti.SiteName | scripts/csv_to_md_multi.py:329 | The site is `cpa` exactly for `cpa`, else `rrjr`. |
| CsvMulti.BlogDraft | scripts/csv_to_md_multi.py:309-336 | A blog row gives a note with duplicate-free, clean list fields and a well-formed slug. CsvMulti.BlogDraftFields states what it takes from each cell. |
| CsvMulti.BlogDraftFields | scripts/csv_to_md_multi.py:310-335 | The title is the stripped title cell, or `Untitled` when the cell is empty. The body is the Markdown of the description unless the description is blank after stripping, in which case it is the excerpt's. A `cpa` site gives source `blog-cpa` and site `cpa`, and any other site gives `blog-rrjr` and `rrjr`. The slug is the slug of the title. |
| CsvMulti.BlogTitle | scripts/csv_to_md_multi.py:310-335 | The title defaults to `Untitled` and is stripped, and the file slug is made from it. |
| CsvMulti.BlogBody | scripts/csv_to_md_multi.py:314-321 | The description is preferred, and a blank description falls back to the excerpt. |
| CsvMulti.BlogSite | scripts/csv_to_md_multi.py:328-331 | The `site` value and the `blog-` source follow `--site`: `cpa`, else `rrjr`. |
| CsvMulti.BlogBlankTitle | scripts/csv_to_md_multi.py:310-335 | A title cell holding only whitespace strips to an empty title, and the note is named `untitled`. |
| CsvMulti.BlogMeta | scripts/csv_to_md_multi.py:323-329 | The front matter records the title, date, author, URL and site it is given. |
| CsvMulti.WriteDrafts | scripts/csv_to_md_multi.py:290-293 | Each note is written once under a fresh name, with its text. |
| CsvMulti.WriteDraftsNames | scripts/csv_to_md_multi.py:290-292 | Each name is what `safe_write_unique` picks among the names taken so far. |
| CsvMulti.ProcessLive | scripts/csv_to_md_multi.py:230-295 | No header row is the error named by the script. Otherwise there is one written note per row, in row order, each under a fresh name and holding that row's note. |
| CsvMulti.ProcessBlog | scripts/csv_to_md_multi.py:298-341 | No header row is the error named by the script. Otherwise there is one written note per row, in row order, each under a fresh name and holding that row's note. |
| CsvMulti.DraftSplits | scripts/csv_to_md_multi.py:287-288 | A written note parses back as its front matter followed by its body. |
| Headers.KeyMapSpec | scripts/csv_to_md_multi.py:177 | Every header's lowered, stripped form is a key. Each key maps to the last header with that form. |
| Headers.FirstAlias | scripts/csv_to_md_multi.py:179-182 | Aliases are tried in order and the first one that names a header is taken. |
| Headers.NormalizeHeaders | scripts/csv_to_md_multi.py:175-183 | Only canonical fields are mapped. |
| Headers.NormalizeHeadersFound | scripts/csv_to_md_multi.py:175-183 | A mapped field maps to a real header, the last with its lowered form. The alias chosen names that header, and no earlier alias names any header. |
| Headers.NormalizeHeadersMissing | scripts/csv_to_md_multi.py:175-183 | A field is unmapped exactly when no alias names any header. |
| Headers.EnumeratedMissing | scripts/csv_sessions_to_md.py:138-147 | Whatever order a Python set yields its aliases in, a field is unmapped exactly when no alias in the set names a header. |
| Headers.SpacedAliasNeverMatches | scripts/csv_sessions_to_md.py:141-144 | An alias with leading or trailing whitespace never names a header. |
| UniqueNames.SafeWriteUnique | scripts/csv_to_md_multi.py:134-146 | The loop terminates on any finite set of names. The result is not taken, and an untaken name is kept. |
| UniqueNames.SafeNameFromIsFirstFree | scripts/csv_to_md_multi.py:139-144 | Started on the `k`-th name of the chain of renamings with all names before it taken, the loop returns the `n`-th name for some `n` at least `k`, and all `n` names before it are taken: the result is the first untaken name of the chain. |
| UniqueNames.StemSuffix | scripts/csv_to_md_multi.py:140-141 | A name's stem followed by its suffix gives back the name. |
| UniqueNames.CumulativeSuffixes | scripts/csv_to_md_multi.py:140-144 | Suffixes pile up: `x.md`, `x-1.md`, `x-1-2.md`, and so on. |
| UniqueNames.RenamedMd | scripts/csv_to_md_multi.py:140-141 | Renaming inserts `-i` before the `.md` suffix. |
| UniqueNames.FirstFree | scripts/csv_sessions_to_md.py:249-254 | The result is not taken. It is the first untaken name among `slug.md`, `slug-1.md`, `slug-2.md`, and so on, and `slug.md` when that is free. |
| UniqueNames.NumberedInjective | scripts/csv_sessions_to_md.py:253 | Different counters give different names, so the search always ends. |
| CsvSessions.NameColumnMissedAsWritten | scripts/csv_sessions_to_md.py:38 | With the aliases as written, a column headed `Name` is never taken as the title. |
| CsvSessions.NameColumnFoundCorrected | scripts/csv_sessions_to_md.py:38 | With `name` as the alias, a `Name` column is the title. |
| CsvSessions.NameAliasAsWrittenNeverMatches | scripts/csv_sessions_to_md.py:38 | The alias `"name, "` can never name any header. |
| CsvSessions.FindTranscript | scripts/csv_sessions_to_md.py:150-159 | Without a directory there is no match. With one, there is no match exactly when no listed `.md`/`.txt` file names the session id or the slug, and a match is the first such file with its backslashes turned into slashes. |
| CsvSessions.Slashed | scripts/csv_sessions_to_md.py:158 | No backslash is left, and every other character is kept in place. |
| CsvSessions.BuildYaml | scripts/csv_sessions_to_md.py:162-175 | The front matter is `---`, the non-empty keys unquoted in the fixed order ending with `related_transcript`, the list lines and `source: live-session`, then `---`. |
| CsvSessions.BaseTags | scripts/csv_sessions_to_md.py:204-205 | The tags are the cell's tags, or `["live-session"]` when it gives none. |
| CsvSessions.AddTag | scripts/csv_sessions_to_md.py:212 | The result has no duplicates and holds exactly the old tags and the new one. On duplicate-free tags the old tags keep their places, and the new tag is appended at the end exactly when it is absent. |
| CsvSessions.SessionTags | scripts/csv_sessions_to_md.py:205-212 | The tags are non-empty and duplicate-free. They begin with the base tags in their order. The slug of a non-empty session id comes last unless it is already among them. |
| CsvSessions.SessionMeta | scripts/csv_sessions_to_md.py:216-225 | The title, date and transcript are recorded as derived. |
| CsvSessions.SessionDraft | scripts/csv_sessions_to_md.py:194-225 | A row gives a note with a non-empty title, duplicate-free tags and topics, a well-formed slug and the matched transcript. The slug is the one the script's own `title and` test gives for that title. |
| CsvSessions.SessionBlankTitle | scripts/csv_sessions_to_md.py:195-210 | A whitespace-only title is kept verbatim, and its slug is `untitled`. |
| CsvSessions.WriteDrafts | scripts/csv_sessions_to_md.py:249-256 | Each note is written once under a fresh name, with its text. |
| CsvSessions.WriteDraftsNames | scripts/csv_sessions_to_md.py:249-254 | Each name is the first free numbered name among those taken so far. |
| CsvSessions.ProcessSessions | scripts/csv_sessions_to_md.py:187-256 | No header row is the error named by the script. Otherwise there is one written note per row, in row order, each under a fresh name and holding that row's note. |
| CsvSessions.DraftSplits | scripts/csv_sessions_to_md.py:230-246 | A written note parses back as its front matter followed by its body. |
| BuildIndex.ParseFrontMatter | scripts/build_index.py:30-42 | Without a block the result is `({}, text)`. With one, the body follows the first closing delimiter, and the metadata is what YAML loading gave when truthy, else `{}`. |
| BuildIndex.NoFrontMatter | scripts/build_index.py:32-42 | Text not starting with `---` and a line break comes back whole, with no metadata. |
| CsvTable.QaLines | scripts/build_index.py:88-96 | Blank rows are skipped, as are rows whose two trimmed cells are both empty. Every other row gives one entry in order, and a non-blank row with one cell fails on that row. |
| CsvTable.LoadCsv | scripts/build_index.py:71-106 | No rows give `""`. A question/answer header (trimmed, any case) gives the entries joined by line breaks, and any other header gives the table. |
| CsvTable.EntryLines | scripts/build_index.py:95 | An entry reads back as its `### Q:` line, its `A:` line and a final line break. |
| CsvTable.RowCells | scripts/build_index.py:103 | A table row split on `\|` gives back its stripped cells. |
| CsvTable.TableLines | scripts/build_index.py:99-104 | The table reads back as the header line, a separator with one ` --- ` per header, then one line per data row. |
| CsvTable.Rule | scripts/build_index.py:99 | The separator has one ` --- ` cell per header. |
| BuildIndex.LoaderFor | scripts/build_index.py:108-116 | A loader exists exactly for the seven listed extensions. |
| BuildIndex.Load | scripts/build_index.py:44-106 | Of the modelled failures, only a short Q&A CSV row makes loading fail: text decoding and the PDF and DOCX readers, which can also raise, are parameters. PDF, DOCX and CSV files carry no metadata. |
| Paths.IgnoreByComponents | scripts/build_index.py:122-128 | A path is ignored exactly when a component of its normalised form starts with `.` or is `_assets`. A relative path that normalises to `.` is ignored too. |
| Paths.IgnoreWithoutParent | scripts/build_index.py:122-128 | For a path without `..`, it is ignored exactly when one of its non-empty, non-`.` parts is hidden or `_assets`. |
| Paths.NormComps | scripts/build_index.py:123 | Normalised components are never empty or `.`; `..` survives only at the front of a relative path. |
| Paths.NormCompsNoParent | scripts/build_index.py:123 | Without `..`, normalising just drops the empty and `.` parts. |
| Paths.BaseName | scripts/build_index.py:142 | The base name is the part of the path after its last `/`. |
| Paths.SplitExt | scripts/build_index.py:135 | Stem and extension make up the path. The extension is empty or a `.` followed by no `.` or `/`, and a leading dot does not start one. |
| Paths.SplitExtOf | scripts/build_index.py:135 | A name `stem.e` splits into `stem` and `.e`. |
| Paths.ExtOfBaseName | scripts/build_index.py:135 | A path and its base name have the same extension. |
| Paths.CommonPrefix | scripts/build_index.py:131 | The length of the longest common prefix of two component lists. |
| Paths.RelPathUnder | scripts/build_index.py:131 | A path under a root, taken relative to that root, is the rest of the path. |
| Paths.SourceUrlUnderRoot | scripts/build_index.py:130-132 | A file at `data/raw/rest` gets the source URL `/raw/rest`. |
| Paths.MakeSourceUrl | scripts/build_index.py:130-132 | Every source URL starts with `/raw/`. |
| BuildIndex.Fields | scripts/build_index.py:142-159 | The filename, extension and relative path are recorded. The source URL is always truthy, tags default to `[]` and the category to None. |
| BuildIndex.MakeDocument | scripts/build_index.py:134-160 | An unsupported extension is the error naming this path, and the only way to get that error. A made document has a truthy title. |
| BuildIndex.DocumentFields | scripts/build_index.py:140-160 | A document's metadata is the defaulted fields of what its loader read. |
| BuildIndex.TitleNeverEmpty | scripts/build_index.py:143 | The title falls back to the stem of the file name, which is never empty for a supported file. |
| BuildIndex.DocumentDefaults | scripts/build_index.py:143-158 | Without front matter a file under `data/raw` gets: its stem as title, `[]` as tags and None as category; `/raw/` plus its relative path as source URL; that relative path as `relpath`; its modification date as `last_updated`. |
| BuildIndex.BareLoaders | scripts/build_index.py:56-106 | PDF, DOCX and CSV documents carry no front-matter metadata. |
| BuildIndex.Stored | scripts/build_index.py:149-159 | A document stores exactly the eight metadata keys. |
| BuildIndex.Selection | scripts/build_index.py:165-178 | The selected paths are sorted. They are exactly the files that are not ignored and have a supported extension, each as often as listed. |
| BuildIndex.SelectedSupported | scripts/build_index.py:175 | Every selected file has a loader. |
| BuildIndex.SelectionEmpty | scripts/build_index.py:179-180 | The selection is empty exactly when no file qualifies. |
| BuildIndex.MakeAll | scripts/build_index.py:182 | Either every path gives its document, in order, or the first failing path's error is the result. |
| BuildIndex.SelectedMakeAll | scripts/build_index.py:175-182 | Loading selected files never fails for an unsupported extension. |
| BuildIndex.BuildDocuments | scripts/build_index.py:163-182 | No qualifying file is exactly the "No supported files" error. Otherwise there is one document per selected path in sorted order, and never an unsupported-type error. |
| Sorting.Sort | scripts/build_index.py:178 | The result is sorted by code point and is a permutation of the input. |
| Sorting.SortedUnique | scripts/build_index.py:178 | Two sorted permutations of the same paths are equal, so the order is fully determined. |
| Sorting.Insert | scripts/build_index.py:178 | Inserting into a sorted list keeps it sorted and adds exactly that element. |
| Sorting.BelowTotal | scripts/build_index.py:178 | Any two paths compare one way or the other. |
| Sorting.BelowAntisym | scripts/build_index.py:178 | Paths that compare both ways are equal. |
| Query.Pick | app/main.py:102-112 | The eight metadata keys, each with the node's value or None. |
| Query.PickRecoversStored | app/main.py:102-112 | Picking from what the indexer stored gives back that metadata exactly. |
| Query.SourcesAreStored | app/main.py:214 | Each source of an answer is the stored metadata of the node in that position. |
| Query.Snippet | app/main.py:120-126 | At most 200 characters with no line break. It is a prefix of the stripped text, and a short snippet reaches the text's end or its first line break. |
| Query.FallbackTitle | app/main.py:123 | Always truthy. It is the metadata title whenever that is truthy. |
| Query.SuggestionAsWritten | app/main.py:121-128 | As written, a suggestion's title is the raw metadata title, because `**pick(m)` comes last. |
| Query.UntitledSuggestion | app/main.py:123-127 | A node with a file name but no title gets a None title as written, not the file name. |
| Query.Suggestion | app/main.py:121-128 | A suggestion has the metadata keys plus `snippet`, and its title is the fallback title, always truthy. |
| Query.SuggestionFields | app/main.py:124-127 | Apart from the title, a suggestion carries the snippet and the node's own value under each metadata key. |
| Query.SuggestionsDifferInTitle | app/main.py:121-128 | Written and intended suggestions agree on every key but the title. |
| Query.Suggestions | app/main.py:118-129 | One corrected suggestion per node among the first `min(3, n)`, in order. |
| Query.SuggestionsAsWritten | app/main.py:118-129 | One suggestion as written per node among the first `min(3, n)`, in order. |
| Query.SameWhenTitled | app/main.py:121-128 | For a node with a truthy title, the written and the corrected suggestion are equal. |
| Query.DeclinedAsWritten | app/main.py:116-129 | A declined reply's suggestions match the written ones in number. They agree on every key but the title, and agree outright for nodes with a truthy title. |
| Query.CleanLine | app/main.py:149-155 | A line is dropped exactly when it is empty after stripping spaces, dashes and tabs. A numbered stripped line gives its stripped text after the first dot. Any other stripped line is kept as it is. |
| Query.Rephrases | app/main.py:132-158 | The first `min(3, n)` non-empty cleaned lines of the reply, in reply order. A failed call gives none. |
| Query.RephrasesOfPhrases | app/main.py:148-156 | A reply whose lines each clean to a non-empty phrase gives its first three phrases, in order. |
| Query.RephrasesOfNumberedList | app/main.py:148-156 | A numbered list `1. a`, `2. b`, ... gives back its first three phrases. |
| Query.NumberedItem | app/main.py:152-154 | A numbered line `N. phrase` gives back the phrase. |
| Query.TagsText | app/main.py:185 | Missing or falsy tags give `""`. A list of strings gives the strings joined by `, `, and a string gives its characters joined by `, `. Anything else raises. |
| Query.TagsJoined | app/main.py:185 | Three tags give `a, b, c`; one tag gives itself. |
| Query.MetaBlock | app/main.py:181-189 | The block exists exactly when the tags can be joined. |
| Query.MetaBlockLines | app/main.py:181-189 | The block reads back as its six labelled lines, each closed by a line break. |
| Query.FileLine | app/main.py:188 | The `File:` line shows `relpath` when truthy, else `filename`. |
| Query.Context | app/main.py:191-196 | No nodes give "No context retrieved.". Otherwise the blocks are joined by a blank line, and the context fails exactly when some node's block raises. |
| Query.Blocks | app/main.py:191-194 | One block per node, in order. |
| Query.QueryKb | app/main.py:94-221 | Below the threshold: no answer, no sources, the corrected suggestions and the parsed rephrasings. At or above it: the answer from the context, with one picked source per node in retrieval order. The answer is the chat call's content, which may be `None`. The score and threshold are echoed and `strict` is set. A failing metadata block fails the request, and so does a raising answer call, with that call's error; a raising rephrase call does not. |
| Query.AnswerRaises | app/main.py:207-212 | When the score is answered and the context builds, an answer call that raises fails the whole request with that error. |
| Query.NothingRetrieved | app/main.py:94-115 | With no nodes the score is `0.0`, so any positive threshold declines with no suggestions. |
| Query.ThresholdAnswers | app/main.py:115-212 | A top score equal to the threshold is answered, not declined: the reply succeeds exactly when the answer call does, and carries its content or its error. |
| Reindex.Request | app/main.py:224-240 | While a build runs, the call answers `already_running` and changes nothing. Otherwise it answers `started` and holds the lock for one more build. |
| Reindex.Finish | app/main.py:232-237 | A finishing build always leaves the lock free. |
| Reindex.StatusText | app/main.py:227-240 | The two statuses have distinct texts. |
| Reindex.RunKeepsInv | app/main.py:224-240 | Over any sequence of requests and completions, the lock is held exactly while one build runs and never two run at once. Every started build has finished or is the one running. |
| Reindex.SecondPostRefused | app/main.py:224-227 | A second request before the first build ends is refused. |

## Left out

- The chat model, retriever, embedding and vector store: OpenAI, LlamaIndex and Chroma are outside calls. Retrieved nodes are a parameter. The rephrase call is a function that gives text, or nothing when it raises. The answer call is a function that gives the message content (possibly `None`) or the error it raises. The prompt wording is not modelled.
- The miss log, the last-indexed time stamp, `/stats`, the background subprocess and thread timing in `/reindex`: these are file I/O and concurrency. The lock is a two-state machine whose events are requests and build completions.
- `KB_SIM_THRESHOLD`: the threshold is a parameter, and `DefaultThreshold` is the value used when it is unset. Scores are reals, not floats.
- `html_to_md`, `extract_urls`, `strptime`, `date.today()`, `os.path.getmtime`, `yaml.safe_load`, the PDF and DOCX readers and `csv.reader`: each is a parameter of the model or an input already parsed. So is the way an f-string renders a non-string metadata value in the context block (`None` as `None`, a list as its repr): Query's `show` parameter stands for it.
- Dictionary key order in the JSON replies and stored metadata: maps in the model are unordered.
- Query.Suggestions: builds each suggestion with the corrected title (the title, else the file name, else "Untitled"). app/main.py:121-128 builds it with the raw metadata title, because `**pick(m)` comes last. Query.SuggestionsAsWritten builds the written list, and Query.DeclinedAsWritten shows that the two differ only in titles of nodes without a truthy title (see Findings).
- Query.QueryKb: a declined reply carries the corrected suggestions, not the written ones, for the same reason as Query.Suggestions. Query.DeclinedAsWritten relates the two.
- Query.TagsText: a truthy mapping under `tags` is joined over its keys by Python. The model treats it as a failure, because the keys' insertion order is not modelled.
- BuildIndex.Load: a `read_text` decoding error or a raising PDF or DOCX reader fails loading in the source. In the model the readers are total parameters, so those failures are not represented.
- BuildIndex.Selection: the `os.walk` pruning of ignored directories is not modelled. Only the per-file check is. For paths without `..` the two agree (Paths.IgnoreWithoutParent).
- The transcript lookup in the live mode of scripts/csv_to_md_multi.py: its result is never written into the note, so it has no effect.
- `str.lower`, `str.isdigit` and `\d`: modelled on ASCII characters only.
- Windows path separators: paths use `/` only.
- scripts/bulk_index_all.py, scripts/batch_upload.py, scripts/transfer_to_railway.py and scripts/sync_document_tracking.py: HTTP upload plumbing, not part of this model.
- scripts/academy_site_scraper.py and app/prompts.py: a web crawler and a prompt constant, not part of this model.

## Findings

| source | as written | input that shows it | evidently intended | confidence | as-written member | corrected member |
|---|---|---|---|---|---|---|
| app/main.py:120-127 | The suggestion sets `title` to the title-or-filename-or-"Untitled" fallback, then `**pick(m)` overwrites it with the raw `m.get("title")` | A node whose metadata is `{"filename": "a.md"}` | The title falls back to the file name, then "Untitled", so it is never empty | not executed | Query.UntitledSuggestion | Query.Suggestion |
| scripts/csv_sessions_to_md.py:38 | The title aliases include `"name, "`, with a comma and a trailing space, which no stripped header can equal | A CSV whose title column is headed `Name` | The alias `"name"`, so that a `Name` column supplies the title | not executed | CsvSessions.NameColumnMissedAsWritten | CsvSessions.NameColumnFoundCorrected |

=== FILE: build_index.dfy ===
/** scripts/build_index.py up to the vector store: which files under the raw
    root are collected, and how each becomes a document whose metadata the
    assistant later cites. */
module BuildIndex {
  import opened Wrappers
  import opened Text
  import opened Lists
  import opened FrontMatter
  import opened Paths
  import opened Sorting
  import opened CsvTable
  import opened Values

  /** `parse_front_matter(text)`; `load` stands for `yaml.safe_load`, with
      `None` where it raises. A block that fails to load or loads to
      something falsy gives `{}`. */
  function ParseFrontMatter(text: string, load: string -> Option<Value>): (r: (Value, string))
    ensures r.0 == NoMeta || Truthy(r.0)
    ensures r.1 == SplitFrontMatter(text).body
    ensures SplitFrontMatter(text).yaml.None? ==> r == (NoMeta, text)
    ensures r.0 != NoMeta ==> load(SplitFrontMatter(text).yaml.value) == Some(r.0)
  {
    var split := SplitFrontMatter(text);
    if split.yaml.None? then (NoMeta, split.body)
    else
      match load(split.yaml.value)
      case Some(v) => (if Truthy(v) then v else NoMeta, split.body)
      case None => (NoMeta, split.body)
  }

  /** A text that does not open with a `---` line has no front matter. */
  lemma NoFrontMatter(text: string, load: string -> Option<Value>)
    requires !StartsWith(text, "---\n")
    ensures ParseFrontMatter(text, load) == (NoMeta, text)
  {
  }

  // ---------- loaders ----------

  datatype Loader = MdOrTxt | Html | Pdf | Docx | Csv

  /** The keys of `LOADERS`. */
  const LoaderExts: set<string> := {".md", ".txt", ".html", ".htm", ".pdf", ".docx", ".csv"}

  /** `LOADERS.get(ext)` */
  function LoaderFor(ext: string): (l: Option<Loader>)
    ensures l.Some? <==> ext in LoaderExts
  {
    if ext == ".md" || ext == ".txt" then Some(MdOrTxt)
    else if ext == ".html" || ext == ".htm" then Some(Html)
    else if ext == ".pdf" then Some(Pdf)
    else if ext == ".docx" then Some(Docx)
    else if ext == ".csv" then Some(Csv)
    else None
  }

  /** `os.path.splitext(path)[1].lower()` */
  function Ext(path: string): (ext: string)
    ensures |ext| == |SplitExt(path).1|
  {
    Lower(SplitExt(path).1)
  }

  /** What the script takes from outside: the files' contents as text, as
      PDF pages, as DOCX paragraphs and as CSV rows; the YAML and HTML
      converters; the files' modification dates; the working directory. */
  datatype Env = Env(
    read: string -> string,
    load: string -> Option<Value>,
    htmlToMd: string -> Option<string>,
    pdfPages: string -> seq<string>,
    docxParagraphs: string -> seq<string>,
    csvRows: string -> seq<seq<string>>,
    mtimeDate: string -> string,
    cwd: string)

  /** Why building stops. */
  datatype Error =
    | Unsupported(path: string)        // SystemExit in make_document
    | NoFiles                          // SystemExit in main
    | ShortCsvRow(row: seq<string>)    // IndexError in load_csv
    | NotAMapping(path: string)        // AttributeError on meta.get

  /** The text the two `SystemExit`s print. */
  function Message(e: Error): string {
    match e
    case Unsupported(path) => "Unsupported file type encountered: " + path
    case NoFiles => "No supported files found under " + RawRoot
    case ShortCsvRow(_) => "list index out of range"
    case NotAMapping(_) => "object has no attribute 'get'"
  }

  /** The loader for `path`: front matter and body, or the error it raises. */
  function Load(env: Env, loader: Loader, path: string): (r: Result<(Value, string), Error>)
    ensures r.Failure? ==> loader == Csv && r.error.ShortCsvRow?
    ensures loader in {Pdf, Docx, Csv} && r.Success? ==> r.value.0 == NoMeta
  {
    match loader
    case MdOrTxt => Success(ParseFrontMatter(env.read(path), env.load))
    case Html =>
      var (meta, body) := ParseFrontMatter(env.read(path), env.load);
      Success((meta, env.htmlToMd(body).GetOr(body)))
    case Pdf => Success((NoMeta, Join(env.pdfPages(path), "\n\n")))
    case Docx => Success((NoMeta, Join(env.docxParagraphs(path), "\n\n")))
    case Csv =>
      match LoadCsv(env.csvRows(path))
      case Success(body) => Success((NoMeta, body))
      case Failure(row) => Failure(ShortCsvRow(row))
  }

  // ---------- make_document ----------

  datatype Metadata = Metadata(
    title: Value, tags: Value, category: Value, sourceUrl: Value, lastUpdated: Value,
    filename: string, ext: string, relpath: string)

  datatype Document = Document(text: string, metadata: Metadata)

  /** The `metadata` dict `make_document` stores with the document. */
  function Stored(md: Metadata): (m: map<string, Value>)
    ensures m.Keys == MetadataKeys
  {
    map["title" := md.title, "tags" := md.tags, "category" := md.category, "source_url" := md.sourceUrl,
        "last_updated" := md.lastUpdated, "filename" := Str(md.filename), "ext" := Str(md.ext),
        "relpath" := Str(md.relpath)]
  }

  /** The metadata of a loaded file: each front-matter field when truthy,
      else its default. */
  function Fields(env: Env, meta: map<string, Value>, path: string, ext: string): (m: Metadata)
    requires path != ""
    ensures m.filename == BaseName(path) && m.ext == ext && m.relpath == RelToRaw(path, env.cwd)
    ensures Truthy(m.sourceUrl)
    ensures Truthy(m.tags) || m.tags == Items([])
    ensures Truthy(m.category) || m.category == Null
  {
    var name := BaseName(path);
    Metadata(
      OrElse(Lookup(meta, "title"), Str(SplitExt(name).0)),
      OrElse(Lookup(meta, "tags"), Items([])),
      OrElse(Lookup(meta, "category"), Null),
      OrElse(Lookup(meta, "source_url"), Str(MakeSourceUrl(path, env.cwd))),
      OrElse(Lookup(meta, "last_updated"), Str(env.mtimeDate(path))),
      name, ext, RelToRaw(path, env.cwd))
  }

  /** What the loader for `path`'s extension returns, or `SystemExit` when
      there is none. */
  function Loaded(env: Env, path: string): (r: Result<(Value, string), Error>)
    ensures r == Failure(Unsupported(path)) <==> Ext(path) !in LoaderExts
    ensures r.Failure? ==> r.error.Unsupported? || r.error.ShortCsvRow?
  {
    match LoaderFor(Ext(path))
    case None => Failure(Unsupported(path))
    case Some(loader) => Load(env, loader, path)
  }

  /** `make_document(path)` */
  function MakeDocument(env: Env, path: string): (r: Result<Document, Error>)
    ensures r == Failure(Unsupported(path)) <==> Ext(path) !in LoaderExts
    ensures r.Failure? && r.error.Unsupported? ==> r.error.path == path
    ensures r.Failure? ==> !r.error.NoFiles?
    ensures r.Success? ==> Ext(path) in LoaderExts && path != ""
    ensures r.Success? ==> Truthy(r.value.metadata.title)
  {
    match Loaded(env, path)
    case Failure(e) => Failure(e)
    case Success((meta, text)) =>
      if !meta.Mapping? then Failure(NotAMapping(path))
      else
        TitleNeverEmpty(env, meta.entries, path);
        Success(Document(text, Fields(env, meta.entries, path, Ext(path))))
  }

  /** A made document carries the fields of the front matter its loader read. */
  lemma DocumentFields(env: Env, path: string)
    requires MakeDocument(env, path).Success?
    ensures path != ""
    ensures MakeDocument(env, path).value.metadata == Fields(env, MetaOf(env, path), path, Ext(path))
  {
  }

  /** The front matter `make_document` reads for `path`, or `{}`. */
  function MetaOf(env: Env, path: string): map<string, Value> {
    match Loaded(env, path)
    case Success((Mapping(m), _)) => m
    case _ => map[]
  }

  lemma NoEmptyExt()
    ensures "" !in LoaderExts
  {
  }

  /** A supported file always gets a title: failing the front matter's, its
      file name without the extension, which is never empty. */
  lemma TitleNeverEmpty(env: Env, meta: map<string, Value>, path: string)
    requires Ext(path) in LoaderExts
    ensures path != ""
    ensures Truthy(Fields(env, meta, path, Ext(path)).title)
  {
    ExtOfBaseName(path);
    NoEmptyExt();
  }

  /** A PDF, DOCX or CSV file, or a text file without front matter, takes
      every default: its file stem as title, no tags, no category, its
      modification date, and a source URL under `/raw/` that for a file
      below the raw root is its path below the root. */
  lemma DocumentDefaults(env: Env, rest: string)
    requires PlainRelative(rest)
    requires MakeDocument(env, RawRoot + "/" + rest).Success?
    requires MetaOf(env, RawRoot + "/" + rest) == map[]
    ensures var path := RawRoot + "/" + rest;
            var m := MakeDocument(env, path).value.metadata;
            && m.title == Str(SplitExt(BaseName(path)).0)
            && m.tags == Items([]) && m.category == Null
            && m.sourceUrl == Str("/raw/" + rest)
            && m.relpath == rest
            && (env.mtimeDate(path) != "" ==> m.lastUpdated == Str(env.mtimeDate(path)))
  {
    var path := RawRoot + "/" + rest;
    DocumentFields(env, path);
    SourceUrlUnderRoot(rest, env.cwd);
    TitleNeverEmpty(env, map[], path);
    RawRootPlain();
    RelPathUnder(RawRoot, rest, env.cwd);
  }

  /** Files whose loader adds no front matter get the defaults. */
  lemma BareLoaders(env: Env, path: string)
    requires LoaderFor(Ext(path)) in {Some(Pdf), Some(Docx), Some(Csv)}
    ensures MetaOf(env, path) == map[]
  {
  }

  // ---------- main: collecting the files ----------

  /** The walk's test on one file: no ignored component, and the file name
      has an extension with a loader. */
  predicate Selected(path: string) {
    !ShouldIgnore(path) && Ext(BaseName(path)) in LoaderExts
  }

  /** The collected paths after `paths.sort()`. */
  function Selection(files: seq<string>): (paths: seq<string>)
    ensures Sorted(paths)
    ensures forall p :: p in paths <==> p in files && Selected(p)
    ensures multiset(paths) == multiset(Filter(files, Selected))
  {
    var picked := Filter(files, Selected);
    FilterMembers(files, Selected);
    var paths := Sort(picked);
    assert forall p :: p in paths <==> p in picked by {
      forall p ensures p in paths <==> p in picked {
        assert p in paths <==> p in multiset(paths);
        assert p in picked <==> p in multiset(picked);
      }
    }
    paths
  }

  /** The walk's test on the file name agrees with `make_document`'s on the
      whole path, so a collected file is never unsupported. */
  lemma SelectedSupported(path: string)
    requires Selected(path)
    ensures Ext(path) in LoaderExts
  {
    ExtOfBaseName(path);
  }

  /** `[make_document(p) for p in paths]`: the first error stops the run. */
  function MakeAll(env: Env, paths: seq<string>): (r: Result<seq<Document>, Error>)
    ensures r.Success? ==> |r.value| == |paths| && forall i :: 0 <= i < |paths| ==> MakeDocument(env, paths[i]) == Success(r.value[i])
    ensures r.Failure? ==> exists i :: 0 <= i < |paths| && MakeDocument(env, paths[i]) == Failure(r.error)
                                     && forall j :: 0 <= j < i ==> MakeDocument(env, paths[j]).Success?
  {
    var make := p => MakeDocument(env, p);
    var r := MapAll(make, paths);
    MadeAll(env, make, paths, r);
    r
  }

  /** What `MapAll` promises of `make`, restated for `MakeDocument`. */
  lemma MadeAll(env: Env, make: string -> Result<Document, Error>, paths: seq<string>, r: Result<seq<Document>, Error>)
    requires forall p :: make(p) == MakeDocument(env, p)
    requires r.Success? ==> |r.value| == |paths| && forall i :: 0 <= i < |paths| ==> make(paths[i]) == Success(r.value[i])
    requires r.Failure? ==> exists i :: 0 <= i < |paths| && make(paths[i]) == Failure(r.error) && AllSucceed(make, paths[..i])
    ensures r.Success? ==> |r.value| == |paths| && forall i :: 0 <= i < |paths| ==> MakeDocument(env, paths[i]) == Success(r.value[i])
    ensures r.Failure? ==> exists i :: 0 <= i < |paths| && MakeDocument(env, paths[i]) == Failure(r.error)
                                     && forall j :: 0 <= j < i ==> MakeDocument(env, paths[j]).Success?
  {
    if r.Failure? {
      var i :| 0 <= i < |paths| && make(paths[i]) == Failure(r.error) && AllSucceed(make, paths[..i]);
      forall j | 0 <= j < i ensures MakeDocument(env, paths[j]).Success? {
        assert paths[..i][j] == paths[j];
        assert make(paths[..i][j]).Success?;
      }
    }
  }

  /** `main()` up to indexing: the documents of the collected files in
      sorted order. */
  function BuildDocuments(env: Env, files: seq<string>): (r: Result<seq<Document>, Error>)
    ensures r == Failure(NoFiles) <==> forall p :: p in files ==> !Selected(p)
    ensures r.Success? ==> |r.value| == |Selection(files)|
    ensures r.Success? ==> forall i :: 0 <= i < |r.value| ==> MakeDocument(env, Selection(files)[i]) == Success(r.value[i])
    ensures r.Failure? ==> !r.error.Unsupported?
  {
    var paths := Selection(files);
    SelectionEmpty(files);
    if paths == [] then
      Failure(NoFiles)
    else
      SelectedMakeAll(env, paths);
      MakeAll(env, paths)
  }

  /** Nothing is collected exactly when no file passes the walk's test. */
  lemma SelectionEmpty(files: seq<string>)
    ensures Selection(files) == [] <==> forall p :: p in files ==> !Selected(p)
  {
    var paths := Selection(files);
    if paths != [] {
      assert paths[0] in paths;
    }
  }

  /** Making the documents of collected files fails, if at all, for a
      reason other than the file type. */
  lemma SelectedMakeAll(env: Env, paths: seq<string>)
    requires forall p :: p in paths ==> Selected(p)
    ensures MakeAll(env, paths).Failure? ==> !MakeAll(env, paths).error.Unsupported? && !MakeAll(env, paths).error.NoFiles?
  {
    var r := MakeAll(env, paths);
    if r.Failure? {
      var i :| 0 <= i < |paths| && MakeDocument(env, paths[i]) == Failure(r.error);
      SelectedSupported(paths[i]);
    }
  }
}

=== FILE: compare.dfy ===
/** Where the two CSV scripts part ways in normalising a list item:
    scripts/csv_to_md_multi.py turns each whitespace run into one `-`,
    scripts/csv_sessions_to_md.py turns each space into `-` and leaves other
    whitespace alone. */
module Compare {
  import opened Text
  import Multi = CsvMulti
  import Sessions = CsvSessions

  /** Whitespace is only ever a single space, never two in a row. */
  predicate SingleSpaced(t: string) {
    && (forall i :: 0 <= i < |t| && IsSpace(t[i]) ==> t[i] == ' ')
    && (forall i :: 0 <= i < |t| - 1 ==> !(t[i] == ' ' && t[i + 1] == ' '))
  }

  /** On single-spaced text the two normalisations agree. */
  lemma {:induction false} NormsAgree(t: string)
    requires SingleSpaced(t)
    ensures Multi.NormMulti(t) == Sessions.NormSessions(t)
    decreases |t|
  {
    if |t| > 0 {
      var l, r := Lower(t), t[1..];
      assert SingleSpaced(r) by {
        assert forall i :: 0 <= i < |r| ==> r[i] == t[i + 1];
      }
      NormsAgree(r);
      LowerTail(t);
      var n := Sessions.NormSessions(t);
      assert n == [n[0]] + Sessions.NormSessions(r);
      if IsSpace(l[0]) {
        assert t[0] == ' ' && n[0] == '-';
        if |l| > 1 {
          assert t[1] != ' ';
          assert !IsSpace(l[1]);
        }
        assert Multi.SpaceRuns(l) == "-" + Multi.SpaceRuns(l[1..]);
      } else {
        assert n[0] == l[0];
        assert Multi.SpaceRuns(l) == [l[0]] + Multi.SpaceRuns(l[1..]);
      }
    }
  }

  /** Whitespace other than a space (a tab, say) survives the sessions
      normalisation but never the multi one, so the items differ. */
  lemma NormsDisagree(t: string, i: int)
    requires 0 <= i < |t| && IsSpace(t[i]) && t[i] != ' '
    ensures Multi.NormMulti(t) != Sessions.NormSessions(t)
  {
    var s := Sessions.NormSessions(t);
    assert IsSpace(s[i]);
    assert NoneSatisfy(Multi.NormMulti(t), IsSpace);
  }

  /** A run of spaces becomes one dash per space in the sessions script but
      a single dash in the multi script. */
  lemma NormsSpaceRun(a: string, w: string, b: string)
    requires NoneSatisfy(a, IsSpace) && (b == [] || !IsSpace(b[0]))
    requires |w| > 0 && forall i :: 0 <= i < |w| ==> w[i] == ' '
    ensures forall i :: |a| <= i < |a| + |w| ==> Sessions.NormSessions(a + w + b)[i] == '-'
    ensures Multi.NormMulti(a + w + b) == Lower(a) + "-" + Multi.SpaceRuns(Lower(b))
  {
    var t := a + w + b;
    assert forall i :: |a| <= i < |a| + |w| ==> t[i] == ' ';
    assert Lower(w) == w;
    LowerConcat(a, w);
    LowerConcat(a + w, b);
    assert NoneSatisfy(Lower(a), IsSpace);
    assert Lower(b) == [] || !IsSpace(Lower(b)[0]);
    Multi.SpaceRunsRun(Lower(a), w, Lower(b));
  }
}

=== FILE: csv_multi.dfy ===
/** scripts/csv_to_md_multi.py: live-session and blog CSV exports to
    Markdown notes.  Each row becomes one note whose front matter is built by
    `build_yaml` and whose body by `build_body`, written under a name that
    `safe_write_unique` keeps clear of the files already present. */
module CsvMulti {
  import opened Wrappers
  import opened Text
  import opened Lists
  import opened Slug
  import opened Dates
  import opened Headers
  import opened FrontMatter
  import opened UniqueNames
  import opened ListFields
  import opened Notes

  // ---------- split_list_field ----------

  /** The characters other than whitespace and `-`: what the `\s+` to `-`
      rewrite leaves alone. */
  function Solid(s: string): (r: string)
    ensures |r| <= |s|
    decreases |s|
  {
    if |s| == 0 then ""
    else (if IsSpace(s[0]) || s[0] == '-' then "" else [s[0]]) + Solid(s[1..])
  }

  /** `re.sub(r"\s+", "-", s)`: a whitespace character emits `-` only when
      it ends its run. */
  function SpaceRuns(s: string): (r: string)
    ensures NoneSatisfy(r, IsSpace)
    ensures |s| > 0 ==> |r| > 0
    decreases |s|
  {
    if |s| == 0 then ""
    else if !IsSpace(s[0]) then [s[0]] + SpaceRuns(s[1..])
    else if |s| > 1 && IsSpace(s[1]) then SpaceRuns(s[1..])
    else "-" + SpaceRuns(s[1..])
  }

  /** Every character of the result is a `-` or one of the input's. */
  lemma {:induction false} SpaceRunsChars(s: string)
    ensures forall i :: 0 <= i < |SpaceRuns(s)| ==> SpaceRuns(s)[i] == '-' || SpaceRuns(s)[i] in s
    decreases |s|
  {
    if |s| > 0 {
      SpaceRunsChars(s[1..]);
      var rest := SpaceRuns(s[1..]);
      forall i | 0 <= i < |rest| ensures rest[i] == '-' || rest[i] in s {
        if rest[i] != '-' {
          var j :| 0 <= j < |s[1..]| && s[1..][j] == rest[i];
          assert s[j + 1] == rest[i];
        }
      }
    }
  }

  /** Only whitespace and dashes change: the other characters come out
      as they went in, in order. */
  lemma {:induction false} SpaceRunsSolid(s: string)
    ensures Solid(SpaceRuns(s)) == Solid(s)
    decreases |s|
  {
    if |s| > 0 {
      SpaceRunsSolid(s[1..]);
      var rest := SpaceRuns(s[1..]);
      if !IsSpace(s[0]) {
        assert ([s[0]] + rest)[1..] == rest;
      } else if !(|s| > 1 && IsSpace(s[1])) {
        assert ("-" + rest)[1..] == rest;
      }
    }
  }

  /** Text without whitespace is left as it is. */
  lemma {:induction false} SpaceRunsIdentity(s: string)
    requires NoneSatisfy(s, IsSpace)
    ensures SpaceRuns(s) == s
    decreases |s|
  {
    if |s| > 0 {
      SpaceRunsIdentity(s[1..]);
      assert [s[0]] + s[1..] == s;
    }
  }

  /** A prefix without whitespace passes through unchanged. */
  lemma {:induction false} SpaceRunsPrefix(a: string, x: string)
    requires NoneSatisfy(a, IsSpace)
    ensures SpaceRuns(a + x) == a + SpaceRuns(x)
    decreases |a|
  {
    if |a| > 0 {
      var c, t := a[0], a[1..];
      assert NoneSatisfy(t, IsSpace) by {
        forall i | 0 <= i < |t| ensures !IsSpace(t[i]) {
          assert t[i] == a[i + 1];
        }
      }
      SpaceRunsPrefix(t, x);
      assert a + x == [c] + (t + x);
      SpaceRunsCons(c, t + x);
      assert [c] + (t + SpaceRuns(x)) == a + SpaceRuns(x);
    } else {
      assert a + x == x;
    }
  }

  lemma SpaceRunsCons(c: char, t: string)
    requires !IsSpace(c)
    ensures SpaceRuns([c] + t) == [c] + SpaceRuns(t)
  {
    assert ([c] + t)[1..] == t;
  }

  /** A whitespace run followed by a `b` that does not start with whitespace
      gives one `-`. */
  lemma {:induction false} SpaceRunsOfRun(w: string, b: string)
    requires |w| > 0 && forall i :: 0 <= i < |w| ==> IsSpace(w[i])
    requires b == [] || !IsSpace(b[0])
    ensures SpaceRuns(w + b) == "-" + SpaceRuns(b)
    decreases |w|
  {
    assert (w + b)[1..] == w[1..] + b;
    if |w| > 1 {
      SpaceRunsOfRun(w[1..], b);
      assert (w + b)[1] == w[1];
    }
  }

  /** A whitespace run `w` between a run-free `a` and a `b` that does not
      start with whitespace becomes exactly one `-`. */
  lemma SpaceRunsRun(a: string, w: string, b: string)
    requires NoneSatisfy(a, IsSpace) && |w| > 0 && forall i :: 0 <= i < |w| ==> IsSpace(w[i])
    requires b == [] || !IsSpace(b[0])
    ensures SpaceRuns(a + w + b) == a + "-" + SpaceRuns(b)
  {
    var wb := w + b;
    assert a + w + b == a + wb;
    SpaceRunsPrefix(a, wb);
    SpaceRunsOfRun(w, b);
    assert a + ("-" + SpaceRuns(b)) == a + "-" + SpaceRuns(b);
  }

  /** This script's normalisation: lower-case, then every whitespace run
      becomes one `-`.  (The script strips before lowering; ASCII lowering
      neither makes nor removes whitespace, so the order does not matter.) */
  function NormMulti(t: string): string {
    SpaceRuns(Lower(t))
  }

  /** What normalisation keeps of a trimmed part. */
  lemma NormMultiShape(t: string)
    requires t != "" && NoneSatisfy(t, IsListSep)
    ensures NormMulti(t) != ""
    ensures NoneSatisfy(NormMulti(t), IsSpace) && NoneSatisfy(NormMulti(t), IsListSep) && NoneSatisfy(NormMulti(t), IsUpper)
  {
    var l := Lower(t);
    assert forall i :: 0 <= i < |l| ==> !IsListSep(l[i]) && !IsUpper(l[i]);
    var r := NormMulti(t);
    SpaceRunsChars(l);
    forall i | 0 <= i < |r|
      ensures !IsListSep(r[i]) && !IsUpper(r[i])
    {
      if r[i] != '-' {
        var j :| 0 <= j < |l| && l[j] == r[i];
      }
    }
  }

  /** `split_list_field(s)`: empty for empty input; otherwise non-empty,
      repeat-free items with no whitespace, no separator and no upper-case
      letter. */
  function SplitListField(s: string): (r: seq<string>)
    ensures s == "" ==> r == []
    ensures NoDup(r)
    ensures forall i :: 0 <= i < |r| ==>
              r[i] != "" && NoneSatisfy(r[i], IsSpace) && NoneSatisfy(r[i], IsListSep) && NoneSatisfy(r[i], IsUpper)
  {
    var r := Items(s, NormMulti);
    var normed := Normed(Trimmed(s), NormMulti);
    forall i | 0 <= i < |r|
      ensures r[i] != "" && NoneSatisfy(r[i], IsSpace) && NoneSatisfy(r[i], IsListSep) && NoneSatisfy(r[i], IsUpper)
    {
      assert s != "";
      assert r[i] in normed;
      var j :| 0 <= j < |normed| && normed[j] == r[i];
      NormMultiShape(Trimmed(s)[j]);
    }
    r
  }

  /** Every trimmed part's normal form is an item, and the items keep the
      order of first appearance. */
  lemma SplitListFieldKeeps(s: string)
    requires s != ""
    ensures forall j :: 0 <= j < |Trimmed(s)| ==> NormMulti(Trimmed(s)[j]) in SplitListField(s)
    ensures forall i :: 0 <= i < |SplitListField(s)| ==> SplitListField(s)[i] in Normed(Trimmed(s), NormMulti)
    ensures forall i, j :: 0 <= i < j < |SplitListField(s)| ==>
              IndexOf(Normed(Trimmed(s), NormMulti), SplitListField(s)[i]) < IndexOf(Normed(Trimmed(s), NormMulti), SplitListField(s)[j])
  {
    ItemsOrder(s, NormMulti);
  }

  // ---------- pick_video_url ----------

  const VideoHosts: seq<string> :=
    ["youtube.com", "youtu.be", "vimeo.com", "player.vimeo.com", "wistia.com", "fast.wistia.net", "prestoplayer", "presto-player"]

  /** The URL, lower-cased, names a video host. */
  predicate IsVideo(u: string) {
    exists k :: 0 <= k < |VideoHosts| && Contains(Lower(u), VideoHosts[k])
  }

  /** `pick_video_url(urls)`: the first URL on a video host, else the first
      URL, else nothing. */
  function PickVideoUrl(urls: seq<string>): (r: Option<string>)
    ensures r.None? <==> urls == []
    ensures r.Some? ==> r.value in urls
    ensures (exists i :: 0 <= i < |urls| && IsVideo(urls[i])) ==>
              exists i :: 0 <= i < |urls| && r == Some(urls[i]) && IsVideo(urls[i]) && forall j :: 0 <= j < i ==> !IsVideo(urls[j])
    ensures urls != [] && (forall i :: 0 <= i < |urls| ==> !IsVideo(urls[i])) ==> r == Some(urls[0])
  {
    var k := Find(urls, IsVideo);
    if k < |urls| then Some(urls[k])
    else if urls == [] then None
    else Some(urls[0])
  }

  // ---------- build_yaml / build_body ----------

  /** The scalar keys, in the order `build_yaml` emits them. */
  const FieldOrder: seq<string> := ["title", "date", "session_id", "author", "url", "video_url", "duration", "speakers", "site"]

  lemma FieldOrderKeys()
    ensures NoDup(FieldOrder)
    ensures forall i :: 0 <= i < |FieldOrder| ==> IsKey(FieldOrder[i])
  {
    KeyOf("title");
    KeyOf("date");
    KeyOf("session_id");
    KeyOf("author");
    KeyOf("url");
    KeyOf("video_url");
    KeyOf("duration");
    KeyOf("speakers");
    KeyOf("site");
  }

  /** The list fields in the order `build_yaml` emits them. */
  function Named(topics: seq<string>, tags: seq<string>, categories: seq<string>): seq<(string, seq<string>)> {
    [("topics", topics), ("tags", tags), ("categories", categories)]
  }

  /** The test `if l` of the final comprehension. */
  predicate IsLine(l: string) { l != "" }

  /** `build_yaml(meta, tags, categories, topics, source)`: the empty-line
      filter never drops anything, so the result is the framed block. */
  function BuildYaml(meta: map<string, string>, tags: seq<string>, categories: seq<string>, topics: seq<string>, source: string, today: string): (y: string)
    ensures y == "---\n" + Join(BlockInner(FieldOrder, meta, true, Named(topics, tags, categories), source, today), "\n") + "\n---"
  {
    var lines := Block(FieldOrder, meta, true, Named(topics, tags, categories), source, today);
    BlockFilled(FieldOrder, meta, true, Named(topics, tags, categories), source, today);
    FilterAll(lines, IsLine);
    BlockText(FieldOrder, meta, true, Named(topics, tags, categories), source, today);
    Join(Filter(lines, IsLine), "\n")
  }

  /** The scalar keys of the block: exactly the non-empty ones, each on a
      `key: ` line, in the fixed order; the `source` line follows the list lines. */
  lemma YamlKeys(meta: map<string, string>, tags: seq<string>, categories: seq<string>, topics: seq<string>, source: string, today: string)
    ensures var keys, inner := Present(FieldOrder, meta), BlockInner(FieldOrder, meta, true, Named(topics, tags, categories), source, today);
            && (forall i :: 0 <= i < |keys| ==> Get(meta, keys[i]) != "" && StartsWith(inner[i], keys[i] + ": "))
            && (forall i :: 0 <= i < |FieldOrder| && Get(meta, FieldOrder[i]) != "" ==> FieldOrder[i] in keys)
            && (forall i, j :: 0 <= i < j < |keys| ==> IndexOf(FieldOrder, keys[i]) < IndexOf(FieldOrder, keys[j]))
            && inner[|inner| - 2] == "source: " + source
  {
    FieldOrderKeys();
    PresentOrder(FieldOrder, meta);
    BlockKeys(FieldOrder, meta, true, Named(topics, tags, categories), source, today);
  }

  /** `parse_front_matter` gives back the block and the body of a note this
      script writes, provided no value or list item breaks a line. */
  lemma YamlSplits(meta: map<string, string>, tags: seq<string>, categories: seq<string>, topics: seq<string>, source: string, today: string, body: string)
    requires forall i :: 0 <= i < |FieldOrder| ==> NoNewline(Get(meta, FieldOrder[i]))
    requires forall i :: 0 <= i < |tags| ==> NoNewline(tags[i])
    requires forall i :: 0 <= i < |categories| ==> NoNewline(categories[i])
    requires forall i :: 0 <= i < |topics| ==> NoNewline(topics[i])
    requires NoNewline(source) && NoNewline(today)
    ensures SplitFrontMatter(BuildYaml(meta, tags, categories, topics, source, today) + "\n\n" + body)
         == Split(Some(Join(BlockInner(FieldOrder, meta, true, Named(topics, tags, categories), source, today), "\n")), "\n" + body)
  {
    var named := Named(topics, tags, categories);
    FieldOrderKeys();
    NamedLines(topics, tags, categories);
    BlockSplits(FieldOrder, meta, true, named, source, today, body);
  }

  lemma NamedLines(topics: seq<string>, tags: seq<string>, categories: seq<string>)
    requires forall i :: 0 <= i < |tags| ==> NoNewline(tags[i])
    requires forall i :: 0 <= i < |categories| ==> NoNewline(categories[i])
    requires forall i :: 0 <= i < |topics| ==> NoNewline(topics[i])
    ensures var named := Named(topics, tags, categories);
            forall i :: 0 <= i < |named| ==> IsKey(named[i].0) && forall j :: 0 <= j < |named[i].1| ==> NoNewline(named[i].1[j])
  {
    KeyOf("topics");
    KeyOf("tags");
    KeyOf("categories");
  }

  /** `build_body(description_md, topics)`: the description is stripped. */
  function BuildBody(descMd: string, topics: seq<string>): (b: string)
    ensures EndsWith(b, Placeholder + "\n")
  {
    var head := if descMd != "" then Some(Strip(descMd)) else None;
    BodyEnds(head, topics);
    Body(head, topics)
  }

  // ---------- process_live / process_blog ----------

  const LiveAliases: map<string, set<string>> := map[
    "session_id" := {"session id", "id", "session_id", "sid", "code"},
    "title" := {"title", "session title", "post title", "lesson title", "event"},
    "date" := {"date", "session date", "event date", "published", "publish date"},
    "description" := {"content", "description", "desc", "abstract", "blurb", "summary"},
    "topics" := {"topics", "topic list", "keywords"},
    "tags" := {"tags", "labels"},
    "categories" := {"categories"},
    "url" := {"url", "page url", "link", "permalink"},
    "video_url" := {"video url", "recording url", "youtube", "vimeo"},
    "duration" := {"duration", "length"},
    "speakers" := {"speakers", "presenter", "host", "instructor"}]

  const BlogAliases: map<string, set<string>> := map[
    "title" := {"title"},
    "date" := {"date", "published", "publish date"},
    "description" := {"content", "body", "html", "post", "article"},
    "excerpt" := {"excerpt", "summary"},
    "tags" := {"tags", "labels"},
    "categories" := {"categories"},
    "topics" := {"topics", "keywords"},
    "url" := {"url", "permalink", "link"},
    "author" := {"author"}]

  /** `table` lists `LIVE_ALIASES` in one of its iteration orders. */
  predicate LiveTable(table: AliasTable) {
    Enumerates(table, LiveAliases)
  }

  /** `table` lists `BLOG_ALIASES` in one of its iteration orders. */
  predicate BlogTable(table: AliasTable) {
    Enumerates(table, BlogAliases)
  }

  /** With the live table, a field goes unmapped exactly when none of its
      aliases names a column. */
  lemma LiveTableMissing(table: AliasTable, headers: seq<string>, c: string)
    requires LiveTable(table) && c in LiveAliases
    ensures c !in NormalizeHeaders(table, headers) <==>
            forall a, i :: a in LiveAliases[c] && 0 <= i < |headers| ==> !Names(a, headers[i])
  {
    EnumeratedMissing(table, LiveAliases, headers, c);
  }

  /** With the blog table, a field goes unmapped exactly when none of its
      aliases names a column. */
  lemma BlogTableMissing(table: AliasTable, headers: seq<string>, c: string)
    requires BlogTable(table) && c in BlogAliases
    ensures c !in NormalizeHeaders(table, headers) <==>
            forall a, i :: a in BlogAliases[c] && 0 <= i < |headers| ==> !Names(a, headers[i])
  {
    EnumeratedMissing(table, BlogAliases, headers, c);
  }

  /** What one row yields: the front-matter values (an empty value stands
      for `None`), the three lists, the `source` tag, the Markdown of the
      body, and the date and slug that make up the file name. */
  datatype Draft = Draft(meta: map<string, string>, topics: seq<string>, tags: seq<string>, categories: seq<string>,
                         source: string, descMd: string, dateIso: string, slug: string)
  {
    /** `f"{date_iso+'-' if date_iso else ''}{slug}.md"` */
    function FileName(): string {
      (if dateIso != "" then dateIso + "-" else "") + slug + ".md"
    }
  }

  /** The note text: `f"{yaml}\n\n{build_body(body_md, topics)}"`. */
  function DraftText(d: Draft, today: string): string {
    BuildYaml(d.meta, d.tags, d.categories, d.topics, d.source, today) + "\n\n" + BuildBody(d.descMd, d.topics)
  }

  /** No list item holds whitespace. */
  predicate ListsClean(d: Draft) {
    && (forall i :: 0 <= i < |d.topics| ==> NoneSatisfy(d.topics[i], IsSpace))
    && (forall i :: 0 <= i < |d.tags| ==> NoneSatisfy(d.tags[i], IsSpace))
    && (forall i :: 0 <= i < |d.categories| ==> NoneSatisfy(d.categories[i], IsSpace))
  }

  /** A slug has no whitespace. */
  lemma SlugSpaceless(slug: string)
    requires IsSlug(slug)
    ensures NoneSatisfy(slug, IsSpace)
  {
  }

  /** `if t not in tags: tags.append(t)` */
  function WithTag(tags: seq<string>, t: string): (r: seq<string>)
    requires NoDup(tags)
    ensures NoDup(r)
    ensures forall x :: x in r <==> x in tags || x == t
    ensures |r| == |tags| + (if t in tags then 0 else 1)
    ensures forall i :: 0 <= i < |tags| ==> r[i] == tags[i]
  {
    if t in tags then tags
    else
      assert NoDup(tags + [t]) by {
        forall i, j | 0 <= i < j < |tags| + 1 ensures (tags + [t])[i] != (tags + [t])[j] {
          if j == |tags| { assert (tags + [t])[i] == tags[i]; }
        }
      }
      tags + [t]
  }

  /** Appending when absent is what the sessions script's
      `list(dict.fromkeys(tags + [t]))` does too. */
  lemma WithTagIsDedup(tags: seq<string>, t: string)
    requires NoDup(tags)
    ensures WithTag(tags, t) == Dedup(tags + [t])
  {
    DedupAppend(tags, t);
  }

  /** The slug of a session id, used as a tag. */
  function SidTag(sid: string): (t: string)
    ensures t != "" && NoneSatisfy(t, IsSpace)
  {
    SlugSpaceless(Slugify(sid));
    Slugify(sid)
  }

  /** `split_list_field(...) or ["live-session"]` */
  function BaseTags(tagCell: string): (tags: seq<string>)
    ensures tags != [] && NoDup(tags)
    ensures forall i :: 0 <= i < |tags| ==> NoneSatisfy(tags[i], IsSpace)
    ensures SplitListField(tagCell) == [] ==> tags == [DefaultTag]
  {
    var split := SplitListField(tagCell);
    if split != [] then split
    else
      DefaultTagSpaceless();
      [DefaultTag]
  }

  /** The tags of a live session: the split tag cell or `["live-session"]`,
      then the session id's slug when it is not there yet. */
  function LiveTags(tagCell: string, sid: string): (tags: seq<string>)
    ensures tags != [] && NoDup(tags)
    ensures forall i :: 0 <= i < |tags| ==> NoneSatisfy(tags[i], IsSpace)
    ensures sid != "" ==> Slugify(sid) in tags
  {
    var base := BaseTags(tagCell);
    if sid == "" then base
    else
      var t := SidTag(sid);
      WithTagSpaceless(base, t);
      WithTag(base, t)
  }

  /** Adding a tag without whitespace to tags without whitespace. */
  lemma WithTagSpaceless(tags: seq<string>, t: string)
    requires NoDup(tags) && NoneSatisfy(t, IsSpace)
    requires forall i :: 0 <= i < |tags| ==> NoneSatisfy(tags[i], IsSpace)
    ensures forall i :: 0 <= i < |WithTag(tags, t)| ==> NoneSatisfy(WithTag(tags, t)[i], IsSpace)
  {
    var r := WithTag(tags, t);
    forall i | 0 <= i < |r| ensures NoneSatisfy(r[i], IsSpace) {
      if i >= |tags| {
        assert r == tags + [t];
      }
    }
  }

  /** The front-matter values of a live session, `site` fixed to `academy`. */
  function LiveMeta(title: string, dateIso: string, sid: string, url: string, video: string,
                    duration: string, speakers: string): (m: map<string, string>)
    ensures Get(m, "title") == title && Get(m, "date") == dateIso && Get(m, "video_url") == video
    ensures Get(m, "site") == "academy"
  {
    map["title" := title, "date" := dateIso, "session_id" := sid, "url" := url,
        "video_url" := video, "duration" := duration, "speakers" := speakers, "site" := "academy"]
  }

  /** The video URL: the column's value when it has one; otherwise one of the
      description's URLs (a video host's when there is one), or nothing. */
  function LiveVideo(cell: string, urls: seq<string>): (v: string)
    ensures cell != "" ==> v == cell
    ensures cell == "" && urls == [] ==> v == ""
    ensures cell == "" && urls != [] ==> v in urls
    ensures cell == "" && (exists i :: 0 <= i < |urls| && IsVideo(urls[i])) ==> IsVideo(v)
  {
    if cell != "" then cell else PickVideoUrl(urls).GetOr("")
  }

  /** `process_live` for one row, with the header map `h`. */
  function LiveDraft(row: Row, h: map<string, string>, env: Env): (d: Draft)
    ensures d.source == "live-session"
    ensures d.tags != [] && NoDup(d.tags) && NoDup(d.topics) && NoDup(d.categories)
    ensures ListsClean(d)
    ensures IsSlug(d.slug)
  {
    var title := Strip(Or(Cell(row, h, "title"), "Untitled Session"));
    var sid := Strip(Cell(row, h, "session_id"));
    var desc := Cell(row, h, "description");
    var video := LiveVideo(Strip(Cell(row, h, "video_url")), env.urlsOf(desc));
    var dateIso := ParseDate(Strip(Cell(row, h, "date")), env.strptime).GetOr("");
    var meta := LiveMeta(title, dateIso, sid, Strip(Cell(row, h, "url")), video,
                         Strip(Cell(row, h, "duration")), Strip(Cell(row, h, "speakers")));
    Draft(meta, SplitListField(Cell(row, h, "topics")), LiveTags(Cell(row, h, "tags"), sid),
          SplitListField(Cell(row, h, "categories")), "live-session", env.htmlToMd(desc), dateIso, SessionSlug(title, sid))
  }

  /** `--site`: `cpa`, or `rrjr` for anything else. */
  function SiteName(site: string): (name: string)
    ensures name == "cpa" || name == "rrjr"
    ensures name == "cpa" <==> site == "cpa"
  {
    if site == "cpa" then "cpa" else "rrjr"
  }

  /** The video URL is the column's value when it has one; otherwise picked
      from the URLs of the description. */
  lemma LiveDraftVideo(row: Row, h: map<string, string>, env: Env)
    ensures Get(LiveDraft(row, h, env).meta, "video_url")
         == LiveVideo(Strip(Cell(row, h, "video_url")), env.urlsOf(Cell(row, h, "description")))
  {
  }

  /** A title cell holding only whitespace leaves the note without a title
      and names it after `session`, not after the session id. */
  lemma LiveBlankTitle(row: Row, h: map<string, string>, env: Env)
    requires Cell(row, h, "title") != "" && forall i :: 0 <= i < |Cell(row, h, "title")| ==> IsSpace(Cell(row, h, "title")[i])
    ensures Get(LiveDraft(row, h, env).meta, "title") == ""
    ensures LiveDraft(row, h, env).slug == Slugify("session")
  {
    StripBlank(Cell(row, h, "title"));
  }

  /** `process_blog` for one row; `site` is `cpa` or anything else (`rrjr`). */
  function BlogDraft(row: Row, h: map<string, string>, site: string, env: Env): (d: Draft)
    ensures NoDup(d.tags) && NoDup(d.topics) && NoDup(d.categories)
    ensures ListsClean(d)
    ensures IsSlug(d.slug)
  {
    var title := Strip(Or(Cell(row, h, "title"), "Untitled"));
    var desc := Cell(row, h, "description");
    var html := if Strip(desc) != "" then desc else Cell(row, h, "excerpt");
    var topics := SplitListField(Cell(row, h, "topics"));
    var tags := SplitListField(Cell(row, h, "tags"));
    var categories := SplitListField(Cell(row, h, "categories"));
    var d := BlogNote(title, ParseDate(Cell(row, h, "date"), env.strptime).GetOr(""),
                      Strip(Cell(row, h, "author")), Strip(Cell(row, h, "url")), SiteName(site),
                      topics, tags, categories, env.htmlToMd(html));
    assert d.topics == topics && d.tags == tags && d.categories == categories && d.slug == Slugify(title);
    d
  }

  /** The note of one blog row from the values derived from its cells. */
  function BlogNote(title: string, dateIso: string, author: string, url: string, siteName: string,
                    topics: seq<string>, tags: seq<string>, categories: seq<string>, bodyMd: string): (d: Draft)
    ensures d.meta == BlogMeta(title, dateIso, author, url, siteName)
    ensures d.source == "blog-" + siteName && d.descMd == bodyMd && d.slug == Slugify(title)
    ensures d.topics == topics && d.tags == tags && d.categories == categories && d.dateIso == dateIso
  {
    Draft(BlogMeta(title, dateIso, author, url, siteName), topics, tags, categories, "blog-" + siteName, bodyMd, dateIso, Slugify(title))
  }

  /** The front-matter values of a blog post. */
  function BlogMeta(title: string, dateIso: string, author: string, url: string, siteName: string): (m: map<string, string>)
    ensures Get(m, "title") == title && Get(m, "date") == dateIso && Get(m, "site") == siteName
    ensures Get(m, "author") == author && Get(m, "url") == url
  {
    map["title" := title, "date" := dateIso, "author" := author, "url" := url, "site" := siteName]
  }

  /** What `process_blog` takes from a row: the stripped title or
      `Untitled`, the description's Markdown unless it is blank (then the
      excerpt's), the `blog-cpa`/`blog-rrjr` source, and the title's slug. */
  lemma BlogDraftFields(row: Row, h: map<string, string>, site: string, env: Env)
    ensures var d := BlogDraft(row, h, site, env);
            && Get(d.meta, "title") == Strip(Or(Cell(row, h, "title"), "Untitled"))
            && (Strip(Cell(row, h, "description")) != "" ==> d.descMd == env.htmlToMd(Cell(row, h, "description")))
            && (Strip(Cell(row, h, "description")) == "" ==> d.descMd == env.htmlToMd(Cell(row, h, "excerpt")))
            && (site == "cpa" ==> d.source == "blog-cpa" && Get(d.meta, "site") == "cpa")
            && (site != "cpa" ==> d.source == "blog-rrjr" && Get(d.meta, "site") == "rrjr")
            && d.slug == Slugify(Get(d.meta, "title"))
  {
    BlogTitle(row, h, site, env);
    BlogBody(row, h, site, env);
    BlogSite(row, h, site, env);
  }

  lemma BlogTitle(row: Row, h: map<string, string>, site: string, env: Env)
    ensures var d := BlogDraft(row, h, site, env);
            && Get(d.meta, "title") == Strip(Or(Cell(row, h, "title"), "Untitled"))
            && d.slug == Slugify(Get(d.meta, "title"))
  {
  }

  lemma BlogBody(row: Row, h: map<string, string>, site: string, env: Env)
    ensures var d := BlogDraft(row, h, site, env);
            && (Strip(Cell(row, h, "description")) != "" ==> d.descMd == env.htmlToMd(Cell(row, h, "description")))
            && (Strip(Cell(row, h, "description")) == "" ==> d.descMd == env.htmlToMd(Cell(row, h, "excerpt")))
  {
  }

  lemma BlogSite(row: Row, h: map<string, string>, site: string, env: Env)
    ensures var d := BlogDraft(row, h, site, env);
            && (site == "cpa" ==> d.source == "blog-cpa" && Get(d.meta, "site") == "cpa")
            && (site != "cpa" ==> d.source == "blog-rrjr" && Get(d.meta, "site") == "rrjr")
  {
    assert "blog-" + "cpa" == "blog-cpa" && "blog-" + "rrjr" == "blog-rrjr";
  }

  /** A blog title cell holding only whitespace strips to nothing, so the
      note has an empty title and is named `untitled`. */
  lemma BlogBlankTitle(row: Row, h: map<string, string>, site: string, env: Env)
    requires Cell(row, h, "title") != "" && forall i :: 0 <= i < |Cell(row, h, "title")| ==> IsSpace(Cell(row, h, "title")[i])
    ensures Get(BlogDraft(row, h, site, env).meta, "title") == ""
    ensures BlogDraft(row, h, site, env).slug == "untitled"
  {
    StripBlank(Cell(row, h, "title"));
    NoLettersGivesUntitled("");
  }

  /** The notes of a run, each under the name `safe_write_unique` picks. */
  function WriteDrafts(drafts: seq<Draft>, existing: set<string>, today: string): (ws: seq<Written>)
    ensures |ws| == |drafts|
    ensures forall i :: 0 <= i < |ws| ==> ws[i].name !in existing && ws[i].text == DraftText(drafts[i], today)
    ensures forall i, j :: 0 <= i < j < |ws| ==> ws[i].name != ws[j].name
  {
    WriteAll(Requests(drafts, today), existing, SafeWriteUnique)
  }

  /** Each draft's wanted file name with its text. */
  function Requests(drafts: seq<Draft>, today: string): (notes: seq<(string, string)>)
    ensures |notes| == |drafts|
    ensures forall i :: 0 <= i < |drafts| ==> notes[i] == (drafts[i].FileName(), DraftText(drafts[i], today))
  {
    seq(|drafts|, i requires 0 <= i < |drafts| => (drafts[i].FileName(), DraftText(drafts[i], today)))
  }

  /** Each note is named by `safe_write_unique` given the names already taken. */
  lemma WriteDraftsNames(drafts: seq<Draft>, existing: set<string>, today: string)
    ensures var ws := WriteDrafts(drafts, existing, today);
            forall i :: 0 <= i < |ws| ==> ws[i].name == SafeWriteUnique(existing + NamesOf(ws[..i]), drafts[i].FileName())
  {
    WriteAllChoice(Requests(drafts, today), existing, SafeWriteUnique);
  }

  /** `process_live`: the header row is required; then one note per data row.
      `table` is the caller's enumeration of `LIVE_ALIASES`, any one of the
      iteration orders of its sets (`LiveTable`); `LiveTableMissing` says
      which fields then go unmapped. */
  function ProcessLive(headers: seq<string>, rows: seq<Row>, table: AliasTable, existing: set<string>, env: Env): (r: Result<seq<Written>, string>)
    ensures r.Failure? <==> headers == []
    ensures r.Failure? ==> r.error == "No headers found in the live sessions CSV."
    ensures r.Success? ==> |r.value| == |rows|
    ensures r.Success? ==> forall i :: 0 <= i < |rows| ==> r.value[i].name !in existing
    ensures r.Success? ==> forall i :: 0 <= i < |rows| ==>
              r.value[i].text == DraftText(LiveDraft(rows[i], NormalizeHeaders(table, headers), env), env.today)
  {
    if headers == [] then Failure("No headers found in the live sessions CSV.")
    else
      var h := NormalizeHeaders(table, headers);
      Success(WriteDrafts(LiveDrafts(rows, h, env), existing, env.today))
  }

  /** The draft of every live-session row. */
  function LiveDrafts(rows: seq<Row>, h: map<string, string>, env: Env): (ds: seq<Draft>)
    ensures |ds| == |rows| && forall i :: 0 <= i < |rows| ==> ds[i] == LiveDraft(rows[i], h, env)
  {
    seq(|rows|, i requires 0 <= i < |rows| => LiveDraft(rows[i], h, env))
  }

  /** `process_blog`: the header row is required; then one note per data row.
      `table` is the caller's enumeration of `BLOG_ALIASES` (`BlogTable`);
      `BlogTableMissing` says which fields then go unmapped. */
  function ProcessBlog(headers: seq<string>, rows: seq<Row>, table: AliasTable, site: string, existing: set<string>, env: Env): (r: Result<seq<Written>, string>)
    ensures r.Failure? <==> headers == []
    ensures r.Failure? ==> r.error == "No headers found in the blog CSV."
    ensures r.Success? ==> |r.value| == |rows|
    ensures r.Success? ==> forall i :: 0 <= i < |rows| ==> r.value[i].name !in existing
    ensures r.Success? ==> forall i :: 0 <= i < |rows| ==>
              r.value[i].text == DraftText(BlogDraft(rows[i], NormalizeHeaders(table, headers), site, env), env.today)
  {
    if headers == [] then Failure("No headers found in the blog CSV.")
    else
      var h := NormalizeHeaders(table, headers);
      Success(WriteDrafts(BlogDrafts(rows, h, site, env), existing, env.today))
  }

  /** The draft of every blog row. */
  function BlogDrafts(rows: seq<Row>, h: map<string, string>, site: string, env: Env): (ds: seq<Draft>)
    ensures |ds| == |rows| && forall i :: 0 <= i < |rows| ==> ds[i] == BlogDraft(rows[i], h, site, env)
  {
    seq(|rows|, i requires 0 <= i < |rows| => BlogDraft(rows[i], h, site, env))
  }

  /** A note of this script is split back by `parse_front_matter` into its
      block and its body, provided no front-matter value breaks a line. */
  lemma DraftSplits(d: Draft, today: string)
    requires ListsClean(d)
    requires forall i :: 0 <= i < |FieldOrder| ==> NoNewline(Get(d.meta, FieldOrder[i]))
    requires NoNewline(d.source) && NoNewline(today)
    ensures SplitFrontMatter(DraftText(d, today))
         == Split(Some(Join(BlockInner(FieldOrder, d.meta, true, Named(d.topics, d.tags, d.categories), d.source, today), "\n")),
                  "\n" + BuildBody(d.descMd, d.topics))
  {
    forall i | 0 <= i < |d.tags| ensures NoNewline(d.tags[i]) { SpacelessNoNewline(d.tags[i]); }
    forall i | 0 <= i < |d.topics| ensures NoNewline(d.topics[i]) { SpacelessNoNewline(d.topics[i]); }
    forall i | 0 <= i < |d.categories| ensures NoNewline(d.categories[i]) { SpacelessNoNewline(d.categories[i]); }
    YamlSplits(d.meta, d.tags, d.categories, d.topics, d.source, today, BuildBody(d.descMd, d.topics));
  }
}

=== FILE: csv_sessions.dfy ===
/** scripts/csv_sessions_to_md.py: a live-session CSV export to Markdown
    notes.  It is an older sibling of the live mode of
    scripts/csv_to_md_multi.py: values are written as they stand (not
    stripped, never quoted), a matching transcript file is linked, and a
    taken name is numbered afresh (`slug-1.md`, `slug-2.md`, ...). */
module CsvSessions {
  import opened Wrappers
  import opened Text
  import opened Lists
  import opened Slug
  import opened Dates
  import opened Headers
  import opened FrontMatter
  import opened UniqueNames
  import opened ListFields
  import opened Notes
  import opened Paths

  // ---------- HEADER_ALIASES ----------

  /** The title aliases as the script lists them: one of them, `"name, "`,
      carries a comma and a trailing space. */
  const TitleAliasesAsWritten: set<string> := {"title", "name, ", "session title", "post title", "lesson title", "event"}

  /** The title aliases with `"name"` where `"name, "` stands. */
  const TitleAliases: set<string> := {"title", "name", "session title", "post title", "lesson title", "event"}

  /** `HEADER_ALIASES` as written. */
  const SessionAliasesAsWritten: map<string, set<string>> := map[
    "session_id" := {"session id", "id", "session_id", "sid", "code"},
    "title" := TitleAliasesAsWritten,
    "date" := {"date", "session date", "event date", "published", "publish date"},
    "description" := {"description", "desc", "abstract", "blurb", "summary", "content"},
    "topics" := {"topics", "topic list", "keywords"},
    "tags" := {"tags", "labels"},
    "url" := {"url", "page url", "link", "permalink"},
    "video_url" := {"video url", "recording url", "youtube", "vimeo"},
    "duration" := {"duration", "length"},
    "speakers" := {"speakers", "presenter", "host", "instructor"}]

  /** `HEADER_ALIASES` with the title alias corrected. */
  const SessionAliases: map<string, set<string>> := SessionAliasesAsWritten["title" := TitleAliases]

  /** The alias `"name, "` names no header: header keys are stripped, so
      none ends in a space. */
  lemma NameAliasAsWrittenNeverMatches(header: string)
    ensures !Names("name, ", header)
  {
    var alias := "name, ";
    assert IsSpace(alias[|alias| - 1]);
    SpacedAliasNeverMatches(alias, header);
  }

  /** Every title alias as written is longer than `name`. */
  lemma TitleAliasesAsWrittenLong()
    ensures forall a :: a in TitleAliasesAsWritten ==> |a| >= 5
  {
  }

  lemma NameInTitleAliases()
    ensures "name" in TitleAliases
  {
  }

  /** The header `Name` has the key `name`. */
  lemma NameKey()
    ensures HeaderKey("Name") == "name"
  {
    var l := Lower("Name");
    assert l == "name";
    StripBySame(l, IsSpace);
  }

  lemma NameNamesName()
    ensures Names("name", "Name")
  {
    NameKey();
    assert Lower("name") == "name";
  }

  /** A file whose only title column is `Name` keeps no title with the
      aliases as written, whatever order the set is walked in. */
  lemma NameColumnMissedAsWritten(table: AliasTable, sets: map<string, set<string>>)
    requires Enumerates(table, sets) && "title" in sets && sets["title"] == TitleAliasesAsWritten
    ensures "title" !in NormalizeHeaders(table, ["Name"])
  {
    TitleAliasesAsWrittenLong();
    NameKey();
    EnumeratedMissing(table, sets, ["Name"], "title");
    forall a | a in sets["title"] ensures !Names(a, ["Name"][0]) {
      assert |Lower(a)| == |a|;
    }
  }

  /** With the corrected aliases the same file maps its `Name` column to the title. */
  lemma NameColumnFoundCorrected(table: AliasTable, sets: map<string, set<string>>)
    requires Enumerates(table, sets) && "title" in sets && sets["title"] == TitleAliases
    ensures "title" in NormalizeHeaders(table, ["Name"])
    ensures NormalizeHeaders(table, ["Name"])["title"] == "Name"
  {
    NameInTitleAliases();
    NameNamesName();
    var headers := ["Name"];
    assert Names("name", headers[0]);
    EnumeratedMissing(table, sets, headers, "title");
    NormalizeHeadersFound(table, headers, "title");
  }

  // ---------- split_list_field ----------

  /** This script's normalisation: lower-case, then each space `' '` (and no
      other whitespace) becomes `-`, one for one. */
  function NormSessions(t: string): (r: string)
    ensures |r| == |t|
    ensures forall i :: 0 <= i < |t| ==> r[i] == if t[i] == ' ' then '-' else LowerChar(t[i])
  {
    seq(|t|, i requires 0 <= i < |t| => if t[i] == ' ' then '-' else LowerChar(t[i]))
  }

  /** What normalisation keeps of a trimmed part. */
  lemma NormSessionsShape(t: string)
    requires t != "" && NoneSatisfy(t, IsListSep)
    ensures NormSessions(t) != ""
    ensures ' ' !in NormSessions(t) && NoneSatisfy(NormSessions(t), IsListSep) && NoneSatisfy(NormSessions(t), IsUpper)
  {
  }

  /** `split_list_field(s)`: empty for empty input; otherwise non-empty,
      repeat-free items with no space, no separator and no upper-case letter. */
  function SplitListField(s: string): (r: seq<string>)
    ensures s == "" ==> r == []
    ensures NoDup(r)
    ensures forall i :: 0 <= i < |r| ==>
              r[i] != "" && ' ' !in r[i] && NoneSatisfy(r[i], IsListSep) && NoneSatisfy(r[i], IsUpper)
  {
    var r := Items(s, NormSessions);
    var normed := Normed(Trimmed(s), NormSessions);
    forall i | 0 <= i < |r|
      ensures r[i] != "" && ' ' !in r[i] && NoneSatisfy(r[i], IsListSep) && NoneSatisfy(r[i], IsUpper)
    {
      assert s != "";
      assert r[i] in normed;
      var j :| 0 <= j < |normed| && normed[j] == r[i];
      NormSessionsShape(Trimmed(s)[j]);
    }
    r
  }

  /** Every trimmed part's normal form is an item, and the items keep the
      order of first appearance. */
  lemma SplitListFieldKeeps(s: string)
    requires s != ""
    ensures forall j :: 0 <= j < |Trimmed(s)| ==> NormSessions(Trimmed(s)[j]) in SplitListField(s)
    ensures forall i, j :: 0 <= i < j < |SplitListField(s)| ==>
              IndexOf(Normed(Trimmed(s), NormSessions), SplitListField(s)[i]) < IndexOf(Normed(Trimmed(s), NormSessions), SplitListField(s)[j])
  {
    ItemsOrder(s, NormSessions);
  }

  // ---------- find_transcript_path ----------

  /** The extensions a transcript may have. */
  const TranscriptExts: set<string> := {".md", ".txt"}

  /** `str(p).replace("\\", "/")` */
  function Slashed(path: string): (r: string)
    ensures |r| == |path| && '\\' !in r
    ensures forall i :: 0 <= i < |path| && path[i] != '\\' ==> r[i] == path[i]
  {
    seq(|path|, i requires 0 <= i < |path| => if path[i] == '\\' then '/' else path[i])
  }

  /** The test a file passes to be linked: a transcript extension (in any
      case), and a lower-cased name holding the lower-cased session id or
      the slug, whichever is non-empty. */
  predicate IsTranscriptFor(path: string, sid: string, slug: string) {
    var name := Lower(BaseName(path));
    var id := Lower(sid);
    && Lower(Suffix(BaseName(path))) in TranscriptExts
    && ((id != "" && Contains(name, id)) || (slug != "" && Contains(name, slug)))
  }

  /** `fs[i]` is the first file that passes the test. */
  predicate FirstTranscript(fs: seq<string>, i: int, sid: string, slug: string) {
    && 0 <= i < |fs| && IsTranscriptFor(fs[i], sid, slug)
    && forall j :: 0 <= j < i ==> !IsTranscriptFor(fs[j], sid, slug)
  }

  /** `find_transcript_path(dir, session_id, slug)`.  `files` stands for the
      regular files `dir.rglob("*")` yields, in the order it yields them, or
      `None` when no directory was given or it does not exist. */
  function FindTranscript(files: Option<seq<string>>, sid: string, slug: string): (r: Option<string>)
    ensures files.None? ==> r.None?
    ensures files.Some? ==> (r.None? <==> forall i :: 0 <= i < |files.value| ==> !IsTranscriptFor(files.value[i], sid, slug))
    ensures r.Some? ==> files.Some? && exists i :: FirstTranscript(files.value, i, sid, slug) && r.value == Slashed(files.value[i])
  {
    if files.None? then None
    else
      var fs := files.value;
      var test := p => IsTranscriptFor(p, sid, slug);
      var k := Find(fs, test);
      FoundFirst(fs, sid, slug, test, k);
      if k < |fs| then Some(Slashed(fs[k])) else None
  }

  /** What `Find` promises of the test, restated for the transcript test. */
  lemma FoundFirst(fs: seq<string>, sid: string, slug: string, test: string -> bool, k: nat)
    requires forall p :: test(p) == IsTranscriptFor(p, sid, slug)
    requires k <= |fs| && (k < |fs| ==> test(fs[k])) && forall j :: 0 <= j < k ==> !test(fs[j])
    ensures k < |fs| ==> FirstTranscript(fs, k, sid, slug)
    ensures k == |fs| <==> forall i :: 0 <= i < |fs| ==> !IsTranscriptFor(fs[i], sid, slug)
  {
    if k < |fs| {
      assert IsTranscriptFor(fs[k], sid, slug);
    }
  }

  // ---------- the note ----------

  /** The scalar keys of the front matter, in the order they are written. */
  const SessionOrder: seq<string> := ["title", "date", "session_id", "url", "video_url", "duration", "speakers", "related_transcript"]

  lemma SessionOrderKeys()
    ensures NoDup(SessionOrder)
    ensures forall i :: 0 <= i < |SessionOrder| ==> IsKey(SessionOrder[i])
  {
    KeyOf("title");
    KeyOf("date");
    KeyOf("session_id");
    KeyOf("url");
    KeyOf("video_url");
    KeyOf("duration");
    KeyOf("speakers");
    KeyOf("related_transcript");
  }

  /** The list lines: topics before tags. */
  function Lists2(topics: seq<string>, tags: seq<string>): seq<(string, seq<string>)> {
    [("topics", topics), ("tags", tags)]
  }

  lemma Lists2Lines(topics: seq<string>, tags: seq<string>)
    requires forall i :: 0 <= i < |topics| ==> NoNewline(topics[i])
    requires forall i :: 0 <= i < |tags| ==> NoNewline(tags[i])
    ensures forall i :: 0 <= i < |Lists2(topics, tags)| ==>
              IsKey(Lists2(topics, tags)[i].0) && forall j :: 0 <= j < |Lists2(topics, tags)[i].1| ==> NoNewline(Lists2(topics, tags)[i].1[j])
  {
    KeyOf("topics");
    KeyOf("tags");
  }

  /** `build_yaml(meta, tags, topics)`: `key: value` unquoted for each
      non-empty value, the list lines, `source: live-session`, the date. */
  function BuildYaml(meta: map<string, string>, tags: seq<string>, topics: seq<string>, today: string): (y: string)
    ensures y == "---\n" + Join(BlockInner(SessionOrder, meta, false, Lists2(topics, tags), "live-session", today), "\n") + "\n---"
  {
    var lines := Block(SessionOrder, meta, false, Lists2(topics, tags), "live-session", today);
    BlockText(SessionOrder, meta, false, Lists2(topics, tags), "live-session", today);
    Join(lines, "\n")
  }

  /** What one row yields. */
  datatype Draft = Draft(meta: map<string, string>, topics: seq<string>, tags: seq<string>, descMd: string, slug: string)

  /** The note text: the block, a blank line, the body (which opens with the
      Markdown of the description when there is any). */
  function DraftText(d: Draft, today: string): string {
    BuildYaml(d.meta, d.tags, d.topics, today) + "\n\n" + Body(if d.descMd != "" then Some(d.descMd) else None, d.topics)
  }

  /** `split_list_field(...) or DEFAULT_TAGS[:]` */
  function BaseTags(tagCell: string): (tags: seq<string>)
    ensures tags != [] && NoDup(tags)
    ensures SplitListField(tagCell) != [] ==> tags == SplitListField(tagCell)
    ensures SplitListField(tagCell) == [] ==> tags == [DefaultTag]
  {
    var split := SplitListField(tagCell);
    if split != [] then split else [DefaultTag]
  }

  /** `list(dict.fromkeys(tags + [t]))` */
  function AddTag(tags: seq<string>, t: string): (r: seq<string>)
    ensures NoDup(r)
    ensures forall x :: x in r <==> x in tags || x == t
    ensures NoDup(tags) ==> |r| == |tags| + (if t in tags then 0 else 1)
    ensures NoDup(tags) ==> forall i :: 0 <= i < |tags| ==> r[i] == tags[i]
  {
    DedupNoDup(tags + [t]);
    assert NoDup(tags) ==> Dedup(tags + [t]) == if t in tags then tags else tags + [t] by {
      if NoDup(tags) {
        DedupAppend(tags, t);
      }
    }
    Dedup(tags + [t])
  }

  /** The tags: the split tag cell or `["live-session"]`, then the session
      id's slug unless it is already there. */
  function SessionTags(tagCell: string, sid: string): (tags: seq<string>)
    ensures tags != [] && NoDup(tags)
    ensures forall x :: x in tags <==> x in BaseTags(tagCell) || (sid != "" && x == Slugify(sid))
    ensures |BaseTags(tagCell)| <= |tags| && tags[..|BaseTags(tagCell)|] == BaseTags(tagCell)
    ensures sid != "" && Slugify(sid) !in BaseTags(tagCell) ==> tags[|tags| - 1] == Slugify(sid)
  {
    var base := BaseTags(tagCell);
    if sid == "" then base else AddTag(base, Slugify(sid))
  }

  /** The front-matter values: the row's values as they stand, the title
      defaulting to `Untitled Session`. */
  function SessionMeta(title: string, dateIso: string, sid: string, url: string, video: string,
                       duration: string, speakers: string, transcript: string): (m: map<string, string>)
    ensures Get(m, "title") == title && Get(m, "date") == dateIso
    ensures Get(m, "related_transcript") == transcript
  {
    map["title" := title, "date" := dateIso, "session_id" := sid, "url" := url, "video_url" := video,
        "duration" := duration, "speakers" := speakers, "related_transcript" := transcript]
  }

  /** The loop body of `main` for one row, with the header map `h`. */
  function SessionDraft(row: Row, h: map<string, string>, files: Option<seq<string>>, env: Env): (d: Draft)
    ensures d.tags != [] && NoDup(d.tags) && NoDup(d.topics)
    ensures IsSlug(d.slug)
    ensures Get(d.meta, "title") != ""
    ensures d.slug == GuardedSessionSlug(Get(d.meta, "title"), Cell(row, h, "session_id"))
    ensures Get(d.meta, "related_transcript") == FindTranscript(files, Cell(row, h, "session_id"), d.slug).GetOr("")
  {
    var title := Or(Cell(row, h, "title"), "Untitled Session");
    var sid := Cell(row, h, "session_id");
    var slug := SessionSlug(title, sid);
    GuardedAgrees(title, sid);
    var transcript := FindTranscript(files, sid, slug).GetOr("");
    var meta := SessionMeta(title, ParseDate(Cell(row, h, "date"), env.strptime).GetOr(""), sid,
                            Cell(row, h, "url"), Cell(row, h, "video_url"), Cell(row, h, "duration"),
                            Cell(row, h, "speakers"), transcript);
    Draft(meta, SplitListField(Cell(row, h, "topics")), SessionTags(Cell(row, h, "tags"), sid),
          env.htmlToMd(Cell(row, h, "description")), slug)
  }

  /** A title cell holding only whitespace is kept as the title, and the
      note is named `untitled` (the multi script names it `session`). */
  lemma SessionBlankTitle(row: Row, h: map<string, string>, files: Option<seq<string>>, env: Env)
    requires Cell(row, h, "title") != "" && forall i :: 0 <= i < |Cell(row, h, "title")| ==> IsSpace(Cell(row, h, "title")[i])
    ensures Get(SessionDraft(row, h, files, env).meta, "title") == Cell(row, h, "title")
    ensures SessionDraft(row, h, files, env).slug == "untitled"
  {
    var title := Cell(row, h, "title");
    assert Lower(title)[0] != 'u';
    NoLettersGivesUntitled(title);
  }

  /** Each draft's slug with its text; the slug is what the name is made from. */
  function Requests(drafts: seq<Draft>, today: string): (notes: seq<(string, string)>)
    ensures |notes| == |drafts|
    ensures forall i :: 0 <= i < |drafts| ==> notes[i] == (drafts[i].slug, DraftText(drafts[i], today))
  {
    seq(|drafts|, i requires 0 <= i < |drafts| => (drafts[i].slug, DraftText(drafts[i], today)))
  }

  /** The notes of a run, each under the first free numbered name. */
  function WriteDrafts(drafts: seq<Draft>, existing: set<string>, today: string): (ws: seq<Written>)
    ensures |ws| == |drafts|
    ensures forall i :: 0 <= i < |ws| ==> ws[i].name !in existing && ws[i].text == DraftText(drafts[i], today)
    ensures forall i, j :: 0 <= i < j < |ws| ==> ws[i].name != ws[j].name
  {
    WriteAll(Requests(drafts, today), existing, FirstFree)
  }

  /** Each note gets the first of `slug.md`, `slug-1.md`, ... that neither
      the directory nor an earlier note of the run holds. */
  lemma WriteDraftsNames(drafts: seq<Draft>, existing: set<string>, today: string)
    ensures var ws := WriteDrafts(drafts, existing, today);
            forall i :: 0 <= i < |ws| ==> ws[i].name == FirstFree(existing + NamesOf(ws[..i]), drafts[i].slug)
  {
    WriteAllChoice(Requests(drafts, today), existing, FirstFree);
  }

  /** `main`: the header row is required; then one note per data row. */
  function ProcessSessions(headers: seq<string>, rows: seq<Row>, table: AliasTable, files: Option<seq<string>>,
                           existing: set<string>, env: Env): (r: Result<seq<Written>, string>)
    ensures r.Failure? <==> headers == []
    ensures r.Failure? ==> r.error == "No headers found in the CSV."
    ensures r.Success? ==> |r.value| == |rows|
    ensures r.Success? ==> forall i :: 0 <= i < |rows| ==> r.value[i].name !in existing
    ensures r.Success? ==> forall i :: 0 <= i < |rows| ==>
              r.value[i].text == DraftText(SessionDraft(rows[i], NormalizeHeaders(table, headers), files, env), env.today)
  {
    if headers == [] then Failure("No headers found in the CSV.")
    else
      var h := NormalizeHeaders(table, headers);
      Success(WriteDrafts(SessionDrafts(rows, h, files, env), existing, env.today))
  }

  /** The draft of every session row. */
  function SessionDrafts(rows: seq<Row>, h: map<string, string>, files: Option<seq<string>>, env: Env): (ds: seq<Draft>)
    ensures |ds| == |rows| && forall i :: 0 <= i < |rows| ==> ds[i] == SessionDraft(rows[i], h, files, env)
  {
    seq(|rows|, i requires 0 <= i < |rows| => SessionDraft(rows[i], h, files, env))
  }

  /** A note of this script is split back by `parse_front_matter` into its
      block and its body, provided no value or list item breaks a line. */
  lemma DraftSplits(d: Draft, today: string)
    requires forall i :: 0 <= i < |SessionOrder| ==> NoNewline(Get(d.meta, SessionOrder[i]))
    requires forall i :: 0 <= i < |d.topics| ==> NoNewline(d.topics[i])
    requires forall i :: 0 <= i < |d.tags| ==> NoNewline(d.tags[i])
    requires NoNewline(today)
    ensures SplitFrontMatter(DraftText(d, today))
         == Split(Some(Join(BlockInner(SessionOrder, d.meta, false, Lists2(d.topics, d.tags), "live-session", today), "\n")),
                  "\n" + Body(if d.descMd != "" then Some(d.descMd) else None, d.topics))
  {
    SessionOrderKeys();
    Lists2Lines(d.topics, d.tags);
    var src := "live-session";
    AbsentBreak(src);
    BlockSplits(SessionOrder, d.meta, false, Lists2(d.topics, d.tags), src, today,
                Body(if d.descMd != "" then Some(d.descMd) else None, d.topics));
  }
}

=== FILE: csv_table.dfy ===
/** `load_csv` of scripts/build_index.py: a CSV file whose header row is
    exactly `question,answer` (in any case) becomes a list of Q&A entries;
    any other CSV becomes a markdown table. The rows are what `csv.reader`
    yields; parsing the CSV syntax itself is not part of this model. */
module CsvTable {
  import opened Wrappers
  import opened Text
  import opened Lists

  /** `not any(r)`: every cell of the row is empty. */
  predicate Blank(row: seq<string>) {
    forall i :: 0 <= i < |row| ==> row[i] == ""
  }

  /** A row the Q&A loop reads `r[1]` of without having one: it raises
      `IndexError`. */
  predicate Short(row: seq<string>) {
    !Blank(row) && |row| < 2
  }

  /** A row that yields a Q&A entry. */
  predicate Asked(row: seq<string>) {
    !Blank(row) && |row| >= 2 && (Strip(row[0]) != "" || Strip(row[1]) != "")
  }

  /** `f"### Q: {q}\nA: {a}\n"` */
  function Entry(q: string, a: string): string {
    "### Q: " + q + "\nA: " + a + "\n"
  }

  /** The entries of rows that all yield one, in order: the reference the
      Q&A loop is measured against. */
  function Entries(rows: seq<seq<string>>): (es: seq<string>)
    requires forall i :: 0 <= i < |rows| ==> |rows[i]| >= 2
    ensures |es| == |rows|
    decreases |rows|
  {
    if rows == [] then [] else [Entry(Strip(rows[0][0]), Strip(rows[0][1]))] + Entries(rows[1..])
  }

  /** The Q&A loop over the data rows: blank rows are skipped, a short one
      raises, and rows with a question or an answer give an entry. */
  function QaLines(rows: seq<seq<string>>): (r: Result<seq<string>, seq<string>>)
    ensures r.Failure? <==> exists i :: 0 <= i < |rows| && Short(rows[i])
    ensures r.Failure? ==> exists i :: 0 <= i < |rows| && Short(rows[i]) && r.error == rows[i]
                                       && forall j :: 0 <= j < i ==> !Short(rows[j])
    ensures r.Success? ==> r.value == Entries(Filter(rows, Asked))
    decreases |rows|
  {
    if rows == [] then Success([])
    else
      var row := rows[0];
      if Short(row) then Failure(row)
      else
        var rest := QaLines(rows[1..]);
        assert forall i :: 1 <= i < |rows| ==> rows[i] == rows[1..][i - 1];
        if rest.Failure? then
          assert forall i :: 0 <= i < |rows| - 1 ==> rows[1..][i] == rows[i + 1];
          rest
        else
          EntriesCons(rows, Asked(row));
          if Asked(row) then Success([Entry(Strip(row[0]), Strip(row[1]))] + rest.value)
          else rest
  }

  lemma EntriesCons(rows: seq<seq<string>>, asked: bool)
    requires rows != [] && asked == Asked(rows[0])
    ensures asked ==> Entries(Filter(rows, Asked)) == [Entry(Strip(rows[0][0]), Strip(rows[0][1]))] + Entries(Filter(rows[1..], Asked))
    ensures !asked ==> Filter(rows, Asked) == Filter(rows[1..], Asked)
  {
    var rest := Filter(rows[1..], Asked);
    assert Filter(rows, Asked) == (if asked then [rows[0]] else []) + rest;
    if asked {
      EntriesPrepend(rows[0], rest);
    }
  }

  lemma EntriesPrepend(row: seq<string>, rows: seq<seq<string>>)
    requires |row| >= 2 && forall i :: 0 <= i < |rows| ==> |rows[i]| >= 2
    ensures Entries([row] + rows) == [Entry(Strip(row[0]), Strip(row[1]))] + Entries(rows)
  {
    assert ([row] + rows)[1..] == rows;
  }

  /** The cells of a row, stripped. */
  function Cells(row: seq<string>): (cs: seq<string>)
    ensures |cs| == |row|
    ensures forall i :: 0 <= i < |row| ==> cs[i] == Strip(row[i])
  {
    seq(|row|, i requires 0 <= i < |row| => Strip(row[i]))
  }

  /** `lower == ["question", "answer"]` on the stripped header. */
  predicate IsQa(headers: seq<string>) {
    |headers| == 2 && Lower(headers[0]) == "question" && Lower(headers[1]) == "answer"
  }

  /** A table row: the cells between bars. */
  function RowLine(cells: seq<string>): string {
    "|" + Join(cells, "|") + "|"
  }

  /** The separator row: ` --- ` under every header. */
  function Rule(n: nat): (r: seq<string>)
    ensures |r| == n && forall i :: 0 <= i < n ==> r[i] == " --- "
  {
    seq(n, _ => " --- ")
  }

  /** The table: header, separator, one line per data row. */
  function Table(headers: seq<string>, rows: seq<seq<string>>): string {
    RowLine(headers) + "\n" + RowLine(Rule(|headers|)) + "\n" + Join(RowLines(rows), "\n")
  }

  function RowLines(rows: seq<seq<string>>): (lines: seq<string>)
    ensures |lines| == |rows|
    ensures forall i :: 0 <= i < |rows| ==> lines[i] == RowLine(Cells(rows[i]))
  {
    seq(|rows|, i requires 0 <= i < |rows| => RowLine(Cells(rows[i])))
  }

  /** `load_csv` on the rows `csv.reader` yields; the failure carries the
      row whose missing answer cell raises `IndexError`. */
  function LoadCsv(rows: seq<seq<string>>): (r: Result<string, seq<string>>)
    ensures rows == [] ==> r == Success("")
    ensures r.Failure? <==> rows != [] && IsQa(Cells(rows[0])) && exists i :: 1 <= i < |rows| && Short(rows[i])
    ensures rows != [] && !IsQa(Cells(rows[0])) ==> r == Success(Table(Cells(rows[0]), rows[1..]))
    ensures rows != [] && IsQa(Cells(rows[0])) && r.Success? ==> r.value == Join(Entries(Filter(rows[1..], Asked)), "\n")
  {
    if rows == [] then Success("")
    else
      var headers := Cells(rows[0]);
      if IsQa(headers) then
        var qa := QaLines(rows[1..]);
        ShortAfterHeader(rows);
        match qa
        case Success(lines) => Success(Join(lines, "\n"))
        case Failure(row) => Failure(row)
      else Success(Table(headers, rows[1..]))
  }

  /** A short data row is a short row of the data. */
  lemma ShortAfterHeader(rows: seq<seq<string>>)
    requires rows != []
    ensures (exists i :: 1 <= i < |rows| && Short(rows[i])) <==> exists i :: 0 <= i < |rows| - 1 && Short(rows[1..][i])
  {
    if exists i :: 1 <= i < |rows| && Short(rows[i]) {
      var i :| 1 <= i < |rows| && Short(rows[i]);
      assert rows[1..][i - 1] == rows[i];
    }
    if exists i :: 0 <= i < |rows| - 1 && Short(rows[1..][i]) {
      var i :| 0 <= i < |rows| - 1 && Short(rows[1..][i]);
      assert rows[1..][i] == rows[i + 1];
    }
  }

  // ---------- reading the output back ----------

  /** An entry reads back as its question line, its answer line and the
      empty text after the final line break. */
  lemma EntryLines(q: string, a: string)
    requires '\n' !in q && '\n' !in a
    ensures SplitChar(Entry(q, a), '\n') == ["### Q: " + q, "A: " + a, ""]
  {
    var l1, l2 := "### Q: " + q, "A: " + a;
    assert '\n' !in "### Q: " && '\n' !in "A: ";
    assert '\n' !in l1 && '\n' !in l2;
    assert Entry(q, a) == l1 + ['\n'] + (l2 + ['\n'] + "");
    SplitCharConcat(l1, '\n', l2 + ['\n'] + "");
    SplitCharConcat(l2, '\n', "");
    SplitCharNone(l1, '\n');
    SplitCharNone(l2, '\n');
    SplitCharNone("", '\n');
  }

  /** A table row split on `|` gives its stripped cells between two empty
      ends, when no cell holds a bar. */
  lemma RowCells(row: seq<string>)
    requires |row| >= 1
    requires forall i :: 0 <= i < |row| ==> '|' !in row[i]
    ensures SplitChar(RowLine(Cells(row)), '|') == [""] + Cells(row) + [""]
  {
    var cs := Cells(row);
    forall i | 0 <= i < |cs| ensures '|' !in cs[i] {
      StripInside(row[i]);
    }
    var mid := Join(cs, "|");
    SplitCharJoin(cs, '|');
    assert RowLine(cs) == ['|'] + mid + ['|'];
    SplitCharFramed(mid, '|');
  }

  /** Stripping only removes characters. */
  lemma StripInside(s: string)
    ensures forall c :: c in Strip(s) ==> c in s
  {
    var k := StripBySlice(s, IsSpace);
    assert Strip(s) == StripBy(s, IsSpace);
  }

  /** The table reads back line by line as the header, the separator and the
      data rows, when no header or cell holds a line break. */
  lemma TableLines(headers: seq<string>, rows: seq<seq<string>>)
    requires rows != []
    requires forall i :: 0 <= i < |headers| ==> '\n' !in headers[i]
    requires forall i, j :: 0 <= i < |rows| && 0 <= j < |rows[i]| ==> '\n' !in rows[i][j]
    ensures SplitChar(Table(headers, rows), '\n') == [RowLine(headers), RowLine(Rule(|headers|))] + RowLines(rows)
  {
    var h, s, lines := RowLine(headers), RowLine(Rule(|headers|)), RowLines(rows);
    NoBreakRow(headers);
    NoBreakRow(Rule(|headers|));
    forall i | 0 <= i < |lines| ensures '\n' !in lines[i] {
      forall j | 0 <= j < |rows[i]| ensures '\n' !in Cells(rows[i])[j] {
        StripInside(rows[i][j]);
      }
      NoBreakRow(Cells(rows[i]));
    }
    var body := Join(lines, "\n");
    SplitCharJoin(lines, '\n');
    assert Table(headers, rows) == h + ['\n'] + s + ['\n'] + body;
    SplitCharTwoLines(h, s, body, '\n');
  }

  /** A row of cells without line breaks has none. */
  lemma NoBreakRow(cells: seq<string>)
    requires forall i :: 0 <= i < |cells| ==> '\n' !in cells[i]
    ensures '\n' !in RowLine(cells)
  {
    var nl := c => c == '\n';
    forall i | 0 <= i < |cells| ensures NoneSatisfy(cells[i], nl) {
      assert forall k :: 0 <= k < |cells[i]| ==> cells[i][k] != '\n';
    }
    assert NoneSatisfy("|", nl);
    JoinNoneSatisfy(cells, "|", nl);
    var j := Join(cells, "|");
    assert forall k :: 0 <= k < |j| ==> j[k] != '\n';
  }
}

=== FILE: dates.dfy ===
/** `parse_date`, written identically in scripts/csv_to_md_multi.py and
    scripts/csv_sessions_to_md.py: blank input gives `None`; otherwise the
    `strptime` formats are tried in a fixed order and the first success wins;
    if none succeeds, a regular-expression search for `YYYY[-/]M[-/]D`
    supplies a zero-padded `YYYY-MM-DD` without checking month or day. */
module Dates {
  import opened Wrappers
  import opened Text

  /** The formats handed to `strptime`, in the order they are tried. */
  const Formats: seq<string> := ["%Y-%m-%d", "%m/%d/%Y", "%d/%m/%Y", "%Y/%m/%d", "%b %d %Y", "%B %d %Y"]

  /** `datetime.strptime(s, fmt).date().isoformat()`, or `None` where it
      raises `ValueError`: the calendar library, taken as a parameter. */
  type Strptime = (string, string) -> Option<string>

  /** Index of the first format that parses `s`, or `|fmts|` when none does. */
  function FirstFormat(s: string, fmts: seq<string>, strptime: Strptime): (k: nat)
    ensures k <= |fmts|
    ensures k < |fmts| ==> strptime(fmts[k], s).Some?
    ensures forall j :: 0 <= j < k ==> strptime(fmts[j], s).None?
    decreases |fmts|
  {
    if |fmts| == 0 then 0
    else if strptime(fmts[0], s).Some? then 0
    else 1 + FirstFormat(s, fmts[1..], strptime)
  }

  predicate IsDateSep(c: char) { c == '-' || c == '/' }

  predicate AllDigits(s: string) { forall i :: 0 <= i < |s| ==> IsDigit(s[i]) }

  /** The three groups of `(\d{4})[-/](\d{1,2})[-/](\d{1,2})`. */
  datatype DateMatch = DateMatch(year: string, month: string, day: string)

  predicate WellFormedMatch(m: DateMatch) {
    && |m.year| == 4 && AllDigits(m.year)
    && 1 <= |m.month| <= 2 && AllDigits(m.month)
    && 1 <= |m.day| <= 2 && AllDigits(m.day)
  }

  /** The pattern anchored at position `i`, with the regex engine's greedy
      choice for each `\d{1,2}` (two digits if the rest still matches). */
  function MatchAt(s: string, i: nat): (m: Option<DateMatch>)
    ensures m.Some? ==> WellFormedMatch(m.value)
  {
    if i + 5 > |s| || !AllDigits(s[i..i + 4]) || !IsDateSep(s[i + 4]) then None
    else
      var p := i + 5;
      var monthLen := MonthLen(s, p);
      if monthLen == 0 then None
      else
        var q := p + monthLen + 1;
        if q < |s| && IsDigit(s[q]) then
          Some(DateMatch(s[i..i + 4], s[p..p + monthLen], s[q..q + DayLen(s, q)]))
        else None
  }

  /** The month group at `p`: two digits when a separator follows them, else
      one digit when a separator follows it, else no match (`0`). */
  function MonthLen(s: string, p: nat): (n: nat)
    ensures n <= 2 && (n > 0 ==> p + n < |s| && AllDigits(s[p..p + n]) && IsDateSep(s[p + n]))
  {
    if p + 2 < |s| && IsDigit(s[p]) && IsDigit(s[p + 1]) && IsDateSep(s[p + 2]) then 2
    else if p + 1 < |s| && IsDigit(s[p]) && IsDateSep(s[p + 1]) then 1
    else 0
  }

  /** The day group at `q`, which holds a digit: two digits when there are two. */
  function DayLen(s: string, q: nat): (n: nat)
    requires q < |s| && IsDigit(s[q])
    ensures 1 <= n <= 2 && q + n <= |s| && AllDigits(s[q..q + n])
  {
    if q + 1 < |s| && IsDigit(s[q + 1]) then 2 else 1
  }

  /** `re.search`: the leftmost position at or after `from` where the pattern matches. */
  function Search(s: string, from: nat): (m: Option<DateMatch>)
    ensures m.Some? ==> WellFormedMatch(m.value)
    decreases |s| - from
  {
    if from > |s| then None
    else if MatchAt(s, from).Some? then MatchAt(s, from)
    else Search(s, from + 1)
  }

  /** `int(x)` for a string of ASCII digits. */
  function Decimal(x: string): nat
    requires AllDigits(x)
    decreases |x|
  {
    if |x| == 0 then 0 else 10 * Decimal(x[..|x| - 1]) + (x[|x| - 1] as int - '0' as int)
  }

  /** `f"{int(x):02d}"` for one or two ASCII digits. */
  function Pad2(x: string): (p: string)
    requires 1 <= |x| <= 2 && AllDigits(x)
    ensures |p| == 2 && AllDigits(p) && Decimal(p) == Decimal(x)
  {
    if |x| == 1 then
      assert Decimal(x[..0]) == 0;
      assert ("0" + x)[..1] == "0";
      "0" + x
    else x
  }

  /** Two-digit strings with the same value are the same string. */
  lemma Decimal2Injective(p: string, q: string)
    requires |p| == 2 && |q| == 2 && AllDigits(p) && AllDigits(q)
    requires Decimal(p) == Decimal(q)
    ensures p == q
  {
    assert p[..1] == [p[0]] && q[..1] == [q[0]];
    assert Decimal([p[0]]) == p[0] as int - '0' as int by { assert [p[0]][..0] == ""; }
    assert Decimal([q[0]]) == q[0] as int - '0' as int by { assert [q[0]][..0] == ""; }
  }

  /** The shape of an ISO date string: `DDDD-DD-DD`. */
  predicate IsIsoShape(d: string) {
    && |d| == 10
    && d[4] == '-' && d[7] == '-'
    && forall i :: 0 <= i < 10 && i != 4 && i != 7 ==> IsDigit(d[i])
  }

  /** `f"{int(y):04d}-{int(mo):02d}-{int(d):02d}"` for a match: the year,
      month and day keep their values, each zero-padded to its width. */
  function Render(m: DateMatch): (d: string)
    requires WellFormedMatch(m)
    ensures IsIsoShape(d)
    ensures d[..4] == m.year
    ensures AllDigits(d[5..7]) && Decimal(d[5..7]) == Decimal(m.month)
    ensures AllDigits(d[8..]) && Decimal(d[8..]) == Decimal(m.day)
  {
    var mo, dd := Pad2(m.month), Pad2(m.day);
    var r := m.year + "-" + mo + "-" + dd;
    assert r[5..7] == mo && r[8..] == dd;
    r
  }

  /** The regular-expression fallback. */
  function Fallback(s: string): (r: Option<string>)
    ensures r.Some? ==> IsIsoShape(r.value)
  {
    match Search(s, 0)
    case Some(m) => Some(Render(m))
    case None => None
  }

  function ParseDate(s: string, strptime: Strptime): (r: Option<string>)
    ensures Strip(s) == "" ==> r == None
    ensures FirstFormat(Strip(s), Formats, strptime) == |Formats| && r.Some? ==> IsIsoShape(r.value)
  {
    var t := Strip(s);
    if t == "" then None
    else
      var k := FirstFormat(t, Formats, strptime);
      if k < |Formats| then strptime(Formats[k], t) else Fallback(t)
  }

  /** The first format that parses the stripped input decides the result,
      whatever the later formats would have said. */
  lemma FirstFormatWins(s: string, strptime: Strptime, k: nat)
    requires Strip(s) != ""
    requires k < |Formats| && strptime(Formats[k], Strip(s)).Some?
    requires forall j :: 0 <= j < k ==> strptime(Formats[j], Strip(s)).None?
    ensures ParseDate(s, strptime) == strptime(Formats[k], Strip(s))
  {
    var f := FirstFormat(Strip(s), Formats, strptime);
    assert f <= k;
  }

  /** An ambiguous `03/04/2025` is read month-first: once `%m/%d/%Y` succeeds
      the day-first `%d/%m/%Y` is never consulted. */
  lemma MonthFirst(s: string, strptime: Strptime)
    requires Strip(s) != ""
    requires strptime("%Y-%m-%d", Strip(s)).None?
    requires strptime("%m/%d/%Y", Strip(s)).Some?
    ensures ParseDate(s, strptime) == strptime("%m/%d/%Y", Strip(s))
  {
    FirstFormatWins(s, strptime, 1);
  }

  /** When no format parses, a `YYYY-MM-DD` of ASCII digits is returned as it
      stands: month and day are not range-checked (`2025-13-45` passes). */
  lemma FallbackKeepsDigits(y: string, mo: string, d: string, strptime: Strptime)
    requires |y| == 4 && |mo| == 2 && |d| == 2
    requires AllDigits(y) && AllDigits(mo) && AllDigits(d)
    requires forall j :: 0 <= j < |Formats| ==> strptime(Formats[j], y + "-" + mo + "-" + d).None?
    ensures ParseDate(y + "-" + mo + "-" + d, strptime) == Some(y + "-" + mo + "-" + d)
  {
    FallbackPads(y, '-', mo, '-', d, strptime);
  }

  /** When no format parses `YYYY/M/D` (or with `-`, or with two-digit
      groups), the fallback writes the month and day zero-padded to two
      digits: `2024/3/5` gives `2024-03-05`. */
  lemma FallbackPads(y: string, s1: char, mo: string, s2: char, d: string, strptime: Strptime)
    requires |y| == 4 && AllDigits(y) && IsDateSep(s1) && IsDateSep(s2)
    requires 1 <= |mo| <= 2 && AllDigits(mo) && 1 <= |d| <= 2 && AllDigits(d)
    requires forall j :: 0 <= j < |Formats| ==> strptime(Formats[j], y + [s1] + mo + [s2] + d).None?
    ensures ParseDate(y + [s1] + mo + [s2] + d, strptime) == Some(y + "-" + Pad2(mo) + "-" + Pad2(d))
  {
    var t := y + [s1] + mo + [s2] + d;
    assert t[0] == y[0] && t[|t| - 1] == d[|d| - 1];
    StripBySame(t, IsSpace);
    var k := FirstFormat(t, Formats, strptime);
    assert k == |Formats|;
    FallbackMatch(y, s1, mo, s2, d);
  }

  /** The regular expression matches `YYYY`, a separator, one or two digits,
      a separator and one or two digits at the start, group by group. */
  lemma FallbackMatch(y: string, s1: char, mo: string, s2: char, d: string)
    requires |y| == 4 && AllDigits(y) && IsDateSep(s1) && IsDateSep(s2)
    requires 1 <= |mo| <= 2 && AllDigits(mo) && 1 <= |d| <= 2 && AllDigits(d)
    ensures Fallback(y + [s1] + mo + [s2] + d) == Some(y + "-" + Pad2(mo) + "-" + Pad2(d))
  {
    var t := y + [s1] + mo + [s2] + d;
    var q := 5 + |mo| + 1;
    assert t[0..4] == y && t[4] == s1;
    MonthGroup(y + [s1], mo, s2, d);
    assert MonthLen(t, 5) == |mo|;
    DayGroup(y + [s1] + mo + [s2], d);
    assert IsDigit(t[q]) && DayLen(t, q) == |d|;
    assert t[q..q + |d|] == d;
    assert t[5..5 + |mo|] == mo;
    assert MatchAt(t, 0) == Some(DateMatch(y, mo, d));
  }

  /** The greedy month group is the whole month. */
  lemma MonthGroup(pre: string, mo: string, s2: char, d: string)
    requires 1 <= |mo| <= 2 && AllDigits(mo) && IsDateSep(s2) && 1 <= |d| && AllDigits(d)
    ensures MonthLen(pre + mo + [s2] + d, |pre|) == |mo|
  {
    var t := pre + mo + [s2] + d;
    var p := |pre|;
    assert t[p] == mo[0] && t[p + |mo|] == s2;
    if |mo| == 2 {
      assert t[p + 1] == mo[1];
    }
  }

  /** The greedy day group is the whole day. */
  lemma DayGroup(pre: string, d: string)
    requires 1 <= |d| <= 2 && AllDigits(d)
    ensures IsDigit((pre + d)[|pre|]) && DayLen(pre + d, |pre|) == |d|
  {
    var t := pre + d;
    assert t[|pre|] == d[0];
    if |d| == 2 {
      assert t[|pre| + 1] == d[1];
    }
  }
}

=== FILE: front_matter.dfy ===
/** YAML front matter as the CSV scripts write it (`yaml_kv`,
    `yaml_list_line` in scripts/csv_to_md_multi.py) and as
    scripts/build_index.py splits it off again (`parse_front_matter`): the
    block opens with a `---` line, and the body begins after the first
    `\n---\n` that follows. */
module FrontMatter {
  import opened Wrappers
  import opened Text
  import opened Lists

  /** A value is quoted when it holds `:` and does not look like a URL. */
  predicate NeedsQuotes(v: string) {
    Contains(v, ":") && !StartsWith(v, "http")
  }

  /** `yaml_kv(k, v)` */
  function YamlKv(k: string, v: string): (line: string)
    ensures v == "" <==> line == ""
    ensures v != "" ==> StartsWith(line, k + ": ")
    ensures v != "" ==> (NeedsQuotes(v) <==> line[|k| + 2..] == "\"" + v + "\"")
    ensures v != "" && !NeedsQuotes(v) ==> line[|k| + 2..] == v
  {
    if v == "" then ""
    else if NeedsQuotes(v) then k + ": \"" + v + "\""
    else k + ": " + v
  }

  /** `f"{key}: [{', '.join(values)}]"`, the list form both scripts emit. */
  function ListLine(key: string, values: seq<string>): string {
    key + ": [" + Join(values, ", ") + "]"
  }

  /** `yaml_list_line(key, values)` */
  function YamlListLine(key: string, values: seq<string>): (line: string)
    ensures values == [] <==> line == ""
    ensures values != [] ==> line == ListLine(key, values)
  {
    if values == [] then "" else ListLine(key, values)
  }

  /** The list items after `", ".join`, as a split on `,` sees them: every
      item but the first keeps the space that followed its comma. */
  function Spaced(values: seq<string>): (r: seq<string>)
    ensures |r| == |values|
    ensures |values| > 0 ==> r[0] == values[0]
    ensures forall i :: 0 < i < |values| ==> r[i] == " " + values[i]
  {
    if |values| == 0 then [] else [values[0]] + seq(|values| - 1, i requires 0 <= i < |values| - 1 => " " + values[i + 1])
  }

  lemma {:induction false} JoinSpaced(values: seq<string>)
    requires |values| >= 1
    ensures Join(values, ", ") == Join(Spaced(values), ",")
    decreases |values|
  {
    if |values| > 1 {
      var rest := values[1..];
      JoinSpaced(rest);
      var sp, sr := Spaced(values), Spaced(rest);
      assert Join(values, ", ") == values[0] + ", " + Join(rest, ", ");
      assert Join(sp, ",") == sp[0] + "," + Join(sp[1..], ",");
      if |rest| == 1 {
        assert sp[1..] == [" " + rest[0]];
      } else {
        assert sp[1..] == [" " + sr[0]] + sr[1..];
        assert Join(sr, ",") == sr[0] + "," + Join(sr[1..], ",");
        assert Join(sp[1..], ",") == " " + sr[0] + "," + Join(sr[1..], ",");
      }
    }
  }

  /** Reading the bracketed list back: a split on `,` gives the items (each but
      the first after one space) as long as no item holds a comma. */
  lemma ListLineItems(key: string, values: seq<string>)
    requires |values| >= 1
    requires forall i :: 0 <= i < |values| ==> NoneSatisfy(values[i], c => c == ',')
    ensures var line := ListLine(key, values);
            SplitChar(line[|key| + 3..|line| - 1], ',') == Spaced(values)
  {
    var line := ListLine(key, values);
    assert line[|key| + 3..|line| - 1] == Join(values, ", ");
    JoinSpaced(values);
    var sp := Spaced(values);
    forall i | 0 <= i < |sp|
      ensures NoneSatisfy(sp[i], c => c == ',')
    {
      if i > 0 {
        assert sp[i] == " " + values[i];
        assert forall j :: 0 < j < |sp[i]| ==> sp[i][j] == values[i][j - 1];
      }
    }
    SplitJoin(sp, ',', c => c == ',');
  }

  /** `meta.get(k)`, where a missing key and `None` both read as `""`:
      every use in the scripts only asks whether the value is empty. */
  function Get(meta: map<string, string>, k: string): string {
    if k in meta then meta[k] else ""
  }

  /** The test `if v:` on `meta.get(k)`. */
  function Filled(meta: map<string, string>): string -> bool {
    k => Get(meta, k) != ""
  }

  /** The keys of `order` that have a non-empty value, in `order`'s order. */
  function Present(order: seq<string>, meta: map<string, string>): (keys: seq<string>)
    ensures forall i :: 0 <= i < |keys| ==> Get(meta, keys[i]) != "" && keys[i] in order
    ensures forall i :: 0 <= i < |order| && Get(meta, order[i]) != "" ==> order[i] in keys
  {
    FilterMembers(order, Filled(meta));
    Filter(order, Filled(meta))
  }

  /** The present keys keep the order of `order`. */
  lemma PresentOrder(order: seq<string>, meta: map<string, string>)
    requires NoDup(order)
    ensures forall i, j :: 0 <= i < j < |Present(order, meta)| ==>
              IndexOf(order, Present(order, meta)[i]) < IndexOf(order, Present(order, meta)[j])
  {
    FilterOrder(order, Filled(meta));
  }

  /** A `key: value` line for each key; `quote` chooses `yaml_kv`'s quoting
      over the plain f-string of the sessions script. */
  function KeyLines(keys: seq<string>, meta: map<string, string>, quote: bool): (lines: seq<string>)
    ensures |lines| == |keys|
    ensures forall i :: 0 <= i < |keys| && Get(meta, keys[i]) != "" ==> StartsWith(lines[i], keys[i] + ": ")
  {
    seq(|keys|, i requires 0 <= i < |keys| =>
      if quote then YamlKv(keys[i], Get(meta, keys[i])) else keys[i] + ": " + Get(meta, keys[i]))
  }

  /** A key the scripts use: non-empty, starting with a letter. */
  predicate IsKey(k: string) { |k| > 0 && 'a' <= k[0] <= 'z' && NoNewline(k) }

  /** A literal key: a lower-case first letter and no line break. */
  lemma KeyOf(k: string)
    requires |k| > 0 && 'a' <= k[0] <= 'z' && '\n' !in k
    ensures IsKey(k)
  {
    AbsentBreak(k);
  }

  /** A line break is whitespace. */
  lemma SpacelessNoNewline(s: string)
    requires NoneSatisfy(s, IsSpace)
    ensures NoNewline(s)
  {
    assert IsSpace('\n');
  }

  lemma AbsentBreak(s: string)
    requires '\n' !in s
    ensures NoNewline(s)
  {
    assert forall i :: 0 <= i < |s| ==> s[i] in s;
  }

  /** A line may sit inside a block: it holds no line break and is not `---`. */
  predicate InnerLine(line: string) { NoNewline(line) && line != "---" }

  lemma KeyedLineInner(k: string, line: string)
    requires IsKey(k) && StartsWith(line, k + ": ") && NoNewline(line)
    ensures InnerLine(line)
  {
    assert line[0] == k[0];
  }

  lemma KeyLinesInner(keys: seq<string>, meta: map<string, string>, quote: bool)
    requires forall i :: 0 <= i < |keys| ==> IsKey(keys[i]) && Get(meta, keys[i]) != "" && NoNewline(Get(meta, keys[i]))
    ensures forall i :: 0 <= i < |keys| ==> InnerLine(KeyLines(keys, meta, quote)[i])
  {
    var lines := KeyLines(keys, meta, quote);
    forall i | 0 <= i < |keys|
      ensures InnerLine(lines[i])
    {
      var k, v := keys[i], Get(meta, keys[i]);
      var l := lines[i];
      if quote && NeedsQuotes(v) {
        assert l == k + ": \"" + v + "\"";
      } else {
        assert l == k + ": " + v;
      }
      assert forall j :: 0 <= j < |l| ==> l[j] in k || l[j] in v || l[j] == ':' || l[j] == ' ' || l[j] == '"';
      KeyedLineInner(k, l);
    }
  }

  lemma ListLineInner(key: string, values: seq<string>)
    requires IsKey(key)
    requires forall i :: 0 <= i < |values| ==> NoNewline(values[i])
    ensures InnerLine(ListLine(key, values))
  {
    JoinNoneSatisfy(values, ", ", c => c == '\n');
    var j := Join(values, ", ");
    var l := ListLine(key, values);
    assert l == key + ": [" + j + "]";
    assert forall i :: 0 <= i < |l| ==> l[i] in key || l[i] in j || l[i] == ':' || l[i] == ' ' || l[i] == '[' || l[i] == ']';
    KeyedLineInner(key, l);
  }

  /** The closing delimiter of a front-matter block. */
  const Close: string := "\n---\n"

  /** `s` holds the closing delimiter at position `j`. */
  predicate CloseAt(s: string, j: nat) {
    && j + 5 <= |s|
    && s[j] == '\n' && s[j + 1] == '-' && s[j + 2] == '-' && s[j + 3] == '-' && s[j + 4] == '\n'
  }

  /** Position of the first `\n---\n` in `s`, if any. */
  function FindClose(s: string): (k: Option<nat>)
    ensures k.Some? ==> CloseAt(s, k.value)
    ensures k.Some? ==> forall j :: 0 <= j < k.value ==> !CloseAt(s, j)
    ensures k.None? ==> forall j :: 0 <= j <= |s| ==> !CloseAt(s, j)
    decreases |s|
  {
    if |s| < 5 then None
    else if CloseAt(s, 0) then Some(0)
    else
      var k := FindClose(s[1..]);
      assert forall j :: 1 <= j <= |s| ==> (CloseAt(s, j) <==> CloseAt(s[1..], j - 1));
      if k.Some? then Some(k.value + 1) else None
  }

  /** A found position moved `d` places on. */
  function Shift(k: Option<nat>, d: nat): Option<nat> {
    if k.Some? then Some(k.value + d) else None
  }

  /** What `parse_front_matter` splits: the raw YAML text between the
      delimiters when there is a block, and the body. */
  datatype Split = Split(yaml: Option<string>, body: string)

  /** `parse_front_matter` up to `yaml.safe_load`: the search for
      `^---\n(.*?)\n---\n` with the lazy group, so the first closing delimiter
      after the opening line ends the block. */
  function SplitFrontMatter(text: string): (r: Split)
    ensures r.yaml.None? <==> !StartsWith(text, "---\n") || FindClose(text[4..]).None?
    ensures r.yaml.None? ==> r.body == text
    ensures r.yaml.Some? ==> |r.body| <= |text| && r.body == text[|text| - |r.body|..]
    ensures r.yaml.Some? ==> text == "---\n" + r.yaml.value + Close + r.body
    ensures r.yaml.Some? ==> forall j :: 4 <= j < 4 + |r.yaml.value| ==> !CloseAt(text, j)
  {
    if !StartsWith(text, "---\n") then Split(None, text)
    else
      match FindClose(text[4..])
      case None => Split(None, text)
      case Some(k) =>
        assert text[4 + k..4 + k + 5] == Close;
        assert text == text[..4] + text[4..4 + k] + text[4 + k..4 + k + 5] + text[4 + k + 5..];
        CloseAtDrop(text, 4, k);
        Split(Some(text[4..4 + k]), text[4 + k + 5..])
  }

  /** A delimiter at `j` in `s[d..]` sits at `d + j` in `s`. */
  lemma CloseAtDrop(s: string, d: nat, k: nat)
    requires d <= |s|
    requires forall j :: 0 <= j < k ==> !CloseAt(s[d..], j)
    ensures forall j :: d <= j < d + k ==> !CloseAt(s, j)
  {
    forall j | d <= j < d + k ensures !CloseAt(s, j) {
      assert !CloseAt(s[d..], j - d);
    }
  }

  /** The block ends at the first closing delimiter: when the text holds a
      second one later, it stays in the body. */
  lemma {:induction false} FirstCloseWins(yaml: string, body: string)
    requires forall j :: 0 <= j < |yaml| ==> !CloseAt(yaml + Close + body, j)
    ensures SplitFrontMatter("---\n" + yaml + Close + body) == Split(Some(yaml), body)
  {
    var text := "---\n" + yaml + Close + body;
    assert StartsWith(text, "---\n");
    assert text[4..] == yaml + Close + body;
    assert CloseAt(text[4..], |yaml|);
    var k := FindClose(text[4..]);
    assert k.Some? && k.value == |yaml|;
    assert text[4..4 + |yaml|] == yaml;
    assert text[4 + |yaml| + 5..] == body;
  }

  predicate NoNewline(s: string) { NoneSatisfy(s, c => c == '\n') }

  /** A prefix without line breaks cannot hold a delimiter, which starts with one. */
  lemma {:induction false} FindCloseSkips(x: string, t: string)
    requires NoNewline(x)
    ensures FindClose(x + t) == Shift(FindClose(t), |x|)
    decreases |x|
  {
    if |x| > 0 {
      FindCloseSkips(x[1..], t);
      AppendTail(x, t);
      assert !CloseAt(x + t, 0) by {
        assert x[0] != '\n';
      }
      FindCloseStep(x + t);
    } else {
      assert x + t == t;
    }
  }

  /** A line that is not `---` (and holds no line break), followed by a line
      break, does not complete a delimiter begun by the line break before it. */
  lemma NotDelimiterLine(line: string, rest: string)
    requires NoNewline(line) && line != "---"
    requires |rest| > 0 && rest[0] == '\n'
    ensures !CloseAt("\n" + line + rest, 0)
  {
    var s := "\n" + line + rest;
    if |line| >= 4 {
      assert s[4] == line[3];
    } else if |line| == 3 {
      assert s[1..4] == line;
    } else {
      assert s[1 + |line|] == rest[0];
    }
  }

  /** Past a line break that starts no delimiter, the search moves one on. */
  lemma FindCloseStep(t: string)
    requires |t| >= 1 && !CloseAt(t, 0)
    ensures FindClose(t) == Shift(FindClose(t[1..]), 1)
  {
  }

  lemma JoinCons(lines: seq<string>, sep: string)
    requires |lines| >= 2
    ensures Join(lines, sep) == lines[0] + sep + Join(lines[1..], sep)
  {
  }

  /** The same, with text following the join. */
  lemma JoinConsWith(lines: seq<string>, sep: string, after: string)
    requires |lines| >= 2
    ensures Join(lines, sep) + after == lines[0] + sep + (Join(lines[1..], sep) + after)
    ensures |Join(lines, sep)| == |lines[0]| + |sep| + |Join(lines[1..], sep)|
  {
    JoinCons(lines, sep);
    AppendAssoc(lines[0] + sep, Join(lines[1..], sep), after);
  }

  /** `x` starts with the line `next` and a line break. */
  predicate LineThenBreak(next: string, x: string) {
    |x| > |next| && x[..|next|] == next && x[|next|] == '\n'
  }

  /** A line break followed by a line other than `---` and another line
      break starts no delimiter, so the search moves one on. */
  lemma SkipBreak(next: string, x: string, t: string)
    requires NoNewline(next) && next != "---"
    requires LineThenBreak(next, x)
    requires t == "\n" + x
    ensures FindClose(t) == Shift(FindClose(x), 1)
  {
    NotDelimiterLine(next, x[|next|..]);
    assert x == next + x[|next|..];
    assert t == "\n" + next + x[|next|..];
    assert t[1..] == x;
    FindCloseStep(t);
  }

  /** One line, its line break and then text that continues with a line
      other than `---`: the search skips the line and the break. */
  lemma SkipLine(first: string, next: string, x: string, s: string)
    requires NoNewline(first) && NoNewline(next) && next != "---"
    requires LineThenBreak(next, x)
    requires s == first + "\n" + x
    ensures FindClose(s) == Shift(FindClose(x), |first| + 1)
  {
    ghost var t := "\n" + x;
    AppendAssoc(first, "\n", x);
    FindCloseSkips(first, t);
    SkipBreak(next, x, t);
    ShiftTwice(FindClose(s), FindClose(t), FindClose(x), |first|);
  }

  lemma ShiftTwice(a: Option<nat>, b: Option<nat>, c: Option<nat>, m: nat)
    requires a == Shift(b, m) && b == Shift(c, 1)
    ensures a == Shift(c, m + 1)
  {
  }

  /** Lines that are neither `---` nor contain a line break, followed by a
      delimiter: the first delimiter is the one after the lines. */
  lemma {:induction false} CloseAfterLines(lines: seq<string>, rest: string)
    requires |lines| >= 1
    requires forall i :: 0 <= i < |lines| ==> NoNewline(lines[i]) && lines[i] != "---"
    ensures FindClose(Join(lines, "\n") + Close + rest) == Some(|Join(lines, "\n")|)
    decreases |lines|
  {
    if |lines| == 1 {
      assert Join(lines, "\n") == lines[0];
      AppendAssoc(lines[0], Close, rest);
      FindCloseSkips(lines[0], Close + rest);
      assert CloseAt(Close + rest, 0);
    } else {
      var tail, cr := lines[1..], Close + rest;
      CloseAfterLines(tail, rest);
      var x := Join(tail, "\n") + Close + rest;
      AppendAssoc(Join(tail, "\n"), Close, rest);
      LineBreakAfterFirst(tail, cr, x);
      var s := Join(lines, "\n") + Close + rest;
      AppendAssoc(Join(lines, "\n"), Close, rest);
      JoinConsWith(lines, "\n", cr);
      SkipLine(lines[0], tail[0], x, s);
    }
  }

  /** In a join of lines continued by a line break, a line break follows the
      first line. */
  lemma LineBreakAfterFirst(lines: seq<string>, rest: string, x: string)
    requires |lines| >= 1 && |rest| > 0 && rest[0] == '\n'
    requires x == Join(lines, "\n") + rest
    ensures LineThenBreak(lines[0], x)
  {
    if |lines| == 1 {
      assert Join(lines, "\n") == lines[0];
      PrefixOf(lines[0], rest);
    } else {
      JoinCons(lines, "\n");
      ghost var j := Join(lines[1..], "\n");
      AppendAssoc(lines[0] + "\n", j, rest);
      AppendAssoc(lines[0], "\n", j + rest);
      PrefixOf(lines[0], "\n" + (j + rest));
    }
  }

  /** A block of lines between two `---` lines. */
  lemma FramedJoin(edge: string, inner: seq<string>, sep: string, framed: string)
    requires |inner| >= 1
    requires framed == Join([edge] + inner + [edge], sep)
    ensures framed == edge + sep + Join(inner, sep) + sep + edge
  {
    ghost var all := [edge] + inner + [edge];
    assert all[1..] == inner + [edge];
    JoinCons(all, sep);
    JoinAppendLast(inner, edge, sep);
  }

  /** Once the delimiter after the opening line is found at `k`, the split
      takes the text in between and everything after. */
  lemma SplitAt(text: string, yaml: string, rest: string)
    requires text == "---\n" + yaml + Close + rest
    requires FindClose(text[4..]) == Some(|yaml|)
    ensures SplitFrontMatter(text) == Split(Some(yaml), rest)
  {
    assert text[..4] == "---\n";
    assert text[4..4 + |yaml|] == yaml;
    assert text[4 + |yaml| + 5..] == rest;
  }

  lemma Regroup(ji: string, body: string, text: string)
    requires text == "---" + "\n" + ji + "\n" + "---" + "\n\n" + body
    ensures text == "---\n" + ji + Close + ("\n" + body)
    ensures text[4..] == ji + Close + ("\n" + body)
  {
    assert "\n" + "---" + "\n\n" == Close + "\n";
    assert "---" + "\n" == "---\n";
  }

  /** Writing a block and a body and splitting them again gives back the
      block's inner lines and the body, after the blank line that separates
      them in the scripts' `f"{yaml}\n\n{body}"`. */
  lemma FrontMatterRoundTrip(inner: seq<string>, body: string, text: string)
    requires |inner| >= 1
    requires forall i :: 0 <= i < |inner| ==> NoNewline(inner[i]) && inner[i] != "---"
    requires text == Join(["---"] + inner + ["---"], "\n") + "\n\n" + body
    ensures SplitFrontMatter(text) == Split(Some(Join(inner, "\n")), "\n" + body)
  {
    ghost var ji := Join(inner, "\n");
    FramedJoin("---", inner, "\n", Join(["---"] + inner + ["---"], "\n"));
    Regroup(ji, body, text);
    CloseAfterLines(inner, "\n" + body);
    SplitAt(text, ji, "\n" + body);
  }

  lemma {:induction false} JoinAppendLast(xs: seq<string>, x: string, sep: string)
    requires |xs| >= 1
    ensures Join(xs + [x], sep) == Join(xs, sep) + sep + x
    decreases |xs|
  {
    if |xs| == 1 {
      assert (xs + [x])[1..] == [x];
    } else {
      JoinAppendLast(xs[1..], x, sep);
      assert (xs + [x])[1..] == xs[1..] + [x];
    }
  }
}

=== FILE: headers.dfy ===
/** `normalize_headers`, shared in shape by scripts/csv_to_md_multi.py
    (alias table passed in) and scripts/csv_sessions_to_md.py (global table).
    CSV headers are keyed by `h.lower().strip()`, so two headers that agree
    after lowering collide and the later one wins; each canonical field then
    takes the header named by the first of its aliases (lowered, not stripped)
    that is present.  The alias collections are Python sets, whose iteration
    order is not fixed, so a table here lists each set in some order and every
    contract holds for every such order. */
module Headers {
  import opened Wrappers
  import opened Text

  /** Canonical field name to its accepted spellings, in iteration order. */
  type AliasTable = map<string, seq<string>>

  /** `h.lower().strip()` */
  function HeaderKey(h: string): string {
    Strip(Lower(h))
  }

  /** `{key(k): k for k in headers}`: a dict comprehension, so a later header
      overwrites an earlier one with the same key. */
  function KeyMap(headers: seq<string>, key: string -> string): map<string, string>
    decreases |headers|
  {
    if |headers| == 0 then map[]
    else KeyMap(headers[..|headers| - 1], key)[key(headers[|headers| - 1]) := headers[|headers| - 1]]
  }

  /** Header `i` is the last one with its key. */
  predicate LastWithKey(headers: seq<string>, key: string -> string, i: nat)
    requires i < |headers|
  {
    forall j :: i < j < |headers| ==> key(headers[j]) != key(headers[i])
  }

  lemma {:induction false} KeyMapKeys(headers: seq<string>, key: string -> string)
    ensures forall i :: 0 <= i < |headers| ==> key(headers[i]) in KeyMap(headers, key)
    ensures forall n :: n in KeyMap(headers, key) ==> key(KeyMap(headers, key)[n]) == n
    decreases |headers|
  {
    if |headers| > 0 {
      var n := |headers| - 1;
      KeyMapKeys(headers[..n], key);
      assert forall i :: 0 <= i < n ==> headers[i] == headers[..n][i];
    }
  }

  /** Each key maps to the last header with that key. */
  lemma {:induction false} KeyMapOrigin(headers: seq<string>, key: string -> string)
    ensures forall n :: n in KeyMap(headers, key) ==>
              exists i :: 0 <= i < |headers| && headers[i] == KeyMap(headers, key)[n] && LastWithKey(headers, key, i)
    decreases |headers|
  {
    if |headers| > 0 {
      var n := |headers| - 1;
      var pre, last := headers[..n], headers[n];
      KeyMapOrigin(pre, key);
      var m', m := KeyMap(pre, key), KeyMap(headers, key);
      assert m == m'[key(last) := last];
      forall k | k in m
        ensures exists i :: 0 <= i < |headers| && headers[i] == m[k] && LastWithKey(headers, key, i)
      {
        if k == key(last) {
          assert headers[n] == m[k] && LastWithKey(headers, key, n);
        } else {
          var i :| 0 <= i < |pre| && pre[i] == m'[k] && LastWithKey(pre, key, i);
          assert headers[i] == m[k];
          KeyMapKeys(pre, key);
          assert LastWithKey(headers, key, i);
        }
      }
    }
  }

  /** Every header's key is present; each key maps to a header with that key,
      and that header is the last one with the key. */
  lemma KeyMapSpec(headers: seq<string>, key: string -> string)
    ensures forall i :: 0 <= i < |headers| ==> key(headers[i]) in KeyMap(headers, key)
    ensures forall n :: n in KeyMap(headers, key) ==> key(KeyMap(headers, key)[n]) == n
    ensures forall n :: n in KeyMap(headers, key) ==>
              exists i :: 0 <= i < |headers| && headers[i] == KeyMap(headers, key)[n] && LastWithKey(headers, key, i)
  {
    KeyMapKeys(headers, key);
    KeyMapOrigin(headers, key);
  }

  /** `{k.lower().strip(): k for k in row_keys}` */
  function LowerMap(headers: seq<string>): map<string, string> {
    KeyMap(headers, HeaderKey)
  }

  /** Index of the first alias whose key is a header key, or `|aliases|`
      when none is. */
  function FirstAlias(aliases: seq<string>, keys: map<string, string>, akey: string -> string): (k: nat)
    ensures k <= |aliases|
    ensures k < |aliases| ==> akey(aliases[k]) in keys
    ensures forall j :: 0 <= j < k ==> akey(aliases[j]) !in keys
    decreases |aliases|
  {
    if |aliases| == 0 then 0
    else if akey(aliases[0]) in keys then 0
    else 1 + FirstAlias(aliases[1..], keys, akey)
  }

  /** The loop of `normalize_headers` with the two keyings as parameters:
      `key` for headers, `akey` for aliases. */
  function NormalizeBy(table: AliasTable, headers: seq<string>, key: string -> string, akey: string -> string): map<string, string>
  {
    var keys := KeyMap(headers, key);
    map c | c in table && FirstAlias(table[c], keys, akey) < |table[c]| :: keys[akey(table[c][FirstAlias(table[c], keys, akey)])]
  }

  /** Every field found is one of the table's; its header is one of the row's
      headers, the last one with its key; and that key is the key of the
      field's first alias to name any header at all. */
  lemma NormalizeByFound(table: AliasTable, headers: seq<string>, key: string -> string, akey: string -> string, c: string)
    requires c in NormalizeBy(table, headers, key, akey)
    ensures c in table
    ensures exists i :: 0 <= i < |headers| && headers[i] == NormalizeBy(table, headers, key, akey)[c] && LastWithKey(headers, key, i)
    ensures exists k :: 0 <= k < |table[c]| && akey(table[c][k]) == key(NormalizeBy(table, headers, key, akey)[c]) &&
              forall j, i :: 0 <= j < k && 0 <= i < |headers| ==> akey(table[c][j]) != key(headers[i])
  {
    var keys := KeyMap(headers, key);
    KeyMapSpec(headers, key);
    var k := FirstAlias(table[c], keys, akey);
    assert akey(table[c][k]) == key(NormalizeBy(table, headers, key, akey)[c]);
  }

  /** A field is missing exactly when none of its aliases names any header. */
  lemma NormalizeByMissing(table: AliasTable, headers: seq<string>, key: string -> string, akey: string -> string, c: string)
    requires c in table
    ensures c !in NormalizeBy(table, headers, key, akey) <==>
            forall k, i :: 0 <= k < |table[c]| && 0 <= i < |headers| ==> akey(table[c][k]) != key(headers[i])
  {
    var keys := KeyMap(headers, key);
    KeyMapSpec(headers, key);
    var k := FirstAlias(table[c], keys, akey);
    if k < |table[c]| {
      var n := akey(table[c][k]);
      var i :| 0 <= i < |headers| && headers[i] == keys[n] && LastWithKey(headers, key, i);
      assert akey(table[c][k]) == key(headers[i]);
    }
  }

  /** `h.lower().strip() == a.lower()`: an alias names a header. */
  predicate Names(alias: string, header: string) {
    Lower(alias) == HeaderKey(header)
  }

  /** `normalize_headers(row_keys, aliases)` */
  function NormalizeHeaders(table: AliasTable, headers: seq<string>): (r: map<string, string>)
    ensures forall c :: c in r ==> c in table
  {
    NormalizeBy(table, headers, HeaderKey, Lower)
  }

  /** A field that is found maps to one of the row's headers, the last among
      those with the same key, named by an alias of the field; no earlier alias
      of the field names any header. */
  lemma NormalizeHeadersFound(table: AliasTable, headers: seq<string>, c: string)
    requires c in NormalizeHeaders(table, headers)
    ensures exists i :: 0 <= i < |headers| && headers[i] == NormalizeHeaders(table, headers)[c] && LastWithKey(headers, HeaderKey, i)
    ensures exists k :: 0 <= k < |table[c]| && Names(table[c][k], NormalizeHeaders(table, headers)[c]) &&
              forall j, i :: 0 <= j < k && 0 <= i < |headers| ==> !Names(table[c][j], headers[i])
  {
    NormalizeByFound(table, headers, HeaderKey, Lower, c);
  }

  /** A field of the table is missing exactly when none of its aliases names a header. */
  lemma NormalizeHeadersMissing(table: AliasTable, headers: seq<string>, c: string)
    requires c in table
    ensures c !in NormalizeHeaders(table, headers) <==>
            forall k, i :: 0 <= k < |table[c]| && 0 <= i < |headers| ==> !Names(table[c][k], headers[i])
  {
    NormalizeByMissing(table, headers, HeaderKey, Lower, c);
  }

  /** The alias sets are Python sets: `table` lists each set once, in one of
      its possible iteration orders. */
  predicate Enumerates(table: AliasTable, sets: map<string, set<string>>) {
    && table.Keys == sets.Keys
    && forall c :: c in table ==>
         (forall k :: 0 <= k < |table[c]| ==> table[c][k] in sets[c]) &&
         (forall a :: a in sets[c] ==> a in table[c])
  }

  /** Whatever order the sets are listed in, a field is missing exactly when
      none of its aliases names a header. */
  lemma EnumeratedMissing(table: AliasTable, sets: map<string, set<string>>, headers: seq<string>, c: string)
    requires Enumerates(table, sets) && c in sets
    ensures c !in NormalizeHeaders(table, headers) <==>
            forall a, i :: a in sets[c] && 0 <= i < |headers| ==> !Names(a, headers[i])
  {
    NormalizeHeadersMissing(table, headers, c);
    if c !in NormalizeHeaders(table, headers) {
      forall a, i | a in sets[c] && 0 <= i < |headers| ensures !Names(a, headers[i]) {
        var k :| 0 <= k < |table[c]| && table[c][k] == a;
      }
    }
  }

  /** An alias that starts or ends with whitespace can never match: header keys are stripped. */
  lemma SpacedAliasNeverMatches(alias: string, header: string)
    requires |alias| > 0 && (IsSpace(alias[0]) || IsSpace(alias[|alias| - 1]))
    ensures !Names(alias, header)
  {
    var a, h := Lower(alias), HeaderKey(header);
    assert h == [] || (!IsSpace(h[0]) && !IsSpace(h[|h| - 1]));
    if IsSpace(alias[0]) {
      assert a[0] == alias[0];
    } else {
      assert a[|a| - 1] == alias[|alias| - 1];
    }
  }
}

=== FILE: list_fields.dfy ===
/** `split_list_field`, which both CSV scripts use for tags, topics and
    categories: split on `;`, `,` or `|`, trim each part, drop blank parts,
    normalise what is left and keep the first appearance of each item.  The
    two scripts normalise differently (see `CsvMulti.SplitListField` and
    `CsvSessions.SplitListField`); everything else is shared here, with the
    normalisation as a parameter. */
module ListFields {
  import opened Text
  import opened Lists

  /** The separators of the class `[;,|]`. */
  predicate IsListSep(c: char) { c == ';' || c == ',' || c == '|' }

  /** The parts of `s` between separators, trimmed, blank ones dropped. */
  function Trimmed(s: string): (r: seq<string>)
    ensures forall i :: 0 <= i < |r| ==> r[i] != "" && NoneSatisfy(r[i], IsListSep)
    ensures forall i :: 0 <= i < |r| ==> !IsSpace(r[i][0]) && !IsSpace(r[i][|r[i]| - 1])
  {
    var parts := Split(s, IsListSep);
    var stripped := seq(|parts|, i requires 0 <= i < |parts| => Strip(parts[i]));
    forall i | 0 <= i < |parts|
      ensures NoneSatisfy(stripped[i], IsListSep)
    {
      StripKeepsNone(parts[i], IsSpace, IsListSep);
    }
    var keep := (t: string) => t != "";
    FilterMembers(stripped, keep);
    Filter(stripped, keep)
  }

  /** Each trimmed part normalised, in order. */
  function Normed(t: seq<string>, norm: string -> string): (r: seq<string>)
    ensures |r| == |t|
    ensures forall i :: 0 <= i < |t| ==> r[i] == norm(t[i])
  {
    seq(|t|, i requires 0 <= i < |t| => norm(t[i]))
  }

  /** `split_list_field(s)` with normalisation `norm`: the normalised parts
      with repeats removed. */
  function Items(s: string, norm: string -> string): (r: seq<string>)
    ensures s == "" ==> r == []
    ensures NoDup(r)
    ensures s != "" ==> forall i :: 0 <= i < |r| ==> r[i] in Normed(Trimmed(s), norm)
    ensures s != "" ==> forall j :: 0 <= j < |Trimmed(s)| ==> Normed(Trimmed(s), norm)[j] in r
  {
    var normed := Normed(Trimmed(s), norm);
    DedupNoDup(normed);
    if s == "" then [] else Dedup(normed)
  }

  /** The items keep the order in which they first appear. */
  lemma ItemsOrder(s: string, norm: string -> string)
    requires s != ""
    ensures forall i, j :: 0 <= i < j < |Items(s, norm)| ==>
              IndexOf(Normed(Trimmed(s), norm), Items(s, norm)[i]) < IndexOf(Normed(Trimmed(s), norm), Items(s, norm)[j])
  {
    DedupOrder(Normed(Trimmed(s), norm));
  }
}

=== FILE: lists.dfy ===
/** Order-preserving de-duplication, as both CSV scripts write it with a
    `seen` set (and `dict.fromkeys` does it for the session-id tag). */
module Lists {

  predicate NoDup<T(==)>(xs: seq<T>) {
    forall i, j :: 0 <= i < j < |xs| ==> xs[i] != xs[j]
  }

  /** Position of the first occurrence of `x`. */
  function IndexOf<T(==)>(xs: seq<T>, x: T): (i: nat)
    requires x in xs
    ensures i < |xs| && xs[i] == x
    ensures forall j :: 0 <= j < i ==> xs[j] != x
  {
    if xs[0] == x then 0 else 1 + IndexOf(xs[1..], x)
  }

  lemma IndexOfPrefix<T>(xs: seq<T>, n: nat, x: T)
    requires n <= |xs| && x in xs[..n]
    ensures IndexOf(xs, x) == IndexOf(xs[..n], x)
  {
    var i1, i2 := IndexOf(xs, x), IndexOf(xs[..n], x);
    assert xs[i2] == x;
    assert i1 <= i2;
    assert forall j :: 0 <= j < i2 ==> xs[j] == xs[..n][j];
  }

  /** Keeps the first appearance of every element; later repeats are dropped. */
  function Dedup<T(==)>(xs: seq<T>): (r: seq<T>)
    ensures forall i :: 0 <= i < |r| ==> r[i] in xs
    ensures forall i :: 0 <= i < |xs| ==> xs[i] in r
    decreases |xs|
  {
    if |xs| == 0 then []
    else
      var d := Dedup(xs[..|xs| - 1]);
      assert xs == xs[..|xs| - 1] + [xs[|xs| - 1]];
      if xs[|xs| - 1] in d then d else d + [xs[|xs| - 1]]
  }

  lemma DedupMember<T>(xs: seq<T>, x: T)
    ensures x in Dedup(xs) <==> x in xs
  {
  }

  /** The result has no repeats. */
  lemma {:induction false} DedupNoDup<T>(xs: seq<T>)
    ensures NoDup(Dedup(xs))
    decreases |xs|
  {
    if |xs| > 0 {
      DedupNoDup(xs[..|xs| - 1]);
    }
  }

  lemma PrefixIndices<T>(xs: seq<T>, n: nat, d: seq<T>)
    requires n <= |xs|
    requires forall k :: 0 <= k < |d| ==> d[k] in xs[..n]
    ensures forall k :: 0 <= k < |d| ==> IndexOf(xs, d[k]) == IndexOf(xs[..n], d[k]) < n
  {
    forall k | 0 <= k < |d|
      ensures IndexOf(xs, d[k]) == IndexOf(xs[..n], d[k]) < n
    {
      IndexOfPrefix(xs, n, d[k]);
    }
  }

  /** The result lists the elements in order of first appearance. */
  lemma {:induction false} DedupOrder<T>(xs: seq<T>)
    ensures forall i, j :: 0 <= i < j < |Dedup(xs)| ==> IndexOf(xs, Dedup(xs)[i]) < IndexOf(xs, Dedup(xs)[j])
    decreases |xs|
  {
    if |xs| > 0 {
      var n := |xs| - 1;
      var pre, last := xs[..n], xs[n];
      DedupOrder(pre);
      var d := Dedup(pre);
      var r := Dedup(xs);
      PrefixIndices(xs, n, d);
      if last in d {
        assert r == d;
      } else {
        assert r == d + [last];
        DedupMember(pre, last);
        assert IndexOf(xs, last) == n;
      }
    }
  }

  /** De-duplicating a list that has no repeats changes nothing. */
  lemma {:induction false} DedupOfNoDup<T>(xs: seq<T>)
    requires NoDup(xs)
    ensures Dedup(xs) == xs
    decreases |xs|
  {
    if |xs| > 0 {
      var pre := xs[..|xs| - 1];
      DedupOfNoDup(pre);
      assert xs[|xs| - 1] !in pre;
      assert pre + [xs[|xs| - 1]] == xs;
    }
  }

  /** `list(dict.fromkeys(xs + [x]))` on a repeat-free `xs`: `x` is appended at
      the end exactly when it is new, and nothing else moves. */
  lemma DedupAppend<T>(xs: seq<T>, x: T)
    requires NoDup(xs)
    ensures Dedup(xs + [x]) == if x in xs then xs else xs + [x]
  {
    assert (xs + [x])[..|xs|] == xs;
    DedupOfNoDup(xs);
  }

  /** `[x for x in xs if p(x)]` */
  function Filter<T>(xs: seq<T>, p: T -> bool): (r: seq<T>)
    ensures |r| <= |xs|
    ensures forall i :: 0 <= i < |r| ==> p(r[i])
    decreases |xs|
  {
    if |xs| == 0 then []
    else (if p(xs[0]) then [xs[0]] else []) + Filter(xs[1..], p)
  }

  /** `[f(x) for x in xs]` */
  function Apply<T, U>(f: T -> U, xs: seq<T>): (ys: seq<U>)
    ensures |ys| == |xs| && forall i :: 0 <= i < |xs| ==> ys[i] == f(xs[i])
  {
    seq(|xs|, i requires 0 <= i < |xs| => f(xs[i]))
  }

  /** Splitting the last element off the second of two joined lists. */
  lemma AppendLast<T>(xs: seq<T>, ys: seq<T>)
    requires ys != []
    ensures xs + ys == (xs + ys[..|ys| - 1]) + [ys[|ys| - 1]]
  {
    assert ys == ys[..|ys| - 1] + [ys[|ys| - 1]];
  }

  lemma AppendAssoc<T>(xs: seq<T>, ys: seq<T>, zs: seq<T>)
    ensures (xs + ys) + zs == xs + (ys + zs)
  {
  }

  /** Moving the parentheses of a five-part join. */
  lemma Regroup<T>(a: seq<T>, x: seq<T>, y: seq<T>, z: seq<T>, b: seq<T>)
    ensures a + (x + y + z) + b == a + x + (y + z + b)
    ensures a + x + y + z + b == a + (x + y + z) + b
  {
  }

  /** The head and tail of a join whose first list is not empty. */
  lemma AppendTail<T>(xs: seq<T>, ys: seq<T>)
    requires xs != []
    ensures (xs + ys)[0] == xs[0] && (xs + ys)[1..] == xs[1..] + ys
  {
  }

  /** A join begins with its first list, and the second one follows it. */
  lemma PrefixOf<T>(xs: seq<T>, ys: seq<T>)
    ensures (xs + ys)[..|xs|] == xs
    ensures ys != [] ==> (xs + ys)[|xs|] == ys[0]
  {
  }

  /** Dropping past the first list of a join drops into the second. */
  lemma DropAppend<T>(xs: seq<T>, ys: seq<T>, d: nat)
    requires d <= |ys|
    ensures (xs + ys)[|xs| + d..] == ys[d..]
  {
  }

  /** What a filter keeps comes from the list, and it keeps everything
      there that passes. */
  lemma {:induction false} FilterMembers<T>(xs: seq<T>, p: T -> bool)
    ensures forall i :: 0 <= i < |Filter(xs, p)| ==> Filter(xs, p)[i] in xs
    ensures forall i :: 0 <= i < |xs| && p(xs[i]) ==> xs[i] in Filter(xs, p)
    decreases |xs|
  {
    if |xs| > 0 {
      FilterMembers(xs[1..], p);
      assert xs == [xs[0]] + xs[1..];
    }
  }

  /** Filtering keeps the relative order: it distributes over concatenation. */
  lemma {:induction false} FilterConcat<T>(xs: seq<T>, ys: seq<T>, p: T -> bool)
    ensures Filter(xs + ys, p) == Filter(xs, p) + Filter(ys, p)
    decreases |xs|
  {
    if |xs| == 0 {
      assert xs + ys == ys;
    } else {
      FilterConcat(xs[1..], ys, p);
      assert (xs + ys)[1..] == xs[1..] + ys;
    }
  }

  /** A filter that rejects nothing changes nothing. */
  lemma {:induction false} FilterAll<T>(xs: seq<T>, p: T -> bool)
    requires forall i :: 0 <= i < |xs| ==> p(xs[i])
    ensures Filter(xs, p) == xs
    decreases |xs|
  {
    if |xs| > 0 {
      FilterAll(xs[1..], p);
      assert [xs[0]] + xs[1..] == xs;
    }
  }

  /** Filtering a list without repeats keeps the relative order of what it keeps. */
  lemma {:induction false} FilterOrder<T>(xs: seq<T>, p: T -> bool)
    requires NoDup(xs)
    ensures forall i, j :: 0 <= i < j < |Filter(xs, p)| ==>
              Filter(xs, p)[i] in xs && Filter(xs, p)[j] in xs && IndexOf(xs, Filter(xs, p)[i]) < IndexOf(xs, Filter(xs, p)[j])
    decreases |xs|
  {
    FilterMembers(xs, p);
    if |xs| > 0 {
      var rest := xs[1..];
      assert NoDup(rest) by {
        forall i, j | 0 <= i < j < |rest| ensures rest[i] != rest[j] {
          assert rest[i] == xs[i + 1] && rest[j] == xs[j + 1];
        }
      }
      FilterOrder(rest, p);
      var fr := Filter(rest, p);
      FilterMembers(rest, p);
      forall k | 0 <= k < |fr|
        ensures IndexOf(xs, fr[k]) == 1 + IndexOf(rest, fr[k])
      {
        var y := fr[k];
        assert y in rest;
        var m := IndexOf(rest, y);
        assert xs[m + 1] == y;
        assert xs[0] != y by {
          assert xs[0] != xs[m + 1];
        }
      }
    }
  }

  /** Index of the first element satisfying `p`, or `|xs|` when none does. */
  function Find<T>(xs: seq<T>, p: T -> bool): (k: nat)
    ensures k <= |xs|
    ensures k < |xs| ==> p(xs[k])
    ensures forall j :: 0 <= j < k ==> !p(xs[j])
    decreases |xs|
  {
    if |xs| == 0 then 0
    else if p(xs[0]) then 0
    else 1 + Find(xs[1..], p)
  }
}

=== FILE: notes.dfy ===
/** The Markdown note both CSV scripts write for one row (`build_yaml` and
    `build_body` in scripts/csv_to_md_multi.py, their inline counterparts in
    scripts/csv_sessions_to_md.py): a front-matter block of `key: value`
    lines in a fixed key order, the list lines, `source` and `last_updated`;
    a blank line; then the body, whose lines are the description, the key
    topics as bullets, and a notes placeholder. */
module Notes {
  import opened Wrappers
  import opened Text
  import opened Lists
  import opened Dates
  import opened FrontMatter

  /** What a script takes from outside the row: `html_to_md` (markdownify),
      `extract_urls` (a regular-expression scan), the `strptime` parser and
      today's ISO date. */
  datatype Env = Env(htmlToMd: string -> string, urlsOf: string -> seq<string>, strptime: Strptime, today: string)

  /** A CSV row as `csv.DictReader` yields it: a missing cell (`None`) reads
      as `""` on every path of both scripts. */
  type Row = map<string, string>

  /** `row.get(h.get(field, ""), "")`: a field without a header reads the
      column named `""`, if the file has one. */
  function Cell(row: Row, h: map<string, string>, field: string): string {
    Get(row, Get(h, field))
  }

  /** A note written to the output directory. */
  datatype Written = Written(name: string, text: string)

  /** The names of the notes written. */
  function NamesOf(ws: seq<Written>): set<string> {
    set i | 0 <= i < |ws| :: ws[i].name
  }

  lemma NamesCons(w: Written, rest: seq<Written>)
    ensures forall i :: 0 < i <= |rest| + 1 ==> NamesOf(([w] + rest)[..i]) == {w.name} + NamesOf(rest[..i - 1])
  {
    forall i | 0 < i <= |rest| + 1
      ensures NamesOf(([w] + rest)[..i]) == {w.name} + NamesOf(rest[..i - 1])
    {
      var a, b := ([w] + rest)[..i], rest[..i - 1];
      assert a == [w] + b;
      assert forall x :: x in NamesOf(a) <==> x == w.name || x in NamesOf(b) by {
        forall x ensures x in NamesOf(a) <==> x == w.name || x in NamesOf(b) {
          if x in NamesOf(a) {
            var j :| 0 <= j < |a| && a[j].name == x;
            if j > 0 { assert b[j - 1].name == x; }
          }
          if x in NamesOf(b) {
            var j :| 0 <= j < |b| && b[j].name == x;
            assert a[j + 1].name == x;
          }
          if x == w.name { assert a[0].name == x; }
        }
      }
    }
  }

  /** Writes `notes` (each a wanted name and a text) in order, each under the
      name `choose` picks given the names taken so far. */
  function WriteAll(notes: seq<(string, string)>, existing: set<string>, choose: (set<string>, string) -> string): (ws: seq<Written>)
    requires forall e: set<string>, n: string :: choose(e, n) !in e
    ensures |ws| == |notes|
    ensures forall i :: 0 <= i < |ws| ==> ws[i].name !in existing && ws[i].text == notes[i].1
    ensures forall i, j :: 0 <= i < j < |ws| ==> ws[i].name != ws[j].name
    ensures |notes| > 0 ==> ws[0].name == choose(existing, notes[0].0)
    decreases |notes|
  {
    if |notes| == 0 then []
    else
      var n := choose(existing, notes[0].0);
      [Written(n, notes[0].1)] + WriteAll(notes[1..], existing + {n}, choose)
  }
  /** Each note goes under the name `choose` picks given the names taken
      before it: the existing ones and those of the earlier notes. */
  lemma {:induction false} WriteAllChoice(notes: seq<(string, string)>, existing: set<string>, choose: (set<string>, string) -> string)
    requires forall e: set<string>, n: string :: choose(e, n) !in e
    ensures var ws := WriteAll(notes, existing, choose);
            forall i :: 0 <= i < |ws| ==> ws[i].name == choose(existing + NamesOf(ws[..i]), notes[i].0)
    decreases |notes|
  {
    if |notes| > 0 {
      var ws := WriteAll(notes, existing, choose);
      var n := choose(existing, notes[0].0);
      var rest := WriteAll(notes[1..], existing + {n}, choose);
      assert ws == [Written(n, notes[0].1)] + rest;
      WriteAllChoice(notes[1..], existing + {n}, choose);
      NamesCons(Written(n, notes[0].1), rest);
      forall i | 0 <= i < |ws|
        ensures ws[i].name == choose(existing + NamesOf(ws[..i]), notes[i].0)
      {
        if i == 0 {
          assert ws[..0] == [];
          assert existing + NamesOf(ws[..0]) == existing;
        } else {
          assert ws[i] == rest[i - 1] && notes[i] == notes[1..][i - 1];
          assert existing + NamesOf(ws[..i]) == existing + {n} + NamesOf(rest[..i - 1]);
        }
      }
    }
  }


  /** The lines between the two `---` of the block: one per present key, the
      list lines, then `source` and `last_updated` (`today`, which the scripts
      read from the clock). */
  function Inner(keys: seq<string>, meta: map<string, string>, quote: bool, lists: seq<string>, source: string, today: string): seq<string> {
    KeyLines(keys, meta, quote) + lists + ["source: " + source, "last_updated: " + today]
  }

  /** Every line of the block is a proper inner line when no value breaks a line. */
  lemma InnerLines(keys: seq<string>, meta: map<string, string>, quote: bool, lists: seq<string>, source: string, today: string)
    requires forall i :: 0 <= i < |keys| ==> IsKey(keys[i]) && Get(meta, keys[i]) != "" && NoNewline(Get(meta, keys[i]))
    requires forall i :: 0 <= i < |lists| ==> InnerLine(lists[i])
    requires NoNewline(source) && NoNewline(today)
    ensures forall i :: 0 <= i < |Inner(keys, meta, quote, lists, source, today)| ==>
              InnerLine(Inner(keys, meta, quote, lists, source, today)[i])
  {
    KeyLinesInner(keys, meta, quote);
    PlainLineInner("source", source);
    PlainLineInner("last_updated", today);
  }

  lemma PlainLineInner(k: string, v: string)
    requires IsKey(k) && NoNewline(v)
    ensures InnerLine(k + ": " + v)
  {
    var l := k + ": " + v;
    assert forall j :: 0 <= j < |l| ==> l[j] in k || l[j] in v || l[j] == ':' || l[j] == ' ';
    KeyedLineInner(k, l);
  }

  /** The list lines: `key: [a, b, ...]` for each named list that is not
      empty, in the given order. */
  function ListLinesOf(named: seq<(string, seq<string>)>): (lines: seq<string>)
    ensures forall i :: 0 <= i < |lines| ==> lines[i] != ""
    decreases |named|
  {
    if |named| == 0 then []
    else (if named[0].1 != [] then [YamlListLine(named[0].0, named[0].1)] else []) + ListLinesOf(named[1..])
  }

  lemma {:induction false} ListLinesInner(named: seq<(string, seq<string>)>)
    requires forall i :: 0 <= i < |named| ==> IsKey(named[i].0) && forall j :: 0 <= j < |named[i].1| ==> NoNewline(named[i].1[j])
    ensures forall i :: 0 <= i < |ListLinesOf(named)| ==> InnerLine(ListLinesOf(named)[i])
    decreases |named|
  {
    if |named| > 0 {
      ListLinesInner(named[1..]);
      if named[0].1 != [] {
        ListLineInner(named[0].0, named[0].1);
      }
    }
  }

  /** The block's inner lines for the scalar keys of `order` and the named lists. */
  function BlockInner(order: seq<string>, meta: map<string, string>, quote: bool, named: seq<(string, seq<string>)>, source: string, today: string): seq<string> {
    Inner(Present(order, meta), meta, quote, ListLinesOf(named), source, today)
  }

  /** The block opens with a `key: ` line per present key and keeps the
      `source` line second to last. */
  lemma BlockKeys(order: seq<string>, meta: map<string, string>, quote: bool, named: seq<(string, seq<string>)>, source: string, today: string)
    ensures var keys, inner := Present(order, meta), BlockInner(order, meta, quote, named, source, today);
            && |keys| <= |inner|
            && (forall i :: 0 <= i < |keys| ==> StartsWith(inner[i], keys[i] + ": "))
            && inner[|inner| - 2] == "source: " + source
  {
    var keys := Present(order, meta);
    var kl := KeyLines(keys, meta, quote);
    var inner := BlockInner(order, meta, quote, named, source, today);
    assert inner == kl + ListLinesOf(named) + ["source: " + source, "last_updated: " + today];
    forall i | 0 <= i < |keys| ensures StartsWith(inner[i], keys[i] + ": ") {
      assert inner[i] == kl[i];
    }
  }

  /** All lines of a block, both `---` included. */
  function Block(order: seq<string>, meta: map<string, string>, quote: bool, named: seq<(string, seq<string>)>, source: string, today: string): seq<string> {
    ["---"] + BlockInner(order, meta, quote, named, source, today) + ["---"]
  }

  /** No line of a block is empty. */
  lemma BlockFilled(order: seq<string>, meta: map<string, string>, quote: bool, named: seq<(string, seq<string>)>, source: string, today: string)
    ensures forall i :: 0 <= i < |Block(order, meta, quote, named, source, today)| ==> Block(order, meta, quote, named, source, today)[i] != ""
  {
    var keys := Present(order, meta);
    var kl := KeyLines(keys, meta, quote);
    assert forall i :: 0 <= i < |kl| ==> |kl[i]| >= |keys[i] + ": "|;
    var lines := Block(order, meta, quote, named, source, today);
    var inner := BlockInner(order, meta, quote, named, source, today);
    assert lines == ["---"] + (kl + ListLinesOf(named) + ["source: " + source, "last_updated: " + today]) + ["---"];
  }

  /** The joined block is the framed inner lines. */
  lemma BlockText(order: seq<string>, meta: map<string, string>, quote: bool, named: seq<(string, seq<string>)>, source: string, today: string)
    ensures Join(Block(order, meta, quote, named, source, today), "\n")
         == "---\n" + Join(BlockInner(order, meta, quote, named, source, today), "\n") + "\n---"
  {
    var inner := BlockInner(order, meta, quote, named, source, today);
    FramedJoin("---", inner, "\n", Join(["---"] + inner + ["---"], "\n"));
  }

  /** `parse_front_matter` gives back the block and the body of a note,
      provided no key, value or list item breaks a line. */
  lemma BlockSplits(order: seq<string>, meta: map<string, string>, quote: bool, named: seq<(string, seq<string>)>, source: string, today: string, body: string)
    requires forall i :: 0 <= i < |order| ==> IsKey(order[i]) && NoNewline(Get(meta, order[i]))
    requires forall i :: 0 <= i < |named| ==> IsKey(named[i].0) && forall j :: 0 <= j < |named[i].1| ==> NoNewline(named[i].1[j])
    requires NoNewline(source) && NoNewline(today)
    ensures SplitFrontMatter("---\n" + Join(BlockInner(order, meta, quote, named, source, today), "\n") + "\n---" + "\n\n" + body)
         == Split(Some(Join(BlockInner(order, meta, quote, named, source, today), "\n")), "\n" + body)
  {
    BlockText(order, meta, quote, named, source, today);
    var keys := Present(order, meta);
    forall i | 0 <= i < |keys|
      ensures IsKey(keys[i]) && Get(meta, keys[i]) != "" && NoNewline(Get(meta, keys[i]))
    {
      assert keys[i] in order;
    }
    ListLinesInner(named);
    InnerLines(keys, meta, quote, ListLinesOf(named), source, today);
    NoteSplits(BlockInner(order, meta, quote, named, source, today), body);
  }

  /** The text of a note: the block, a blank line, the body. */
  function Note(inner: seq<string>, body: string): string {
    Join(["---"] + inner + ["---"], "\n") + "\n\n" + body
  }

  /** `parse_front_matter` of scripts/build_index.py takes a written note
      apart again: the block's inner lines, and the body behind the blank line. */
  lemma NoteSplits(inner: seq<string>, body: string)
    requires |inner| >= 1
    requires forall i :: 0 <= i < |inner| ==> InnerLine(inner[i])
    ensures SplitFrontMatter(Note(inner, body)) == Split(Some(Join(inner, "\n")), "\n" + body)
  {
    FrontMatterRoundTrip(inner, body, Note(inner, body));
  }

  /** The tag a live session gets when its tag cell is empty. */
  const DefaultTag := "live-session"

  lemma DefaultTagSpaceless()
    ensures NoneSatisfy(DefaultTag, IsSpace)
  {
    assert forall i :: 0 <= i < |DefaultTag| ==> DefaultTag[i] in "-eilnosv";
  }

  /** The last line of every body (written in three pieces only so that the
      verifier can scan it). */
  const Placeholder := "_add session-specific " + "notes, links, or " + "highlights here_"

  function Bullets(topics: seq<string>): (r: seq<string>)
    ensures |r| == |topics|
    ensures forall i :: 0 <= i < |topics| ==> r[i] == "- " + topics[i]
  {
    seq(|topics|, i requires 0 <= i < |topics| => "- " + topics[i])
  }

  /** The lines of the body: the description and a blank line when there is
      one, the `key topics` section when there are topics, the notes section. */
  function BodyLines(head: Option<string>, topics: seq<string>): seq<string> {
    (if head.Some? then [head.value, ""] else [])
    + (if topics == [] then [] else ["key topics", ""] + Bullets(topics) + [""])
    + ["notes", "", Placeholder]
  }

  /** The body: its lines joined, with a final line break. */
  function Body(head: Option<string>, topics: seq<string>): string {
    Join(BodyLines(head, topics), "\n") + "\n"
  }

  /** Where each part of the body sits among its lines. */
  lemma BodyLayout(head: Option<string>, topics: seq<string>)
    ensures var lines, h := BodyLines(head, topics), if head.Some? then 2 else 0;
            && (head.Some? ==> lines[0] == head.value && lines[1] == "")
            && (topics != [] <==> |lines| > h + 3)
            && (topics != [] ==> lines[h] == "key topics" && lines[h + 1] == "" && lines[h + 2 + |topics|] == "")
            && (forall i :: 0 <= i < |topics| ==> lines[h + 2 + i] == "- " + topics[i])
            && lines[|lines| - 3..] == ["notes", "", Placeholder]
  {
  }

  lemma FixedLines()
    ensures NoNewline("") && NoNewline("key topics") && NoNewline("notes") && NoNewline(Placeholder)
  {
    AbsentBreak("key topics");
    AbsentBreak("notes");
    AbsentBreak(Placeholder);
  }

  /** No line of the body breaks, when neither the description nor a topic does. */
  lemma BodyLineClean(head: Option<string>, topics: seq<string>, k: nat)
    requires head.Some? ==> NoNewline(head.value)
    requires forall i :: 0 <= i < |topics| ==> NoNewline(topics[i])
    requires k < |BodyLines(head, topics)|
    ensures NoNewline(BodyLines(head, topics)[k])
  {
    var lines := BodyLines(head, topics);
    BodyLayout(head, topics);
    var h := if head.Some? then 2 else 0;
    if head.Some? && k == 0 {
    } else if topics != [] && h + 2 <= k < h + 2 + |topics| {
      BulletClean(topics[k - h - 2]);
    } else {
      assert lines[k] in ["", "key topics", "notes", Placeholder];
      FixedLines();
    }
  }

  lemma BulletClean(t: string)
    requires NoNewline(t)
    ensures NoNewline("- " + t)
  {
    var l := "- " + t;
    forall i | 0 <= i < |l| ensures l[i] != '\n' {
      if i >= 2 {
        assert l[i] == t[i - 2];
      }
    }
  }

  /** Joined lines end with their last line. */
  lemma JoinEndsWithLast(lines: seq<string>, sep: string)
    requires |lines| >= 1
    ensures EndsWith(Join(lines, sep), lines[|lines| - 1])
  {
    var n := |lines| - 1;
    if n > 0 {
      assert lines == lines[..n] + [lines[n]];
      JoinAppendLast(lines[..n], lines[n], sep);
    }
  }

  /** Every body ends with the placeholder line and a line break. */
  lemma BodyEnds(head: Option<string>, topics: seq<string>)
    ensures EndsWith(Body(head, topics), Placeholder + "\n")
  {
    var lines := BodyLines(head, topics);
    BodyLayout(head, topics);
    assert lines[|lines| - 1] == Placeholder;
    JoinEndsWithLast(lines, "\n");
    EndsWithAppend(Join(lines, "\n"), Placeholder, "\n");
  }

  /** A body whose description and topics hold no line break can be split
      back into exactly its lines. */
  lemma BodyRecoverable(head: Option<string>, topics: seq<string>)
    requires head.Some? ==> NoNewline(head.value)
    requires forall i :: 0 <= i < |topics| ==> NoNewline(topics[i])
    ensures var b := Body(head, topics);
            b[|b| - 1] == '\n' && SplitChar(b[..|b| - 1], '\n') == BodyLines(head, topics)
  {
    var lines := BodyLines(head, topics);
    forall k | 0 <= k < |lines|
      ensures NoNewline(lines[k])
    {
      BodyLineClean(head, topics, k);
    }
    SplitJoin(lines, '\n', c => c == '\n');
    var b := Body(head, topics);
    assert b[..|b| - 1] == Join(lines, "\n");
  }
}

=== FILE: paths.dfy ===
/** The path handling of scripts/build_index.py on a POSIX system (`os.sep`
    is `/`): `os.path.normpath`, `basename`, `splitext` and `relpath`, and on
    top of them the script's `should_ignore_path` and `make_source_url`. */
module Paths {
  import opened Text
  import opened Lists

  /** `os.path.basename(path)`: what follows the last `/`. */
  function BaseName(path: string): (name: string)
    ensures |name| <= |path| && name == path[|path| - |name|..]
    ensures forall k :: 0 <= k < |name| ==> name[k] != '/'
  {
    var i := LastIndex(path, '/');
    var name := path[i + 1..];
    assert forall k :: 0 <= k < |name| ==> name[k] != '/' by {
      forall k | 0 <= k < |name| ensures name[k] != '/' {
        assert name[k] == path[i + 1 + k];
      }
    }
    name
  }

  // ---------- os.path.normpath ----------

  /** The leading slashes `normpath` keeps: exactly two stay two, one or
      three and more become one. */
  function Slashes(path: string): (n: nat)
    ensures n <= 2
    ensures n > 0 <==> (|path| > 0 && path[0] == '/')
  {
    if |path| >= 2 && path[0] == '/' && path[1] == '/' && !(|path| >= 3 && path[2] == '/') then 2
    else if |path| > 0 && path[0] == '/' then 1
    else 0
  }

  function Lead(n: nat): string
    requires n <= 2
  {
    if n == 0 then "" else if n == 1 then "/" else "//"
  }

  /** A component that stays as it is: not empty, not `.`, not `..`. */
  predicate Plain(p: string) { p != "" && p != "." && p != ".." }

  /** One round of `normpath`'s loop: empty and `.` components vanish; `..`
      removes the component before it, unless there is none or it is `..`
      itself, in which case it stays (a rooted path drops it instead). */
  function Step(stack: seq<string>, comp: string, rooted: bool): seq<string> {
    if comp == "" || comp == "." then stack
    else if comp != ".." || (!rooted && stack == []) || (stack != [] && stack[|stack| - 1] == "..") then stack + [comp]
    else if stack != [] then stack[..|stack| - 1]
    else stack
  }

  /** The components `normpath` keeps of the `/`-separated `parts`. */
  function NormComps(parts: seq<string>, rooted: bool): (comps: seq<string>)
    ensures forall i :: 0 <= i < |comps| ==> comps[i] != "" && comps[i] != "." && comps[i] in parts
    ensures rooted ==> forall i :: 0 <= i < |comps| ==> comps[i] != ".."
    ensures forall i, j :: 0 <= j < i < |comps| && comps[i] == ".." ==> comps[j] == ".."
    decreases |parts|
  {
    if parts == [] then []
    else
      var init := parts[..|parts| - 1];
      assert forall p :: p in init ==> p in parts;
      Step(NormComps(init, rooted), parts[|parts| - 1], rooted)
  }

  /** `os.path.normpath(path)`. */
  function NormPath(path: string): (r: string)
    ensures r != ""
  {
    var n := Slashes(path);
    var r := Lead(n) + Join(NormComps(SplitChar(path, '/'), n > 0), "/");
    if r == "" then "." else r
  }

  /** Without `..`, normalising only drops the empty and `.` components. */
  lemma {:induction false} NormCompsNoParent(parts: seq<string>, rooted: bool)
    requires forall i :: 0 <= i < |parts| ==> parts[i] != ".."
    ensures NormComps(parts, rooted) == Filter(parts, Kept)
    decreases |parts|
  {
    if parts != [] {
      var init, last := parts[..|parts| - 1], parts[|parts| - 1];
      NormCompsNoParent(init, rooted);
      FilterConcat(init, [last], Kept);
      assert init + [last] == parts;
      assert Filter([last], Kept) == (if Kept(last) then [last] else []) + Filter([last][1..], Kept);
    }
  }

  predicate Kept(p: string) { p != "" && p != "." }

  /** Plain components after anything are kept as they are. */
  lemma {:induction false} NormCompsAppend(xs: seq<string>, ys: seq<string>, rooted: bool)
    requires AllPlain(ys)
    ensures NormComps(xs + ys, rooted) == NormComps(xs, rooted) + ys
    decreases |ys|
  {
    if ys == [] {
      assert xs + ys == xs;
    } else {
      var init, y := ys[..|ys| - 1], ys[|ys| - 1];
      assert AllPlain(init) && Plain(y);
      AppendLast(xs, ys);
      NormCompsAppend(xs, init, rooted);
      NormCompsLast(xs + ys, xs + init, y, rooted);
      AppendLast(NormComps(xs, rooted), ys);
    }
  }

  /** A plain last component is kept. */
  lemma NormCompsLast(parts: seq<string>, init: seq<string>, y: string, rooted: bool)
    requires Plain(y) && parts == init + [y]
    ensures NormComps(parts, rooted) == NormComps(init, rooted) + [y]
  {
    assert parts[..|parts| - 1] == init;
  }

  /** `normpath(path).split(os.sep)` */
  function Components(path: string): seq<string> {
    SplitChar(NormPath(path), '/')
  }

  /** Joining kept components and splitting again gives them back. */
  lemma SplitComps(comps: seq<string>, parts: seq<string>)
    requires forall k :: 0 <= k < |parts| ==> '/' !in parts[k]
    requires forall k :: 0 <= k < |comps| ==> comps[k] in parts
    ensures SplitChar(Join(comps, "/"), '/') == if comps == [] then [""] else comps
  {
    if comps == [] {
      assert Join(comps, "/") == "";
      SplitCharNone("", '/');
    } else {
      forall k | 0 <= k < |comps| ensures '/' !in comps[k] {
        assert comps[k] in parts;
        var j :| 0 <= j < |parts| && parts[j] == comps[k];
      }
      SplitCharJoin(comps, '/');
    }
  }

  /** The components are the kept ones behind one empty component per
      leading slash; a path that normalises to nothing reads `.`. */
  lemma ComponentsOf(path: string)
    ensures var n, comps := Slashes(path), NormComps(SplitChar(path, '/'), Slashes(path) > 0);
            Components(path) == if comps == [] && n == 0 then ["."] else Blanks(n) + SplitChar(Join(comps, "/"), '/')
  {
    var n, comps := Slashes(path), NormComps(SplitChar(path, '/'), Slashes(path) > 0);
    var body := Join(comps, "/");
    if n == 0 {
      if comps == [] {
        assert body == "";
        SplitCharNone(".", '/');
      } else {
        assert Lead(n) + body == body;
      }
    } else if n == 1 {
      SplitCharLead(body, '/');
    } else {
      SplitCharLead(body, '/');
      SplitCharLead("/" + body, '/');
      assert Lead(n) + body == "/" + ("/" + body);
    }
  }

  function Blanks(n: nat): seq<string>
    requires n <= 2
  {
    if n == 0 then [] else if n == 1 then [""] else ["", ""]
  }

  // ---------- should_ignore_path ----------

  /** A component that hides a path: dotted, or the assets folder. */
  predicate IgnoredPart(p: string) {
    (|p| > 0 && p[0] == '.') || p == "_assets"
  }

  /** `should_ignore_path(path)` */
  predicate ShouldIgnore(path: string) {
    AnyIgnored(Components(path))
  }

  /** A path is ignored exactly when one of its normalised components is
      dotted or `_assets`, or when it normalises to `.`. */
  lemma IgnoreByComponents(path: string)
    ensures var comps := NormComps(SplitChar(path, '/'), Slashes(path) > 0);
            ShouldIgnore(path) <==> (comps == [] && Slashes(path) == 0) || AnyIgnored(comps)
  {
    var n, comps := Slashes(path), NormComps(SplitChar(path, '/'), Slashes(path) > 0);
    var cs := Components(path);
    ComponentsShape(path);
    if comps == [] && n == 0 {
      assert IgnoredPart(cs[0]);
    } else {
      var blanks := Blanks(n);
      var tail := if comps == [] then [""] else comps;
      assert !AnyIgnored(blanks) by {
        forall i | 0 <= i < |blanks| ensures !IgnoredPart(blanks[i]) {
          assert blanks[i] == "";
        }
      }
      if comps == [] {
        assert !IgnoredPart(tail[0]);
        assert !AnyIgnored(tail);
      }
      AnyIgnoredConcat(blanks, tail);
    }
  }

  /** The components of a path: `.` for one that normalises to nothing,
      otherwise one empty component per leading slash and then the kept
      components, or a single empty one if none is kept. */
  lemma ComponentsShape(path: string)
    ensures var n, comps := Slashes(path), NormComps(SplitChar(path, '/'), Slashes(path) > 0);
            Components(path) == if comps == [] && n == 0 then ["."] else Blanks(n) + (if comps == [] then [""] else comps)
  {
    var parts := SplitChar(path, '/');
    ComponentsOf(path);
    SplitCharParts(path, '/');
    SplitComps(NormComps(parts, Slashes(path) > 0), parts);
  }

  predicate AnyIgnored(xs: seq<string>) {
    exists i :: 0 <= i < |xs| && IgnoredPart(xs[i])
  }

  lemma AnyIgnoredConcat(xs: seq<string>, ys: seq<string>)
    ensures AnyIgnored(xs + ys) <==> AnyIgnored(xs) || AnyIgnored(ys)
  {
    if AnyIgnored(xs + ys) {
      var i :| 0 <= i < |xs + ys| && IgnoredPart((xs + ys)[i]);
      if i >= |xs| {
        assert IgnoredPart(ys[i - |xs|]);
      }
    }
    if AnyIgnored(ys) {
      var i :| 0 <= i < |ys| && IgnoredPart(ys[i]);
      assert (xs + ys)[|xs| + i] == ys[i];
    }
    if AnyIgnored(xs) {
      var i :| 0 <= i < |xs| && IgnoredPart(xs[i]);
      assert (xs + ys)[i] == xs[i];
    }
  }

  /** Among the kept parts there is an ignored one exactly when some
      raw part is both kept and ignored. */
  lemma KeptIgnored(parts: seq<string>)
    ensures AnyIgnored(Filter(parts, Kept)) <==> exists i :: 0 <= i < |parts| && Kept(parts[i]) && IgnoredPart(parts[i])
  {
    var comps := Filter(parts, Kept);
    FilterMembers(parts, Kept);
    if exists i :: 0 <= i < |parts| && Kept(parts[i]) && IgnoredPart(parts[i]) {
      var i :| 0 <= i < |parts| && Kept(parts[i]) && IgnoredPart(parts[i]);
      var j :| 0 <= j < |comps| && comps[j] == parts[i];
      assert IgnoredPart(comps[j]);
    }
    if AnyIgnored(comps) {
      var j :| 0 <= j < |comps| && IgnoredPart(comps[j]);
      var i :| 0 <= i < |parts| && parts[i] == comps[j];
      assert Kept(parts[i]) && IgnoredPart(parts[i]);
    }
  }

  /** No part is kept exactly when every raw part is empty or `.`. */
  lemma KeptNone(parts: seq<string>)
    ensures Filter(parts, Kept) == [] <==> forall i :: 0 <= i < |parts| ==> !Kept(parts[i])
  {
    var comps := Filter(parts, Kept);
    FilterMembers(parts, Kept);
    if comps != [] {
      assert Kept(comps[0]);
    }
    if exists i :: 0 <= i < |parts| && Kept(parts[i]) {
      var i :| 0 <= i < |parts| && Kept(parts[i]);
      assert parts[i] in comps;
    }
  }

  /** For a path without `..`, what counts is the raw components: one that
      is dotted (other than a bare `.`, which normalising drops) or `_assets`
      hides the path. */
  lemma IgnoreWithoutParent(path: string)
    requires forall i :: 0 <= i < |SplitChar(path, '/')| ==> SplitChar(path, '/')[i] != ".."
    ensures var parts := SplitChar(path, '/');
            ShouldIgnore(path) <==>
              (Slashes(path) == 0 && forall i :: 0 <= i < |parts| ==> !Kept(parts[i]))
              || exists i :: 0 <= i < |parts| && Kept(parts[i]) && IgnoredPart(parts[i])
  {
    var parts := SplitChar(path, '/');
    IgnoreByComponents(path);
    NormCompsNoParent(parts, Slashes(path) > 0);
    KeptIgnored(parts);
    KeptNone(parts);
  }

  // ---------- os.path.splitext ----------

  predicate IsDot(c: char) { c == '.' }

  /** `os.path.splitext(p)`: the extension runs from the last `.` of the
      last component, provided something other than a dot precedes it
      within that component; otherwise there is none. */
  function SplitExt(p: string): (r: (string, string))
    ensures r.0 + r.1 == p
    ensures r.1 == "" || (r.1[0] == '.' && forall k :: 1 <= k < |r.1| ==> r.1[k] != '.' && r.1[k] != '/')
    ensures r.1 != "" ==> r.0 != ""
  {
    var sep, dot := LastIndex(p, '/'), LastIndex(p, '.');
    if dot > sep && NotAllDots(p, sep, dot) then
      (p[..dot], p[dot..])
    else (p, "")
  }

  /** Something other than a dot lies strictly between `lo` and `hi`. */
  predicate NotAllDots(p: string, lo: int, hi: int) {
    exists k :: lo < k < hi && 0 <= k < |p| && p[k] != '.'
  }

  /** A name with a stem that is not all dots, then `.` and an extension
      with neither dot nor slash, loses exactly that extension. */
  lemma SplitExtOf(stem: string, e: string)
    requires forall k :: 0 <= k < |stem| ==> stem[k] != '/'
    requires exists k :: 0 <= k < |stem| && stem[k] != '.'
    requires forall k :: 0 <= k < |e| ==> e[k] != '.' && e[k] != '/'
    ensures SplitExt(stem + "." + e) == (stem, "." + e)
  {
    var p := stem + "." + e;
    assert p[|stem|] == '.';
    assert forall k :: |stem| < k < |p| ==> p[k] == e[k - |stem| - 1];
    assert forall k :: 0 <= k < |stem| ==> p[k] == stem[k];
    var sep, dot := LastIndex(p, '/'), LastIndex(p, '.');
    assert dot == |stem|;
    assert sep == -1;
    var k :| 0 <= k < |stem| && stem[k] != '.';
    assert sep < k < dot && p[k] != '.';
    assert NotAllDots(p, sep, dot);
    assert p[..dot] == stem;
    assert p[dot..] == "." + e;
  }

  lemma LastSlash(dir: string, name: string)
    requires '/' !in name
    ensures LastIndex(dir + "/" + name, '/') == |dir|
  {
    LastIndexUnique(name, '/', -1);
    LastIndexConcat(dir + "/", name, '/');
    LastIndexConcat(dir, "/", '/');
    assert LastIndex("/", '/') == 0;
  }

  lemma LastDot(dir: string, name: string)
    ensures var d, dot := LastIndex(name, '.'), LastIndex(dir + "/" + name, '.');
            (d >= 0 ==> dot == |dir| + 1 + d) && (d < 0 ==> dot < |dir|)
  {
    LastIndexConcat(dir + "/", name, '.');
    LastIndexConcat(dir, "/", '.');
  }

  /** The extension of a path is that of its last component. */
  lemma ExtOfLast(dir: string, name: string)
    requires '/' !in name
    ensures SplitExt(dir + "/" + name).1 == SplitExt(name).1
  {
    var p := dir + "/" + name;
    LastSlash(dir, name);
    LastDot(dir, name);
    assert LastIndex(name, '/') == -1;
    var d := LastIndex(name, '.');
    if d >= 0 {
      ExtOfLastDot(dir, name, d);
    }
  }

  /** When the last component has a dot, the path's last dot is that one, and
      the component's stem is all dots exactly when the path's is. */
  lemma ExtOfLastDot(dir: string, name: string, d: nat)
    requires d < |name| && name[d] == '.'
    requires LastIndex(dir + "/" + name, '/') == |dir| && LastIndex(dir + "/" + name, '.') == |dir| + 1 + d
    requires LastIndex(name, '/') == -1 && LastIndex(name, '.') == d
    ensures SplitExt(dir + "/" + name).1 == SplitExt(name).1
  {
    var p, dot := dir + "/" + name, |dir| + 1 + d;
    SplitExtAt(p, |dir|, dot);
    SplitExtAt(name, -1, d);
    NotAllDotsShift(dir, name, d);
    DropAppend(dir + "/", name, d);
    assert |dir + "/"| + d == dot;
  }

  /** The extension, once the last slash and the last dot are known. */
  lemma SplitExtAt(p: string, sep: int, dot: int)
    requires LastIndex(p, '/') == sep && LastIndex(p, '.') == dot && dot > sep
    ensures SplitExt(p).1 == if NotAllDots(p, sep, dot) then p[dot..] else ""
  {
  }

  lemma NotAllDotsShift(dir: string, name: string, d: nat)
    requires d < |name|
    ensures NotAllDots(dir + "/" + name, |dir|, |dir| + 1 + d) <==> NotAllDots(name, -1, d)
  {
    var p, h := dir + "/" + name, |dir| + 1;
    assert forall k :: 0 <= k < |name| ==> p[h + k] == name[k];
    if NotAllDots(name, -1, d) {
      var k :| -1 < k < d && 0 <= k < |name| && name[k] != '.';
      assert |dir| < h + k < h + d && 0 <= h + k < |p| && p[h + k] != '.';
    }
    if NotAllDots(p, |dir|, h + d) {
      var k :| |dir| < k < h + d && 0 <= k < |p| && p[k] != '.';
      assert -1 < k - h < d && 0 <= k - h < |name| && name[k - h] != '.';
    }
  }

  /** `splitext(path)` and `splitext(basename(path))` find the same extension. */
  lemma ExtOfBaseName(path: string)
    ensures SplitExt(path).1 == SplitExt(BaseName(path)).1
  {
    var i := LastIndex(path, '/');
    if i >= 0 {
      var dir, name := path[..i], path[i + 1..];
      assert path == dir + "/" + name;
      assert '/' !in name;
      ExtOfLast(dir, name);
    } else {
      assert BaseName(path) == path;
    }
  }

  // ---------- os.path.relpath ----------

  /** The components of `os.path.abspath(p)`; `cwd` stands for
      `os.getcwd()`, which is joined in front of a relative path. */
  function AbsComps(p: string, cwd: string): seq<string> {
    if |p| > 0 && p[0] == '/' then NormComps(SplitChar(p, '/'), true)
    else NormComps(SplitChar(cwd + "/" + p, '/'), true)
  }

  /** Length of the common prefix of two component lists. */
  function CommonPrefix(a: seq<string>, b: seq<string>): (n: nat)
    ensures n <= |a| && n <= |b|
    ensures a[..n] == b[..n]
    ensures n < |a| && n < |b| ==> a[n] != b[n]
    decreases |a|
  {
    if a == [] || b == [] || a[0] != b[0] then 0
    else
      var n := CommonPrefix(a[1..], b[1..]);
      assert a[..n + 1] == [a[0]] + a[1..][..n];
      assert b[..n + 1] == [b[0]] + b[1..][..n];
      1 + n
  }

  /** One `..` per component of `start` below the common prefix, then the
      rest of `path`. */
  function RelComps(path: string, start: string, cwd: string): seq<string> {
    var s, p := AbsComps(start, cwd), AbsComps(path, cwd);
    var i := CommonPrefix(s, p);
    seq(|s| - i, _ => "..") + p[i..]
  }

  /** `os.path.relpath(path, start)`; an empty `path` raises `ValueError`. */
  function RelPath(path: string, start: string, cwd: string): string
    requires path != ""
  {
    var r := RelComps(path, start, cwd);
    if r == [] then "." else Join(r, "/")
  }

  /** A relative path whose `/`-separated parts are all plain. */
  predicate PlainRelative(p: string) {
    && p != "" && p[0] != '/'
    && AllPlain(SplitChar(p, '/'))
  }

  predicate AllPlain(xs: seq<string>) {
    forall i :: 0 <= i < |xs| ==> Plain(xs[i])
  }

  lemma AllPlainConcat(xs: seq<string>, ys: seq<string>)
    requires AllPlain(xs) && AllPlain(ys)
    ensures AllPlain(xs + ys)
  {
  }

  /** Splitting `a/b/c` splits each of the three. */
  lemma SplitThree(a: string, b: string, c: string)
    ensures SplitChar(a + "/" + (b + "/" + c), '/') == SplitChar(a, '/') + (SplitChar(b, '/') + SplitChar(c, '/'))
  {
    SplitCharConcat(b, '/', c);
    assert b + "/" + c == b + ['/'] + c;
    SplitCharConcat(a, '/', b + "/" + c);
    assert a + "/" + (b + "/" + c) == a + ['/'] + (b + "/" + c);
  }

  lemma SplitTwo(a: string, b: string)
    ensures SplitChar(a + "/" + b, '/') == SplitChar(a, '/') + SplitChar(b, '/')
  {
    SplitCharConcat(a, '/', b);
    assert a + "/" + b == a + ['/'] + b;
  }

  /** A list shares all of itself with any extension of it. */
  lemma CommonPrefixExtends(s: seq<string>, t: seq<string>)
    ensures CommonPrefix(s, s + t) == |s|
  {
  }

  /** `abspath` of a relative path normalises it behind the working directory. */
  lemma AbsCompsRelative(p: string, cwd: string)
    requires p != "" && p[0] != '/'
    ensures AbsComps(p, cwd) == NormComps(SplitChar(cwd, '/') + SplitChar(p, '/'), true)
  {
    SplitTwo(cwd, p);
  }

  /** Below a relative `root`, `abspath` adds the plain parts of the rest. */
  lemma AbsCompsUnder(root: string, rest: string, cwd: string)
    requires PlainRelative(root) && PlainRelative(rest)
    ensures AbsComps(root + "/" + rest, cwd) == AbsComps(root, cwd) + SplitChar(rest, '/')
  {
    var cp, rp, tp := SplitChar(cwd, '/'), SplitChar(root, '/'), SplitChar(rest, '/');
    var p := root + "/" + rest;
    assert p[0] == root[0];
    AbsCompsRelative(root, cwd);
    AbsCompsRelative(p, cwd);
    SplitTwo(root, rest);
    assert cp + SplitChar(p, '/') == (cp + rp) + tp;
    NormCompsAppend(cp + rp, tp, true);
  }

  /** Below a relative `root`, the components relative to the root are
      those of the rest. */
  lemma RelCompsUnder(root: string, rest: string, cwd: string)
    requires PlainRelative(root) && PlainRelative(rest)
    ensures RelComps(root + "/" + rest, root, cwd) == SplitChar(rest, '/')
  {
    var s, tp := AbsComps(root, cwd), SplitChar(rest, '/');
    AbsCompsUnder(root, rest, cwd);
    CommonPrefixExtends(s, tp);
    assert (s + tp)[|s|..] == tp;
    assert seq(0, _ => "..") == [];
  }

  /** Below a relative `root`, the path relative to the root is the rest. */
  lemma RelPathUnder(root: string, rest: string, cwd: string)
    requires PlainRelative(root) && PlainRelative(rest)
    ensures RelPath(root + "/" + rest, root, cwd) == rest
  {
    RelCompsUnder(root, rest, cwd);
    JoinSplit(rest, '/');
  }

  // ---------- make_source_url ----------

  const RawRoot := "data/raw"

  lemma RawRootPlain()
    ensures PlainRelative(RawRoot)
  {
    SplitTwo("data", "raw");
    SplitCharNone("data", '/');
    SplitCharNone("raw", '/');
  }

  /** `os.path.relpath(path, RAW_ROOT)` with `/` separators. */
  function RelToRaw(path: string, cwd: string): string
    requires path != ""
  {
    RelPath(path, RawRoot, cwd)
  }

  /** `make_source_url(path)` */
  function MakeSourceUrl(path: string, cwd: string): (url: string)
    requires path != ""
    ensures StartsWith(url, "/raw/")
  {
    "/raw/" + RelToRaw(path, cwd)
  }

  /** A file below the raw root is served from `/raw/` plus its path below the root. */
  lemma SourceUrlUnderRoot(rest: string, cwd: string)
    requires PlainRelative(rest)
    ensures MakeSourceUrl(RawRoot + "/" + rest, cwd) == "/raw/" + rest
  {
    RawRootPlain();
    RelPathUnder(RawRoot, rest, cwd);
  }
}

=== FILE: query.dfy ===
/** The `/query` endpoint of app/main.py around the retriever and the chat
    model: the score test, the strict fallback with its suggestions and
    rephrasings, and the context and sources of an answer. The retrieved
    nodes and the chat model's replies are parameters. */
module Query {
  import opened Wrappers
  import opened Text
  import opened Lists
  import opened Values
  import BuildIndex

  /** `SIMILARITY_THRESHOLD` when `KB_SIM_THRESHOLD` is not set. */
  const DefaultThreshold: real := 0.78

  /** A retrieved node: its similarity score, its text, and its metadata
      (`None` and `{}` alike read as no metadata). */
  datatype Node = Node(score: Option<real>, text: Option<string>, metadata: map<string, Value>)

  /** `top_score`: the first node's score, `0.0` when there is no node or
      the node has none. */
  function TopScore(nodes: seq<Node>): real {
    if nodes != [] && nodes[0].score.Some? then nodes[0].score.value else 0.0
  }

  /** The strict fallback is taken below the threshold; a score equal to it
      is answered. */
  predicate Declines(nodes: seq<Node>, threshold: real) {
    TopScore(nodes) < threshold
  }

  // ---------- pick ----------

  /** `pick(m)`: the metadata keys, each with `m.get(key)`. */
  function Pick(m: map<string, Value>): (p: map<string, Value>)
    ensures p.Keys == MetadataKeys
    ensures forall k :: k in p ==> p[k] == Lookup(m, k)
  {
    map k | k in MetadataKeys :: Lookup(m, k)
  }

  /** What `pick` copies out of the metadata the indexer stored is exactly
      that metadata: nothing lost, nothing added. */
  lemma PickRecoversStored(md: BuildIndex.Metadata)
    ensures Pick(BuildIndex.Stored(md)) == BuildIndex.Stored(md)
  {
    var stored := BuildIndex.Stored(md);
    assert Pick(stored).Keys == stored.Keys;
  }

  // ---------- suggestions ----------

  predicate IsNewline(c: char) { c == '\n' }

  /** `(n.text or "").strip().split("\n", 1)[0][:200]` */
  function Snippet(text: Option<string>): (s: string)
    ensures var t := Strip(text.GetOr(""));
            && |s| <= 200 && StartsWith(t, s) && '\n' !in s
            && (|s| < 200 ==> |s| == |t| || t[|s|] == '\n')
  {
    var t := Strip(text.GetOr(""));
    var line := t[..Find(t, IsNewline)];
    if |line| <= 200 then line else line[..200]
  }

  /** `m.get("title") or m.get("filename") or "Untitled"` */
  function FallbackTitle(m: map<string, Value>): (t: Value)
    ensures Truthy(t)
    ensures Truthy(Lookup(m, "title")) ==> t == Lookup(m, "title")
  {
    OrElse(Lookup(m, "title"), OrElse(Lookup(m, "filename"), Str("Untitled")))
  }

  /** The keys a suggestion lists before `**pick(m)`. */
  function Head(m: map<string, Value>, snippet: string): (h: map<string, Value>)
    ensures h.Keys == HeadKeys
  {
    map["title" := FallbackTitle(m), "source_url" := Lookup(m, "source_url"),
        "last_updated" := Lookup(m, "last_updated"), "snippet" := Str(snippet)]
  }

  const HeadKeys: set<string> := {"title", "source_url", "last_updated", "snippet"}

  lemma SnippetKeyApart()
    ensures "snippet" !in MetadataKeys
    ensures MetadataKeys + HeadKeys == MetadataKeys + {"snippet"}
  {
  }

  /** One suggestion as written: the head, then `**pick(m)`, whose keys
      win, so the title is the raw metadata title again. */
  function SuggestionAsWritten(n: Node): (s: map<string, Value>)
    ensures s.Keys == MetadataKeys + {"snippet"}
    ensures s["title"] == Lookup(n.metadata, "title")
  {
    SnippetKeyApart();
    Head(n.metadata, Snippet(n.text)) + Pick(n.metadata)
  }

  /** A node with a file name and no title: as written, its suggestion's
      title is `None`, although the fallback meant to give the file name. */
  lemma UntitledSuggestion() returns (n: Node)
    ensures SuggestionAsWritten(n)["title"] == Null
    ensures FallbackTitle(n.metadata) == Str("a.md")
  {
    n := Node(Some(0.5), Some("text"), map["filename" := Str("a.md")]);
    assert "title" !in n.metadata;
  }

  /** One suggestion with the head's title kept: `pick(m)` first, then the
      head. Every other key has the same value either way. */
  function Suggestion(n: Node): (s: map<string, Value>)
    ensures s.Keys == MetadataKeys + {"snippet"}
    ensures s["title"] == FallbackTitle(n.metadata) && Truthy(s["title"])
  {
    SnippetKeyApart();
    Pick(n.metadata) + Head(n.metadata, Snippet(n.text))
  }

  /** Apart from the title, a suggestion carries the node's snippet and the
      node's own value under every metadata key. */
  lemma SuggestionFields(n: Node)
    ensures Suggestion(n)["snippet"] == Str(Snippet(n.text))
    ensures forall k :: k in MetadataKeys && k != "title" ==> Suggestion(n)[k] == Lookup(n.metadata, k)
  {
    var p, h := Pick(n.metadata), Head(n.metadata, Snippet(n.text));
    HeadFields(n.metadata, Snippet(n.text));
    assert Suggestion(n) == p + h;
    forall k | k in MetadataKeys && k != "title" ensures Suggestion(n)[k] == Lookup(n.metadata, k) {
      if k in h {
        assert h[k] == Lookup(n.metadata, k);
      }
    }
  }

  lemma HeadFields(m: map<string, Value>, snippet: string)
    ensures Head(m, snippet)["snippet"] == Str(snippet)
    ensures forall k :: k in HeadKeys && k != "title" && k != "snippet" ==> Head(m, snippet)[k] == Lookup(m, k)
  {
  }

  /** The suggestion as written and as intended differ in the title only. */
  lemma SuggestionsDifferInTitle(n: Node)
    ensures forall k :: k != "title" && k in Suggestion(n) ==> k in SuggestionAsWritten(n) && SuggestionAsWritten(n)[k] == Suggestion(n)[k]
  {
    SnippetKeyApart();
    var p, h := Pick(n.metadata), Head(n.metadata, Snippet(n.text));
    HeadFields(n.metadata, Snippet(n.text));
    assert Suggestion(n) == p + h;
    assert SuggestionAsWritten(n) == h + p;
    forall k | k != "title" && k in p + h ensures k in h + p && (h + p)[k] == (p + h)[k] {
      if k in h && k in p {
        assert h[k] == Lookup(n.metadata, k) == p[k];
      }
    }
  }

  /** `suggestions`: one per node among the first three. */
  function Suggestions(nodes: seq<Node>): (ss: seq<map<string, Value>>)
    ensures |ss| == if |nodes| < 3 then |nodes| else 3
    ensures forall i :: 0 <= i < |ss| ==> ss[i] == Suggestion(nodes[i])
  {
    var first := if |nodes| < 3 then nodes else nodes[..3];
    var ss := Apply(Suggestion, first);
    assert forall i :: 0 <= i < |ss| ==> ss[i] == Suggestion(nodes[i]) by {
      forall i | 0 <= i < |ss| ensures ss[i] == Suggestion(nodes[i]) {
        assert first[i] == nodes[i];
      }
    }
    ss
  }

  /** `suggestions` as app/main.py writes it: each with the raw metadata
      title. */
  function SuggestionsAsWritten(nodes: seq<Node>): (ss: seq<map<string, Value>>)
    ensures |ss| == if |nodes| < 3 then |nodes| else 3
    ensures forall i :: 0 <= i < |ss| ==> ss[i] == SuggestionAsWritten(nodes[i])
  {
    var first := if |nodes| < 3 then nodes else nodes[..3];
    var ss := Apply(SuggestionAsWritten, first);
    assert forall i :: 0 <= i < |ss| ==> ss[i] == SuggestionAsWritten(nodes[i]) by {
      forall i | 0 <= i < |ss| ensures ss[i] == SuggestionAsWritten(nodes[i]) {
        assert first[i] == nodes[i];
      }
    }
    ss
  }

  /** A node with a truthy title gets the same suggestion either way. */
  lemma SameWhenTitled(n: Node)
    requires Truthy(Lookup(n.metadata, "title"))
    ensures SuggestionAsWritten(n) == Suggestion(n)
  {
    SuggestionsDifferInTitle(n);
    var a, c := SuggestionAsWritten(n), Suggestion(n);
    assert a.Keys == c.Keys;
    assert a["title"] == c["title"];
  }

  /** The declined reply's suggestions against the ones app/main.py builds:
      the same count, the same values under every key but `title`, and the
      same suggestion outright for every node with a truthy title. */
  lemma DeclinedAsWritten(query: string, nodes: seq<Node>, threshold: real,
                          rephrase: string -> Option<string>,
                          answer: AnswerCall,
                          show: Value -> string)
    requires Declines(nodes, threshold)
    ensures var ss, asw := QueryKb(query, nodes, threshold, rephrase, answer, show).value.suggestions.value, SuggestionsAsWritten(nodes);
            && |ss| == |asw|
            && (forall i :: 0 <= i < |ss| && Truthy(Lookup(nodes[i].metadata, "title")) ==> ss[i] == asw[i])
            && (forall i, k :: 0 <= i < |ss| && k != "title" && k in ss[i] ==> k in asw[i] && asw[i][k] == ss[i][k])
  {
    var ss, asw := Suggestions(nodes), SuggestionsAsWritten(nodes);
    forall i | 0 <= i < |ss| ensures Truthy(Lookup(nodes[i].metadata, "title")) ==> ss[i] == asw[i]
      ensures forall k :: k != "title" && k in ss[i] ==> k in asw[i] && asw[i][k] == ss[i][k]
    {
      SuggestionsDifferInTitle(nodes[i]);
      if Truthy(Lookup(nodes[i].metadata, "title")) {
        SameWhenTitled(nodes[i]);
      }
    }
  }

  // ---------- rephrasings ----------

  /** The characters `strip(" -\t")` removes. */
  predicate IsListPunct(c: char) { c == ' ' || c == '-' || c == '\t' }

  predicate IsPeriod(c: char) { c == '.' }

  /** `line[:2].isdigit() or (len(line) > 2 and line[1] == ".")` */
  predicate Numbered(line: string)
    requires line != ""
  {
    (IsDigit(line[0]) && (|line| == 1 || IsDigit(line[1]))) || (|line| > 2 && line[1] == '.')
  }

  /** `line.split(".", 1)[-1].strip()` */
  function AfterFirstDot(line: string): string {
    var i := Find(line, IsPeriod);
    if i == |line| then Strip(line) else Strip(line[i + 1..])
  }

  /** The loop body for one line: `None` where the line is skipped. */
  function CleanLine(line: string): (r: Option<string>)
    ensures r.None? <==> StripBy(line, IsListPunct) == ""
    ensures r.Some? && Numbered(StripBy(line, IsListPunct)) ==> r.value == AfterFirstDot(StripBy(line, IsListPunct))
    ensures r.Some? && !Numbered(StripBy(line, IsListPunct)) ==> r.value == StripBy(line, IsListPunct)
  {
    var l := StripBy(line, IsListPunct);
    if l == "" then None
    else if Numbered(l) then Some(AfterFirstDot(l))
    else Some(l)
  }

  predicate NonEmpty(s: string) { s != "" }

  /** The cleaned lines of a reply that are not empty, in reply order. */
  function Cleaned(text: string): (cs: seq<string>)
    ensures forall i :: 0 <= i < |cs| ==> cs[i] != ""
  {
    Filter(Collect(CleanLine, SplitLines(text)), NonEmpty)
  }

  /** `rephrases`: the first three non-empty cleaned lines of the model's
      reply, in order; `None` stands for a reply that raised, which gives
      none. */
  function Rephrases(reply: Option<string>): (r: seq<string>)
    ensures |r| <= 3
    ensures forall i :: 0 <= i < |r| ==> r[i] != ""
    ensures reply.None? ==> r == []
    ensures reply.Some? ==> forall i :: 0 <= i < |r| ==> MadeFrom(CleanLine, SplitLines(reply.value), r[i])
    ensures reply.Some? ==> |r| == (if |Cleaned(reply.value)| < 3 then |Cleaned(reply.value)| else 3)
    ensures reply.Some? ==> r == Cleaned(reply.value)[..|r|]
  {
    match reply
    case None => []
    case Some(text) =>
      var r := FirstThree(Cleaned(text));
      CleanedPrefix(text, r);
      r
  }

  /** `[:3]` on a list. */
  function FirstThree<T>(xs: seq<T>): (r: seq<T>)
    ensures |r| == (if |xs| < 3 then |xs| else 3)
    ensures r == xs[..|r|]
  {
    if |xs| <= 3 then xs else xs[..3]
  }

  /** Every line of a prefix of the cleaned lines is non-empty and was
      made from a line of the reply. */
  lemma CleanedPrefix(text: string, r: seq<string>)
    requires |r| <= |Cleaned(text)| && r == Cleaned(text)[..|r|]
    ensures forall i :: 0 <= i < |r| ==> r[i] != ""
    ensures forall i :: 0 <= i < |r| ==> MadeFrom(CleanLine, SplitLines(text), r[i])
  {
    var kept := Cleaned(text);
    KeptMadeFrom(CleanLine, SplitLines(text), NonEmpty);
    forall i | 0 <= i < |r|
      ensures r[i] != "" && MadeFrom(CleanLine, SplitLines(text), r[i])
    {
      assert r[i] == kept[i];
    }
  }

  /** What a filter keeps of collected values was still made from the
      inputs. */
  lemma KeptMadeFrom<T, U>(f: T -> Option<U>, xs: seq<T>, p: U -> bool)
    ensures forall i :: 0 <= i < |Filter(Collect(f, xs), p)| ==>
              p(Filter(Collect(f, xs), p)[i]) && MadeFrom(f, xs, Filter(Collect(f, xs), p)[i])
  {
    var cs := Collect(f, xs);
    var kept := Filter(cs, p);
    FilterMembers(cs, p);
    forall i | 0 <= i < |kept| ensures MadeFrom(f, xs, kept[i]) {
      var k :| 0 <= k < |cs| && cs[k] == kept[i];
    }
  }

  /** A reply whose every line cleans to a non-empty phrase gives its first
      three phrases, in order. */
  lemma RephrasesOfPhrases(text: string, phrases: seq<string>)
    requires |SplitLines(text)| == |phrases|
    requires forall i :: 0 <= i < |phrases| ==> CleanLine(SplitLines(text)[i]) == Some(phrases[i]) && phrases[i] != ""
    ensures Rephrases(Some(text)) == if |phrases| < 3 then phrases else phrases[..3]
  {
    CollectTotal(CleanLine, SplitLines(text), phrases);
    FilterAll(phrases, NonEmpty);
  }

  /** The numbered list the prompt asks for, `1. a`, `2. b`, ..., gives back
      its first three phrases. */
  lemma RephrasesOfNumberedList(text: string, nums: seq<string>, phrases: seq<string>)
    requires |SplitLines(text)| == |phrases| == |nums|
    requires forall i :: 0 <= i < |phrases| ==> SplitLines(text)[i] == nums[i] + ". " + phrases[i]
    requires forall i :: 0 <= i < |nums| ==> |nums[i]| >= 1 && forall j :: 0 <= j < |nums[i]| ==> IsDigit(nums[i][j])
    requires forall i :: 0 <= i < |phrases| ==>
               phrases[i] != "" && !IsSpace(phrases[i][0]) && !IsSpace(phrases[i][|phrases[i]| - 1]) && !IsListPunct(phrases[i][|phrases[i]| - 1])
    ensures Rephrases(Some(text)) == if |phrases| < 3 then phrases else phrases[..3]
  {
    forall i | 0 <= i < |phrases| ensures CleanLine(SplitLines(text)[i]) == Some(phrases[i]) {
      NumberedItem(nums[i], phrases[i]);
    }
    RephrasesOfPhrases(text, phrases);
  }

  /** A numbered item `N. phrase` gives back the phrase. */
  lemma NumberedItem(num: string, phrase: string)
    requires |num| >= 1 && forall i :: 0 <= i < |num| ==> IsDigit(num[i])
    requires phrase != "" && !IsSpace(phrase[0]) && !IsSpace(phrase[|phrase| - 1]) && !IsListPunct(phrase[|phrase| - 1])
    ensures CleanLine(num + ". " + phrase) == Some(phrase)
  {
    var line := num + ". " + phrase;
    assert line[0] == num[0] && !IsListPunct(line[0]);
    assert line[|line| - 1] == phrase[|phrase| - 1];
    StripBySame(line, IsListPunct);
    NumberedLine(num, phrase);
    AfterNumber(num, phrase);
  }

  /** A line that starts with digits and a dot counts as numbered. */
  lemma NumberedLine(num: string, phrase: string)
    requires |num| >= 1 && forall i :: 0 <= i < |num| ==> IsDigit(num[i])
    ensures Numbered(num + ". " + phrase)
  {
    var line := num + ". " + phrase;
    assert line[0] == num[0];
    if |num| >= 2 {
      assert line[1] == num[1];
    } else {
      assert line[1] == '.';
    }
  }

  /** Behind the first dot of `N. phrase` comes the phrase, once stripped. */
  lemma AfterNumber(num: string, phrase: string)
    requires forall i :: 0 <= i < |num| ==> IsDigit(num[i])
    requires phrase != "" && !IsSpace(phrase[0]) && !IsSpace(phrase[|phrase| - 1])
    ensures AfterFirstDot(num + ". " + phrase) == phrase
  {
    var line := num + ". " + phrase;
    assert line[|num|] == '.';
    forall i | 0 <= i < |num| ensures !IsPeriod(line[i]) {
      assert line[i] == num[i];
    }
    var k := Find(line, IsPeriod);
    assert k == |num|;
    assert line[k + 1..] == [' '] + phrase;
    StripByLead(' ', phrase, IsSpace);
  }

  // ---------- context ----------

  /** An f-string's rendering of a value: strings as they are, anything
      else as `show` renders it (`None` as `"None"`, lists as their repr). */
  function Show(v: Value, show: Value -> string): string {
    if v.Str? then v.s else show(v)
  }

  /** The characters of a string, each a string: what `join` iterates. */
  function Chars(s: string): (cs: seq<string>)
    ensures |cs| == |s| && forall i :: 0 <= i < |s| ==> cs[i] == [s[i]]
  {
    seq(|s|, i requires 0 <= i < |s| => [s[i]])
  }

  /** Every item is a string. */
  predicate AllStr(xs: seq<Value>) {
    forall i :: 0 <= i < |xs| ==> xs[i].Str?
  }

  /** The strings a list of string values holds, in order. */
  function Strs(xs: seq<Value>): (ss: seq<string>)
    requires AllStr(xs)
    ensures |ss| == |xs| && forall i :: 0 <= i < |xs| ==> xs[i] == Str(ss[i])
  {
    seq(|xs|, i requires 0 <= i < |xs| => xs[i].s)
  }

  /** `', '.join(m.get('tags', []) or [])`; `None` where `join` raises
      `TypeError` on an item that is not a string. */
  function TagsText(tags: Value): (r: Option<string>)
    ensures !Truthy(tags) ==> r == Some("")
    ensures tags.Items? && AllStr(tags.items) ==> r == Some(Join(Strs(tags.items), ", "))
    ensures tags.Str? ==> r == Some(Join(Chars(tags.s), ", "))
    ensures r.None? <==> Truthy(tags) && !tags.Str? && !(tags.Items? && AllStr(tags.items))
  {
    if !Truthy(tags) then Some("")
    else
      match tags
      case Str(s) => Some(Join(Chars(s), ", "))
      case Items(xs) =>
        if AllStr(xs) then Some(Join(seq(|xs|, i requires 0 <= i < |xs| => xs[i].s), ", "))
        else None
      case _ => None
  }

  /** The tags text of a list of strings lists them, `, ` between two. */
  lemma TagsJoined(a: string, b: string, c: string)
    ensures TagsText(Items([Str(a), Str(b), Str(c)])) == Some(a + ", " + b + ", " + c)
    ensures TagsText(Items([Str(a)])) == Some(a)
  {
    var xs := [Str(a), Str(b), Str(c)];
    assert Strs(xs) == [a, b, c];
    assert [a, b, c][1..] == [b, c] && [b, c][1..] == [c];
    assert Join([b, c], ", ") == b + ", " + c;
    assert Join([a, b, c], ", ") == a + ", " + (b + ", " + c);
    assert a + ", " + (b + ", " + c) == a + ", " + b + ", " + c;
    assert TagsText(Items(xs)) == Some(Join(Strs(xs), ", "));
    assert Strs([Str(a)]) == [a];
  }

  /** The six lines of `meta_block(m)`, given the joined tags. */
  function BlockLines(m: map<string, Value>, tags: string, show: Value -> string): (lines: seq<string>)
    ensures |lines| == 6
  {
    [ "Title: " + Show(GetOr(m, "title", Str("")), show),
      "URL: " + Show(GetOr(m, "source_url", Str("")), show),
      "Tags: " + tags,
      "Category: " + Show(GetOr(m, "category", Str("")), show),
      "Last Updated: " + Show(GetOr(m, "last_updated", Str("")), show),
      "File: " + Show(OrElse(Lookup(m, "relpath"), GetOr(m, "filename", Str(""))), show) ]
  }

  /** `meta_block(m)`: six labelled lines, each closed by a line break. */
  function MetaBlock(m: map<string, Value>, show: Value -> string): (r: Option<string>)
    ensures r.Some? <==> TagsText(GetOr(m, "tags", Items([]))).Some?
  {
    match TagsText(GetOr(m, "tags", Items([])))
    case None => None
    case Some(tags) => Some(Terminated(BlockLines(m, tags, show)))
  }

  /** The block of one node: its metadata, a dash line, its text. */
  function Block(n: Node, show: Value -> string): Option<string> {
    match MetaBlock(n.metadata, show)
    case None => None
    case Some(meta) => Some(meta + "—\n" + n.text.GetOr(""))
  }

  /** `context`: the nodes' blocks in order, a blank line between two, or
      `"No context retrieved."` for no nodes; `None` when a block raises. */
  function Context(nodes: seq<Node>, show: Value -> string): (r: Option<string>)
    ensures nodes == [] ==> r == Some("No context retrieved.")
    ensures r.None? <==> exists i :: 0 <= i < |nodes| && Block(nodes[i], show).None?
    ensures nodes != [] && r.Some? ==> r.value == Join(Blocks(nodes, show), "\n\n")
  {
    if nodes == [] then Some("No context retrieved.")
    else if exists i :: 0 <= i < |nodes| && Block(nodes[i], show).None? then None
    else Some(Join(Blocks(nodes, show), "\n\n"))
  }

  /** The blocks of nodes that all render. */
  function Blocks(nodes: seq<Node>, show: Value -> string): (bs: seq<string>)
    requires forall i :: 0 <= i < |nodes| ==> Block(nodes[i], show).Some?
    ensures |bs| == |nodes|
    ensures forall i :: 0 <= i < |nodes| ==> Block(nodes[i], show) == Some(bs[i])
  {
    seq(|nodes|, i requires 0 <= i < |nodes| => Block(nodes[i], show).value)
  }

  /** A metadata block reads back line by line when no rendered value holds
      a line break. */
  lemma MetaBlockLines(m: map<string, Value>, show: Value -> string)
    requires MetaBlock(m, show).Some?
    requires forall i :: 0 <= i < 6 ==> '\n' !in BlockLines(m, TagsText(GetOr(m, "tags", Items([]))).value, show)[i]
    ensures SplitChar(MetaBlock(m, show).value, '\n') == BlockLines(m, TagsText(GetOr(m, "tags", Items([]))).value, show) + [""]
  {
    SplitTerminated(BlockLines(m, TagsText(GetOr(m, "tags", Items([]))).value, show));
  }

  /** The block's last line names the file: `relpath`, else `filename`. */
  lemma FileLine(m: map<string, Value>, tags: string, show: Value -> string)
    ensures Truthy(Lookup(m, "relpath")) ==> BlockLines(m, tags, show)[5] == "File: " + Show(m["relpath"], show)
    ensures !Truthy(Lookup(m, "relpath")) && "filename" in m ==> BlockLines(m, tags, show)[5] == "File: " + Show(m["filename"], show)
  {
  }

  // ---------- the reply ----------

  /** The JSON reply of `/query`; the fallback fills `suggestions` and
      `rephrases`, an answer leaves them out. */
  datatype Reply = Reply(
    answer: Option<string>,
    sources: seq<map<string, Value>>,
    suggestions: Option<seq<map<string, Value>>>,
    rephrases: Option<seq<string>>,
    strict: bool,
    topScore: real,
    threshold: real)

  /** The chat call that answers from the context and the question: the
      message content, which may be `None`, or the error it raises. The
      call is not guarded, so its error fails the request. */
  type AnswerCall = (string, string) -> Result<Option<string>, string>

  /** `query_kb`: `rephrase` stands for the chat call that rewrites the
      question (`None` when it raises), `answer` for the one that answers it
      from the context. A metadata block that raises fails the request, and
      so does a raising answer call. */
  function QueryKb(query: string, nodes: seq<Node>, threshold: real,
                   rephrase: string -> Option<string>,
                   answer: AnswerCall,
                   show: Value -> string): (r: Result<Reply, string>)
    ensures r.Success? ==> r.value.strict && r.value.topScore == TopScore(nodes) && r.value.threshold == threshold
    ensures Declines(nodes, threshold) ==> r.Success? && r.value.answer.None? && r.value.sources == []
    ensures Declines(nodes, threshold) ==> r.value.suggestions == Some(Suggestions(nodes))
    ensures Declines(nodes, threshold) ==> r.value.rephrases == Some(Rephrases(rephrase(query)))
    ensures !Declines(nodes, threshold) ==>
              (r.Failure? <==> Context(nodes, show).None? || answer(Context(nodes, show).value, query).Failure?)
    ensures !Declines(nodes, threshold) && Context(nodes, show).Some? && answer(Context(nodes, show).value, query).Failure? ==>
              r == Failure(answer(Context(nodes, show).value, query).error)
    ensures !Declines(nodes, threshold) && r.Success? ==>
              && r.value.suggestions.None? && r.value.rephrases.None?
              && r.value.answer == answer(Context(nodes, show).value, query).value
              && |r.value.sources| == |nodes|
              && forall i :: 0 <= i < |nodes| ==> r.value.sources[i] == Pick(nodes[i].metadata)
  {
    var top := TopScore(nodes);
    if top < threshold then
      Success(Reply(None, [], Some(Suggestions(nodes)), Some(Rephrases(rephrase(query))), true, top, threshold))
    else
      match Context(nodes, show)
      case None => Failure("TypeError")
      case Some(context) =>
        match answer(context, query)
        case Failure(e) => Failure(e)
        case Success(content) =>
          var sources := seq(|nodes|, i requires 0 <= i < |nodes| => Pick(nodes[i].metadata));
          Success(Reply(content, sources, None, None, true, top, threshold))
  }

  /** Nothing retrieved: the score is `0.0`, so any positive threshold
      declines, with no suggestions to offer. */
  lemma NothingRetrieved(query: string, threshold: real,
                         rephrase: string -> Option<string>,
                         answer: AnswerCall,
                         show: Value -> string)
    requires threshold > 0.0
    ensures var r := QueryKb(query, [], threshold, rephrase, answer, show);
            r.Success? && r.value.answer.None? && r.value.topScore == 0.0 && r.value.suggestions == Some([])
  {
  }

  /** A top score equal to the threshold is answered, not declined: the
      reply is the answer call's content, or its error. */
  lemma ThresholdAnswers(query: string, nodes: seq<Node>,
                         rephrase: string -> Option<string>,
                         answer: AnswerCall,
                         show: Value -> string)
    requires Context(nodes, show).Some?
    ensures var r, a := QueryKb(query, nodes, TopScore(nodes), rephrase, answer, show), answer(Context(nodes, show).value, query);
            && (r.Success? <==> a.Success?)
            && (r.Success? ==> r.value.suggestions.None? && r.value.answer == a.value)
            && (r.Failure? ==> r.error == a.error)
  {
  }

  /** An answer call that raises fails the request with its error; the
      fallback's rephrase call, by contrast, is guarded. */
  lemma AnswerRaises(query: string, nodes: seq<Node>, threshold: real,
                     rephrase: string -> Option<string>, show: Value -> string, e: string)
    requires !Declines(nodes, threshold) && Context(nodes, show).Some?
    ensures QueryKb(query, nodes, threshold, rephrase, (c: string, q: string) => Failure(e), show) == Failure(e)
  {
  }

  /** When the nodes carry what the indexer stored, every source of an
      answer is the stored metadata of its node, in retrieval order. */
  lemma SourcesAreStored(query: string, nodes: seq<Node>, threshold: real,
                         rephrase: string -> Option<string>,
                         answer: AnswerCall,
                         show: Value -> string, mds: seq<BuildIndex.Metadata>)
    requires |mds| == |nodes| && forall i :: 0 <= i < |nodes| ==> nodes[i].metadata == BuildIndex.Stored(mds[i])
    requires QueryKb(query, nodes, threshold, rephrase, answer, show).Success?
    requires !Declines(nodes, threshold)
    ensures forall i :: 0 <= i < |nodes| ==> QueryKb(query, nodes, threshold, rephrase, answer, show).value.sources[i] == BuildIndex.Stored(mds[i])
  {
    forall i | 0 <= i < |nodes| ensures Pick(nodes[i].metadata) == BuildIndex.Stored(mds[i]) {
      PickRecoversStored(mds[i]);
    }
  }
}

=== FILE: reindex.dfy ===
/** The `/reindex` endpoint of app/main.py: a non-blocking lock lets at
    most one index build run in the background. The build itself, and the
    time stamp it writes, are not part of this model; a build is only
    started and, later, done. */
module Reindex {

  /** `reindex_lock`: free, or held by the running build. */
  datatype Lock = Idle | Held

  /** The `status` field of the reply. */
  datatype Status = Started | AlreadyRunning

  function StatusText(s: Status): (t: string)
    ensures s == Started <==> t == "started"
    ensures s == AlreadyRunning <==> t == "already_running"
  {
    match s
    case Started => "started"
    case AlreadyRunning => "already_running"
  }

  /** The endpoint and the background builds: the lock and how many builds
      have been started and not yet finished. */
  datatype System = System(lock: Lock, jobs: nat)

  /** What happens next: a POST to `/reindex`, or a running build ending. */
  datatype Event = Post | Done

  /** The lock is held exactly while one build runs, and never two run. */
  predicate Inv(s: System) {
    s.jobs <= 1 && (s.lock == Held <==> s.jobs == 1)
  }

  /** One POST: `acquire(blocking=False)` fails while the lock is held;
      otherwise the lock is taken and a build is queued. */
  function Request(s: System): (r: (Status, System))
    ensures r.1.lock == Held
    ensures r.0 == Started <==> s.lock.Idle?
    ensures r.0 == AlreadyRunning ==> r.1 == s
    ensures r.0 == Started ==> r.1.jobs == s.jobs + 1
  {
    if s.lock.Held? then (AlreadyRunning, s) else (Started, System(Held, s.jobs + 1))
  }

  /** A build ending: the `finally` releases the lock, and a release of a
      lock that is not held raises inside a `try` that swallows it. */
  function Finish(s: System): (r: System)
    requires s.jobs > 0
    ensures r.lock == Idle && r.jobs == s.jobs - 1
  {
    System(Idle, s.jobs - 1)
  }

  /** A run of events from `s`: the statuses the POSTs got back, and how
      many builds ended. A `Done` with no build running does not happen, so
      it changes nothing. */
  function Run(s: System, events: seq<Event>): (r: (System, seq<Status>, nat))
    decreases |events|
  {
    if events == [] then (s, [], 0)
    else if events[0] == Post then
      var (status, next) := Request(s);
      var (last, statuses, done) := Run(next, events[1..]);
      (last, [status] + statuses, done)
    else if s.jobs > 0 then
      var (last, statuses, done) := Run(Finish(s), events[1..]);
      (last, statuses, done + 1)
    else Run(s, events[1..])
  }

  /** How many of the statuses are `Started`. */
  function Starts(statuses: seq<Status>): (n: nat)
    ensures n <= |statuses|
  {
    if statuses == [] then 0 else (if statuses[0] == Started then 1 else 0) + Starts(statuses[1..])
  }

  /** From an idle lock, any run keeps the invariant, so no two builds ever
      run at once, and every build started has ended or is the one running. */
  lemma {:induction false} RunKeepsInv(s: System, events: seq<Event>)
    requires Inv(s)
    ensures Inv(Run(s, events).0)
    ensures Starts(Run(s, events).1) + s.jobs == Run(s, events).2 + Run(s, events).0.jobs
    decreases |events|
  {
    if events != [] {
      if events[0] == Post {
        var (status, next) := Request(s);
        RunKeepsInv(next, events[1..]);
      } else if s.jobs > 0 {
        RunKeepsInv(Finish(s), events[1..]);
      } else {
        RunKeepsInv(s, events[1..]);
      }
    }
  }

  /** Two POSTs with no build ending between them: the second one is
      turned away. */
  lemma SecondPostRefused(s: System)
    requires Inv(s)
    ensures Run(s, [Post, Post]).1[1] == AlreadyRunning
  {
    var (_, next) := Request(s);
    assert Run(s, [Post, Post]) == Run(next, [Post]).(1 := [Request(s).0] + Run(next, [Post]).1);
  }
}

=== FILE: slug.dfy ===
/** `slugify`, written identically in scripts/csv_to_md_multi.py and
    scripts/csv_sessions_to_md.py: strip, lower-case, spell `&` as ` and `,
    drop apostrophes, turn every run of characters outside `[a-z0-9]` into one
    `-`, collapse `--`, trim `-`, and fall back to `"untitled"`. */
module Slug {
  import opened Text
  import opened Lists

  predicate IsAlnum(c: char) { 'a' <= c <= 'z' || '0' <= c <= '9' }

  predicate IsSlugChar(c: char) { IsAlnum(c) || c == '-' }

  predicate IsDash(c: char) { c == '-' }

  predicate NoDoubleDash(s: string) {
    forall i :: 0 <= i < |s| - 1 ==> !(s[i] == '-' && s[i + 1] == '-')
  }

  /** The shape every slug has: non-empty, `[a-z0-9-]` only, no `-` at either
      end and no `--` inside. */
  predicate IsSlug(s: string) {
    && |s| > 0
    && (forall i :: 0 <= i < |s| ==> IsSlugChar(s[i]))
    && s[0] != '-' && s[|s| - 1] != '-'
    && NoDoubleDash(s)
  }

  /** The letters and digits of `s`, in order. */
  function AlnumsOf(s: string): string
    decreases |s|
  {
    if |s| == 0 then "" else (if IsAlnum(s[0]) then [s[0]] else "") + AlnumsOf(s[1..])
  }

  lemma {:induction false} AlnumsConcat(a: string, b: string)
    ensures AlnumsOf(a + b) == AlnumsOf(a) + AlnumsOf(b)
    decreases |a|
  {
    if |a| > 0 {
      AlnumsConcat(a[1..], b);
      assert (a + b)[0] == a[0];
      assert (a + b)[1..] == a[1..] + b;
      var head := if IsAlnum(a[0]) then [a[0]] else "";
      assert AlnumsOf(a + b) == head + AlnumsOf(a[1..] + b);
      assert AlnumsOf(a) == head + AlnumsOf(a[1..]);
    } else {
      assert a + b == b;
    }
  }

  lemma {:induction false} AlnumsOfNone(s: string)
    requires forall i :: 0 <= i < |s| ==> !IsAlnum(s[i])
    ensures AlnumsOf(s) == ""
    decreases |s|
  {
    if |s| > 0 {
      AlnumsOfNone(s[1..]);
    }
  }

  /** `.replace("&", " and ").replace("’", "").replace("'", "")`; the three
      replacements never touch each other's output, so one pass over the
      characters does the same. */
  function Respell(s: string): string
    decreases |s|
  {
    if |s| == 0 then ""
    else
      (if s[0] == '&' then " and "
       else if s[0] == '\U{2019}' || s[0] == '\'' then ""
       else [s[0]])
      + Respell(s[1..])
  }

  /** What `slugify` works on once stripped, lower-cased and respelled. */
  function SlugSource(text: string): string {
    Respell(Lower(Strip(text)))
  }

  /** `re.sub(r"[^a-z0-9]+", "-", s)`: a character outside `[a-z0-9]` emits
      `-` only when it ends its run. */
  function DashRuns(s: string): (r: string)
    ensures forall i :: 0 <= i < |r| ==> IsSlugChar(r[i])
    ensures NoDoubleDash(r)
    ensures |s| > 0 && IsAlnum(s[0]) ==> |r| > 0 && r[0] == s[0]
    ensures AlnumsOf(r) == AlnumsOf(s)
    decreases |s|
  {
    if |s| == 0 then ""
    else if IsAlnum(s[0]) then [s[0]] + DashRuns(s[1..])
    else if |s| > 1 && !IsAlnum(s[1]) then DashRuns(s[1..])
    else "-" + DashRuns(s[1..])
  }

  /** `re.sub(r"-{2,}", "-", s)` */
  function CollapseDashes(s: string): (r: string)
    ensures NoDoubleDash(s) ==> r == s
    decreases |s|
  {
    if |s| == 0 then ""
    else if |s| >= 2 && s[0] == '-' && s[1] == '-' then CollapseDashes(s[1..])
    else [s[0]] + CollapseDashes(s[1..])
  }

  /** Trimming characters that are not letters or digits keeps the letters and digits. */
  lemma TrimKeepsAlnums(s: string, k: nat, r: string)
    requires k + |r| <= |s| && r == s[k..k + |r|]
    requires forall i :: 0 <= i < k ==> !IsAlnum(s[i])
    requires forall i :: k + |r| <= i < |s| ==> !IsAlnum(s[i])
    ensures AlnumsOf(r) == AlnumsOf(s)
  {
    var pre, post := s[..k], s[k + |r|..];
    assert s == pre + r + post;
    assert forall i :: 0 <= i < |pre| ==> pre[i] == s[i];
    assert forall i :: 0 <= i < |post| ==> post[i] == s[k + |r| + i];
    AlnumsOfNone(pre);
    AlnumsOfNone(post);
    AlnumsConcat(pre + r, post);
    AlnumsConcat(pre, r);
  }

  /** `StripBy(t, IsDash)` is the slice of `t` between its leading and trailing dashes. */
  lemma StripDashesSlice(t: string) returns (k: nat)
    ensures k + |StripBy(t, IsDash)| <= |t|
    ensures StripBy(t, IsDash) == t[k..k + |StripBy(t, IsDash)|]
    ensures forall i :: 0 <= i < k ==> t[i] == '-'
    ensures forall i :: k + |StripBy(t, IsDash)| <= i < |t| ==> t[i] == '-'
  {
    var left := TrimLeft(t, IsDash);
    var u := TrimRight(left, IsDash);
    assert StripBy(t, IsDash) == u;
    k := |t| - |left|;
    LeadingDashes(t, k);
    TrailingDashes(t, k, u);
  }

  lemma LeadingDashes(t: string, k: nat)
    requires k == |t| - |TrimLeft(t, IsDash)|
    ensures TrimLeft(t, IsDash) == t[k..]
    ensures forall i :: 0 <= i < k ==> t[i] == '-'
  {
    forall i | 0 <= i < k ensures t[i] == '-' {
      assert IsDash(t[i]);
    }
  }

  lemma TrailingDashes(t: string, k: nat, u: string)
    requires k <= |t| && u == TrimRight(t[k..], IsDash)
    ensures k + |u| <= |t| && u == t[k..k + |u|]
    ensures forall i :: k + |u| <= i < |t| ==> t[i] == '-'
  {
    var left := t[k..];
    assert t[k..k + |u|] == left[..|u|];
    forall i | k + |u| <= i < |t| ensures t[i] == '-' {
      assert t[i] == left[i - k] && IsDash(left[i - k]);
    }
  }

  lemma StripDashesAlnums(t: string)
    ensures AlnumsOf(StripBy(t, IsDash)) == AlnumsOf(t)
  {
    var u := StripBy(t, IsDash);
    var k := StripDashesSlice(t);
    TrimKeepsAlnums(t, k, u);
  }

  lemma StripDashesShape(t: string)
    requires forall i :: 0 <= i < |t| ==> IsSlugChar(t[i])
    requires NoDoubleDash(t)
    ensures StripBy(t, IsDash) != "" ==> IsSlug(StripBy(t, IsDash))
  {
    var u := StripBy(t, IsDash);
    var k := StripDashesSlice(t);
    assert forall i :: 0 <= i < |u| ==> u[i] == t[k + i];
  }

  /** Trimming the `-` at both ends of a dash-run string leaves either nothing
      (when it had no letters or digits) or a slug with the same letters and digits. */
  lemma StripDashes(t: string)
    requires forall i :: 0 <= i < |t| ==> IsSlugChar(t[i])
    requires NoDoubleDash(t)
    ensures AlnumsOf(StripBy(t, IsDash)) == AlnumsOf(t)
    ensures StripBy(t, IsDash) == "" <==> AlnumsOf(t) == ""
    ensures StripBy(t, IsDash) != "" ==> IsSlug(StripBy(t, IsDash))
  {
    StripDashesAlnums(t);
    StripDashesShape(t);
    var u := StripBy(t, IsDash);
    assert u != "" ==> IsAlnum(u[0]);
  }

  lemma UntitledIsSlug()
    ensures IsSlug("untitled")
  {
  }

  function Slugify(text: string): (r: string)
    ensures IsSlug(r)
    ensures AlnumsOf(SlugSource(text)) != "" ==> AlnumsOf(r) == AlnumsOf(SlugSource(text))
    ensures AlnumsOf(SlugSource(text)) == "" ==> r == "untitled"
  {
    var src := SlugSource(text);
    var d := DashRuns(src);
    var t := CollapseDashes(d);
    assert t == d;
    var u := StripBy(t, IsDash);
    StripDashes(t);
    UntitledIsSlug();
    if u == "" then "untitled" else u
  }

  /** A character the respelling leaves as it is. */
  predicate Unspelled(c: char) { c != '&' && c != '\U{2019}' && c != '\'' }

  lemma {:induction false} RespellIdentity(s: string)
    requires forall i :: 0 <= i < |s| ==> Unspelled(s[i])
    ensures Respell(s) == s
    decreases |s|
  {
    if |s| > 0 {
      RespellIdentity(s[1..]);
      assert [s[0]] + s[1..] == s;
    }
  }

  lemma {:induction false} DashRunsIdentity(s: string)
    requires forall i :: 0 <= i < |s| ==> IsSlugChar(s[i])
    requires NoDoubleDash(s)
    ensures DashRuns(s) == s
    decreases |s|
  {
    if |s| > 0 {
      DashRunsIdentity(s[1..]);
      if !IsAlnum(s[0]) && |s| > 1 {
        assert s[0] == '-';
        assert s[1] != '-';
      }
      assert [s[0]] + s[1..] == s;
    }
  }

  /** A slug is its own slug. */
  lemma SlugFixpoint(s: string)
    requires IsSlug(s)
    ensures Slugify(s) == s
  {
    SlugSourceOfSlug(s);
    DashRunsIdentity(s);
    assert CollapseDashes(DashRuns(s)) == s;
    StripBySame(s, IsDash);
  }

  /** Stripping, lower-casing and respelling leave a slug alone. */
  lemma SlugSourceOfSlug(s: string)
    requires IsSlug(s)
    ensures SlugSource(s) == s
  {
    StripBySame(s, IsSpace);
    assert Strip(s) == s;
    LowerIdentity(s);
    RespellIdentity(s);
  }

  /** `slugify(slugify(x)) == slugify(x)`. */
  lemma SlugifyIdempotent(text: string)
    ensures Slugify(Slugify(text)) == Slugify(text)
  {
    SlugFixpoint(Slugify(text));
  }

  /** Characters that put a letter or digit into a slug: ASCII letters and
      digits, and `&`, which is spelled ` and `. */
  predicate GivesLetters(c: char) { IsAlnum(LowerChar(c)) || c == '&' }

  lemma {:induction false} RespellNoAlnum(s: string)
    requires forall i :: 0 <= i < |s| ==> !IsAlnum(s[i]) && s[i] != '&'
    ensures forall i :: 0 <= i < |Respell(s)| ==> !IsAlnum(Respell(s)[i])
    decreases |s|
  {
    if |s| > 0 {
      RespellNoAlnum(s[1..]);
    }
  }

  /** A title with no ASCII letter, digit or `&` becomes `"untitled"`. */
  lemma NoLettersGivesUntitled(text: string)
    requires forall i :: 0 <= i < |text| ==> !GivesLetters(text[i])
    ensures Slugify(text) == "untitled"
  {
    var stripped := Strip(text);
    var k := StripBySlice(text, IsSpace);
    forall i | 0 <= i < |stripped| ensures !GivesLetters(stripped[i]) {
      assert stripped[i] == text[k + i];
    }
    var lowered := Lower(stripped);
    forall i | 0 <= i < |lowered| ensures !IsAlnum(lowered[i]) && lowered[i] != '&' {
      assert lowered[i] == LowerChar(stripped[i]);
    }
    RespellNoAlnum(lowered);
    AlnumsOfNone(Respell(lowered));
  }

  /** The file-name slug of a live session, in both scripts: from the title,
      unless the title reads `untitled session` in any case; then from the
      session id, or from the title again when there is none; `session` when
      that base is empty. */
  function SessionSlug(title: string, sid: string): (slug: string)
    ensures IsSlug(slug)
  {
    var base := if Lower(title) != "untitled session" then title else Or(sid, title);
    Slugify(Or(base, "session"))
  }

  /** Which text the slug is made from. */
  lemma SessionSlugCases(title: string, sid: string)
    ensures title != "" && Lower(title) != "untitled session" ==> SessionSlug(title, sid) == Slugify(title)
    ensures Lower(title) == "untitled session" && sid != "" ==> SessionSlug(title, sid) == Slugify(sid)
    ensures Lower(title) == "untitled session" && sid == "" ==> SessionSlug(title, sid) == Slugify(title)
    ensures title == "" ==> SessionSlug(title, sid) == Slugify("session")
  {
    if title == "" {
      assert Lower(title) == "";
    }
  }

  /** The sessions script's own form, which also falls back to the session
      id for an empty title. Its titles default to `Untitled Session`, so
      they are never empty and the extra guard never fires. */
  function GuardedSessionSlug(title: string, sid: string): (slug: string)
    ensures title == "" && sid != "" ==> slug == Slugify(sid)
  {
    var base := if title != "" && Lower(title) != "untitled session" then title else Or(sid, title);
    Slugify(Or(base, "session"))
  }

  /** The two forms agree on every non-empty title; only an empty title
      with a session id would tell them apart. */
  lemma GuardedAgrees(title: string, sid: string)
    ensures title != "" ==> GuardedSessionSlug(title, sid) == SessionSlug(title, sid)
    ensures title == "" && sid != "" ==> GuardedSessionSlug(title, sid) == Slugify(sid)
    ensures title == "" ==> SessionSlug(title, sid) == Slugify("session")
  {
    SessionSlugCases(title, sid);
  }

  // ---------- where the dashes go ----------

  lemma {:induction false} RespellConcat(x: string, y: string)
    ensures Respell(x + y) == Respell(x) + Respell(y)
    decreases |x|
  {
    if |x| > 0 {
      RespellConcat(x[1..], y);
      assert (x + y)[1..] == x[1..] + y;
    } else {
      assert x + y == y;
    }
  }

  /** A letter or digit ends every run, so what follows it is replaced on
      its own. */
  lemma {:induction false} DashRunsConcat(x: string, y: string)
    requires x == [] || IsAlnum(x[|x| - 1])
    ensures DashRuns(x + y) == DashRuns(x) + DashRuns(y)
    decreases |x|
  {
    if |x| > 0 {
      var t := x[1..] + y;
      assert (x + y)[1..] == t;
      DashRunsConcat(x[1..], y);
      if IsAlnum(x[0]) {
        assert DashRuns(x + y) == [x[0]] + DashRuns(t);
        AppendAssoc([x[0]], DashRuns(x[1..]), DashRuns(y));
      } else {
        assert |x| > 1 && (x + y)[1] == x[1];
        if IsAlnum(x[1]) {
          assert DashRuns(x + y) == "-" + DashRuns(t);
          AppendAssoc("-", DashRuns(x[1..]), DashRuns(y));
        } else {
          assert DashRuns(x + y) == DashRuns(t);
        }
      }
    } else {
      assert x + y == y;
    }
  }

  predicate NoAlnum(s: string) {
    forall i :: 0 <= i < |s| ==> !IsAlnum(s[i])
  }

  /** A run of characters outside `[a-z0-9]` becomes one `-`. */
  lemma {:induction false} DashRunsRun(w: string, b: string)
    requires |w| > 0 && NoAlnum(w)
    requires b == [] || IsAlnum(b[0])
    ensures DashRuns(w + b) == "-" + DashRuns(b)
    decreases |w|
  {
    assert (w + b)[1..] == w[1..] + b;
    if |w| > 1 {
      DashRunsRun(w[1..], b);
      assert (w + b)[1] == w[1];
    } else {
      assert w[1..] + b == b;
    }
  }

  /** A text that already reads as its dash-run form, with a letter or digit
      at both ends, is its own slug. */
  lemma SlugOfDashed(text: string, r: string)
    requires DashRuns(SlugSource(text)) == r && r != [] && IsAlnum(r[0]) && IsAlnum(r[|r| - 1])
    ensures Slugify(text) == r
  {
    StripBySame(r, IsDash);
  }

  /** The characters between two words: none gives a letter, none is
      respelled. */
  predicate Gap(w: string) {
    forall i :: 0 <= i < |w| ==> !GivesLetters(w[i]) && Unspelled(w[i])
  }

  lemma GapPlain(w: string)
    requires Gap(w)
    ensures Lower(w) == w && Respell(w) == w
    ensures NoAlnum(w) && NoUpper(w)
  {
    forall i | 0 <= i < |w| ensures !IsUpper(w[i]) && !IsAlnum(w[i]) {
      assert !IsAlnum(LowerChar(w[i]));
    }
    LowerIdentity(w);
    RespellIdentity(w);
  }

  predicate NoUpper(s: string) {
    forall i :: 0 <= i < |s| ==> !IsUpper(s[i])
  }

  lemma NoUpperConcat(x: string, y: string)
    requires NoUpper(x) && NoUpper(y)
    ensures NoUpper(x + y)
  {
    forall i | 0 <= i < |x + y| ensures !IsUpper((x + y)[i]) {
      if i >= |x| {
        assert (x + y)[i] == y[i - |x|];
      }
    }
  }

  /** What the steps of `slugify` leave of a slug. */
  lemma SlugPlain(a: string)
    requires IsSlug(a)
    ensures NoUpper(a) && Respell(a) == a && DashRuns(a) == a
    ensures IsAlnum(a[0]) && IsAlnum(a[|a| - 1])
  {
    SlugCharsPlain(a);
    RespellIdentity(a);
    DashRunsIdentity(a);
  }

  lemma SlugCharsPlain(a: string)
    requires forall i :: 0 <= i < |a| ==> IsSlugChar(a[i])
    ensures NoUpper(a) && forall i :: 0 <= i < |a| ==> Unspelled(a[i])
  {
    forall i | 0 <= i < |a| ensures !IsUpper(a[i]) && Unspelled(a[i]) {
      assert IsSlugChar(a[i]);
    }
  }

  /** Stripping, lower-casing and respelling of `a + mid + b` for slugs `a`
      and `b` touch only `mid`. */
  lemma SourceBetween(a: string, mid: string, b: string)
    requires IsSlug(a) && IsSlug(b) && NoUpper(mid)
    ensures SlugSource(a + mid + b) == a + Respell(mid) + b
  {
    SlugPlain(a);
    SlugPlain(b);
    var t := a + mid + b;
    NoUpperConcat(a, mid);
    NoUpperConcat(a + mid, b);
    StripEnds(a + mid, b);
    LowerIdentity(t);
    RespellConcat(a + mid, b);
    RespellConcat(a, mid);
  }

  /** A text that starts and ends with a letter or digit strips to itself. */
  lemma StripEnds(x: string, b: string)
    requires x != [] && b != [] && IsAlnum(x[0]) && IsAlnum(b[|b| - 1])
    ensures Strip(x + b) == x + b
  {
    var t := x + b;
    assert t[0] == x[0] && t[|t| - 1] == b[|b| - 1];
    StripBySame(t, IsSpace);
  }

  /** Two slugs with a gap between them, of spaces, punctuation or any
      other characters that give no letter, are joined by one `-`:
      `Slugify("a b") == "a-b"`. */
  lemma SlugJoin(a: string, w: string, b: string)
    requires IsSlug(a) && IsSlug(b) && |w| > 0 && Gap(w)
    ensures Slugify(a + w + b) == a + "-" + b
  {
    GapPlain(w);
    SlugPlain(a);
    SlugPlain(b);
    assert NoUpper(w);
    SourceBetween(a, w, b);
    JoinRuns(a, w, b);
    SlugOfDashed(a + w + b, a + "-" + b);
  }

  /** A run after a dash-run form and before a letter or digit becomes one `-`. */
  lemma JoinRuns(a: string, w: string, y: string)
    requires a != [] && IsAlnum(a[|a| - 1]) && DashRuns(a) == a
    requires y != [] && IsAlnum(y[0])
    requires |w| > 0 && NoAlnum(w)
    ensures DashRuns(a + w + y) == a + "-" + DashRuns(y)
  {
    DashRunsConcat(a, w + y);
    DashRunsRun(w, y);
    AppendAssoc(a, w, y);
  }

  /** `&` between two slugs, with or without a gap on either side, is spelled
      `-and-`: `Slugify("q & a") == "q-and-a"`. */
  lemma SlugAmpersand(a: string, w1: string, w2: string, b: string)
    requires IsSlug(a) && IsSlug(b) && Gap(w1) && Gap(w2)
    ensures Slugify(a + w1 + "&" + w2 + b) == a + "-and-" + b
  {
    SlugPlain(a);
    SlugPlain(b);
    var run1, run2 := AmpersandSource(a, w1, w2, b);
    AndRuns(a, run1, run2, b);
    SlugOfDashed(a + w1 + "&" + w2 + b, a + "-and-" + b);
  }

  /** Before the dash runs, `a + w1 + "&" + w2 + b` reads
      `a + w1 + " and " + w2 + b`. */
  lemma AmpersandSource(a: string, w1: string, w2: string, b: string) returns (run1: string, run2: string)
    requires IsSlug(a) && IsSlug(b) && Gap(w1) && Gap(w2)
    ensures run1 == w1 + " " && run2 == " " + w2
    ensures |run1| > 0 && NoAlnum(run1) && |run2| > 0 && NoAlnum(run2)
    ensures SlugSource(a + w1 + "&" + w2 + b) == a + (run1 + "and" + run2) + b
  {
    GapPlain(w1);
    GapPlain(w2);
    run1, run2 := w1 + " ", " " + w2;
    assert NoAlnum(run1) by { assert forall i :: 0 <= i < |w1| ==> run1[i] == w1[i]; }
    assert NoAlnum(run2) by { assert forall i :: 1 <= i < |run2| ==> run2[i] == w2[i - 1]; }
    NoUpperConcat(w1, "&");
    NoUpperConcat(w1 + "&", w2);
    SourceBetween(a, w1 + "&" + w2, b);
    AmpersandSpelled(w1, w2);
    Regroup(a, w1, "&", w2, b);
  }

  /** The respelling turns `&` into ` and ` and leaves the gaps alone. */
  lemma AmpersandSpelled(w1: string, w2: string)
    requires Respell(w1) == w1 && Respell(w2) == w2
    ensures Respell(w1 + "&" + w2) == (w1 + " ") + "and" + (" " + w2)
  {
    RespellConcat(w1 + "&", w2);
    RespellConcat(w1, "&");
    RespellAmpersand();
    AndSpaced(w1, w2);
  }

  lemma RespellAmpersand()
    ensures Respell("&") == " and "
  {
    assert Respell("&"[1..]) == "";
  }

  lemma AndSpaced(w1: string, w2: string)
    ensures w1 + " and " + w2 == (w1 + " ") + "and" + (" " + w2)
  {
    assert " and " == " " + "and" + " ";
  }

  lemma AndRuns(a: string, run1: string, run2: string, b: string)
    requires a != [] && IsAlnum(a[|a| - 1]) && DashRuns(a) == a
    requires b != [] && IsAlnum(b[0]) && DashRuns(b) == b
    requires |run1| > 0 && NoAlnum(run1)
    requires |run2| > 0 && NoAlnum(run2)
    ensures DashRuns(a + (run1 + "and" + run2) + b) == a + "-and-" + b
  {
    var y := "and" + run2 + b;
    AndTail(run2, b);
    JoinRuns(a, run1, y);
    DashAround(a, b);
    Regroup(a, run1, "and", run2, b);
  }

  /** `and`, a run, then a slug becomes `and-` and the slug. */
  lemma AndTail(run2: string, b: string)
    requires b != [] && IsAlnum(b[0]) && DashRuns(b) == b
    requires |run2| > 0 && NoAlnum(run2)
    ensures DashRuns("and" + run2 + b) == "and-" + b
  {
    AndIsDashRun();
    JoinRuns("and", run2, b);
    assert "and" + "-" + b == "and-" + b;
  }

  lemma DashAround(a: string, b: string)
    ensures a + "-" + ("and-" + b) == a + "-and-" + b
  {
    AppendAssoc(a + "-", "and-", b);
    AppendAssoc(a, "-", "and-");
  }

  lemma AndIsDashRun()
    ensures DashRuns("and") == "and"
  {
    DashRunsIdentity("and");
  }
}

=== FILE: sorting.dfy ===
/** The ordering Python's `list.sort()` gives a list of strings: code point
    by code point, a proper prefix first. scripts/build_index.py sorts the
    paths it has collected before loading them. */
module Sorting {

  /** `a <= b` on Python strings. */
  predicate Below(a: string, b: string)
    decreases |a|
  {
    a == [] || (b != [] && (a[0] < b[0] || (a[0] == b[0] && Below(a[1..], b[1..]))))
  }

  /** Any two strings are ordered one way or the other. */
  lemma {:induction false} BelowTotal(a: string, b: string)
    ensures Below(a, b) || Below(b, a)
    decreases |a|
  {
    if a != [] && b != [] && a[0] == b[0] {
      BelowTotal(a[1..], b[1..]);
    }
  }

  lemma {:induction false} BelowTrans(a: string, b: string, c: string)
    requires Below(a, b) && Below(b, c)
    ensures Below(a, c)
    decreases |a|
  {
    if a != [] && a[0] == b[0] && b[0] == c[0] {
      BelowTrans(a[1..], b[1..], c[1..]);
    }
  }

  lemma {:induction false} BelowAntisym(a: string, b: string)
    requires Below(a, b) && Below(b, a)
    ensures a == b
    decreases |a|
  {
    if a != [] {
      BelowAntisym(a[1..], b[1..]);
      assert a == [a[0]] + a[1..] && b == [b[0]] + b[1..];
    }
  }

  lemma BelowRefl(a: string)
    ensures Below(a, a)
  {
  }

  /** Every element is at most each later one. */
  predicate Sorted(xs: seq<string>) {
    forall i, j :: 0 <= i < j < |xs| ==> Below(xs[i], xs[j])
  }

  /** `x` is at most every element of `xs`. */
  predicate AtMostAll(x: string, xs: seq<string>) {
    forall i :: 0 <= i < |xs| ==> Below(x, xs[i])
  }

  lemma AtMostAllPerm(x: string, xs: seq<string>, ys: seq<string>)
    requires AtMostAll(x, xs) && multiset(xs) == multiset(ys)
    ensures AtMostAll(x, ys)
  {
    forall i | 0 <= i < |ys| ensures Below(x, ys[i]) {
      assert ys[i] in multiset(xs);
      var j :| 0 <= j < |xs| && xs[j] == ys[i];
    }
  }

  /** Places `x` into a sorted list: before the first element it does not
      follow. */
  function Insert(x: string, xs: seq<string>): (r: seq<string>)
    requires Sorted(xs)
    ensures Sorted(r)
    ensures multiset(r) == multiset(xs) + multiset{x}
    decreases |xs|
  {
    if xs == [] then [x]
    else if Below(x, xs[0]) then
      InsertFront(x, xs);
      [x] + xs
    else
      var rest := Insert(x, xs[1..]);
      InsertBehind(x, xs, rest);
      [xs[0]] + rest
  }

  lemma InsertFront(x: string, xs: seq<string>)
    requires Sorted(xs) && xs != [] && Below(x, xs[0])
    ensures Sorted([x] + xs)
  {
    forall j | 0 < j < |xs| ensures Below(x, xs[j]) {
      BelowTrans(x, xs[0], xs[j]);
    }
  }

  lemma InsertBehind(x: string, xs: seq<string>, rest: seq<string>)
    requires Sorted(xs) && xs != [] && !Below(x, xs[0])
    requires Sorted(rest) && multiset(rest) == multiset(xs[1..]) + multiset{x}
    ensures Sorted([xs[0]] + rest)
    ensures multiset([xs[0]] + rest) == multiset(xs) + multiset{x}
  {
    BelowTotal(x, xs[0]);
    assert AtMostAll(xs[0], xs[1..] + [x]);
    assert multiset(xs[1..] + [x]) == multiset(rest);
    AtMostAllPerm(xs[0], xs[1..] + [x], rest);
    assert xs == [xs[0]] + xs[1..];
  }

  /** `sorted(xs)` */
  function Sort(xs: seq<string>): (r: seq<string>)
    ensures Sorted(r)
    ensures multiset(r) == multiset(xs)
    decreases |xs|
  {
    if xs == [] then []
    else
      assert xs == [xs[0]] + xs[1..];
      Insert(xs[0], Sort(xs[1..]))
  }

  /** Two sorted lists with the same elements are the same list, so `Sort`
      is the one sorted arrangement of its input. */
  lemma {:induction false} SortedUnique(a: seq<string>, b: seq<string>)
    requires Sorted(a) && Sorted(b) && multiset(a) == multiset(b)
    ensures a == b
    decreases |a|
  {
    if a != [] {
      SameHead(a, b);
      SameTails(a, b);
      SortedUnique(a[1..], b[1..]);
      assert a == [a[0]] + a[1..] && b == [b[0]] + b[1..];
    } else {
      assert |multiset(b)| == |b|;
    }
  }

  /** Two sorted lists with the same elements start alike. */
  lemma SameHead(a: seq<string>, b: seq<string>)
    requires Sorted(a) && Sorted(b) && multiset(a) == multiset(b) && a != []
    ensures b != [] && a[0] == b[0]
  {
    assert a[0] in multiset(b);
    assert b[0] in multiset(a);
    var i :| 0 <= i < |b| && b[i] == a[0];
    var j :| 0 <= j < |a| && a[j] == b[0];
    assert Below(b[0], a[0]) by {
      if i > 0 {
        assert Below(b[0], b[i]);
      } else {
        BelowRefl(b[0]);
      }
    }
    assert Below(a[0], b[0]) by {
      if j > 0 {
        assert Below(a[0], a[j]);
      } else {
        BelowRefl(a[0]);
      }
    }
    BelowAntisym(a[0], b[0]);
  }

  /** ... and what follows the common head is again sorted, with the same
      elements. */
  lemma SameTails(a: seq<string>, b: seq<string>)
    requires Sorted(a) && Sorted(b) && multiset(a) == multiset(b)
    requires a != [] && b != [] && a[0] == b[0]
    ensures Sorted(a[1..]) && Sorted(b[1..]) && multiset(a[1..]) == multiset(b[1..])
  {
    Tail(a);
    Tail(b);
  }

  /** Dropping the head of a list drops one copy of it, and keeps the list
      sorted. */
  lemma Tail(a: seq<string>)
    requires a != []
    ensures multiset(a[1..]) == multiset(a) - multiset{a[0]}
    ensures Sorted(a) ==> Sorted(a[1..])
  {
    assert a == [a[0]] + a[1..];
    assert multiset(a) == multiset{a[0]} + multiset(a[1..]);
    if Sorted(a) {
      forall i, j | 0 <= i < j < |a| - 1 ensures Below(a[1..][i], a[1..][j]) {
        assert a[1..][i] == a[i + 1] && a[1..][j] == a[j + 1];
      }
    }
  }

  /** Sorting a sorted list changes nothing. */
  lemma SortSorted(xs: seq<string>)
    requires Sorted(xs)
    ensures Sort(xs) == xs
  {
    SortedUnique(Sort(xs), xs);
  }
}

=== FILE: text.dfy ===
/** Python `str` operations the scripts rely on, over `string` (a sequence of
    Unicode scalar values).  Whitespace follows `str.isspace`, which is also
    what the regular-expression class `\s` matches; lower-casing is ASCII-only. */
module Text {
  import opened Lists

  /** `str.isspace()` for one character: the characters `str.strip()` removes. */
  predicate IsSpace(c: char) {
    || c == ' '
    || ('\t' <= c <= '\r')
    || ('\U{1c}' <= c <= '\U{1f}')
    || c == '\U{85}' || c == '\U{a0}' || c == '\U{1680}'
    || ('\U{2000}' <= c <= '\U{200a}')
    || c == '\U{2028}' || c == '\U{2029}' || c == '\U{202f}' || c == '\U{205f}' || c == '\U{3000}'
  }

  predicate IsDigit(c: char) { '0' <= c <= '9' }

  predicate IsUpper(c: char) { 'A' <= c <= 'Z' }

  function LowerChar(c: char): (d: char)
    ensures !IsUpper(d)
    ensures !IsUpper(c) ==> d == c
  {
    if IsUpper(c) then (c as int + 32) as char else c
  }

  /** `str.lower()` restricted to ASCII letters. */
  function Lower(s: string): (r: string)
    ensures |r| == |s|
    ensures forall i :: 0 <= i < |s| ==> r[i] == LowerChar(s[i])
  {
    seq(|s|, i requires 0 <= i < |s| => LowerChar(s[i]))
  }

  lemma LowerIdentity(s: string)
    requires forall i :: 0 <= i < |s| ==> !IsUpper(s[i])
    ensures Lower(s) == s
  {
  }

  lemma LowerConcat(x: string, y: string)
    ensures Lower(x + y) == Lower(x) + Lower(y)
  {
  }

  lemma LowerTail(t: string)
    requires |t| > 0
    ensures Lower(t)[1..] == Lower(t[1..])
  {
  }

  /** Drops the longest prefix whose characters all satisfy `drop`. */
  function TrimLeft(s: string, drop: char -> bool): (r: string)
    ensures |r| <= |s| && r == s[|s| - |r|..]
    ensures r == [] || !drop(r[0])
    ensures forall i :: 0 <= i < |s| - |r| ==> drop(s[i])
    decreases |s|
  {
    if |s| > 0 && drop(s[0]) then TrimLeft(s[1..], drop) else s
  }

  /** Drops the longest suffix whose characters all satisfy `drop`. */
  function TrimRight(s: string, drop: char -> bool): (r: string)
    ensures |r| <= |s| && r == s[..|r|]
    ensures r == [] || !drop(r[|r| - 1])
    ensures forall i :: |r| <= i < |s| ==> drop(s[i])
    decreases |s|
  {
    if |s| > 0 && drop(s[|s| - 1]) then TrimRight(s[..|s| - 1], drop) else s
  }

  /** `s.strip(chars)`: both ends, characters chosen by `drop`. */
  function StripBy(s: string, drop: char -> bool): (r: string)
    ensures |r| <= |s|
    ensures r == [] || (!drop(r[0]) && !drop(r[|r| - 1]))
  {
    TrimRight(TrimLeft(s, drop), drop)
  }

  /** `s.strip()` */
  function Strip(s: string): (r: string)
    ensures |r| <= |s|
    ensures r == [] || (!IsSpace(r[0]) && !IsSpace(r[|r| - 1]))
  {
    StripBy(s, IsSpace)
  }

  /** Stripping only removes characters: the result is a slice of `s`. */
  lemma StripBySlice(s: string, drop: char -> bool) returns (k: nat)
    ensures k + |StripBy(s, drop)| <= |s|
    ensures forall i :: 0 <= i < |StripBy(s, drop)| ==> StripBy(s, drop)[i] == s[k + i]
  {
    var left := TrimLeft(s, drop);
    var r := TrimRight(left, drop);
    k := |s| - |left|;
    assert left == s[k..];
    assert r == left[..|r|];
  }

  /** A string of whitespace strips to nothing. */
  lemma StripBlank(s: string)
    requires forall i :: 0 <= i < |s| ==> IsSpace(s[i])
    ensures Strip(s) == ""
  {
    var k := StripBySlice(s, IsSpace);
  }

  lemma StripKeepsNone(s: string, drop: char -> bool, p: char -> bool)
    requires NoneSatisfy(s, p)
    ensures NoneSatisfy(StripBy(s, drop), p)
  {
    var k := StripBySlice(s, drop);
  }

  lemma StripBySame(s: string, drop: char -> bool)
    requires s == [] || (!drop(s[0]) && !drop(s[|s| - 1]))
    ensures StripBy(s, drop) == s
  {
  }

  /** A dropped character in front of an already stripped text goes. */
  lemma StripByLead(c: char, x: string, drop: char -> bool)
    requires drop(c) && x != [] && !drop(x[0]) && !drop(x[|x| - 1])
    ensures StripBy([c] + x, drop) == x
  {
    var s := [c] + x;
    assert s[1..] == x;
    assert TrimLeft(s, drop) == TrimLeft(x, drop) == x;
  }

  predicate StartsWith(s: string, p: string) {
    |p| <= |s| && s[..|p|] == p
  }

  /** Python's `sub in s`. */
  predicate Contains(s: string, sub: string)
    decreases |s|
  {
    StartsWith(s, sub) || (|s| > 0 && Contains(s[1..], sub))
  }

  /** `sep.join(xs)` */
  function Join(xs: seq<string>, sep: string): string
    decreases |xs|
  {
    if |xs| == 0 then ""
    else if |xs| == 1 then xs[0]
    else xs[0] + sep + Join(xs[1..], sep)
  }

  predicate EndsWith(s: string, t: string) {
    |s| >= |t| && s[|s| - |t|..] == t
  }

  lemma EndsWithAppend(s: string, t: string, u: string)
    requires EndsWith(s, t)
    ensures EndsWith(s + u, t + u)
  {
    assert (s + u)[|s + u| - |t + u|..] == s[|s| - |t|..] + u;
  }

  /** Python's `x or d` on strings: an empty `x` gives way to `d`. */
  function Or(x: string, d: string): string {
    if x != "" then x else d
  }

  /** Joining two non-empty runs of parts puts one separator between them. */
  lemma {:induction false} JoinConcat(xs: seq<string>, ys: seq<string>, sep: string)
    requires |xs| >= 1 && |ys| >= 1
    ensures Join(xs + ys, sep) == Join(xs, sep) + sep + Join(ys, sep)
    decreases |xs|
  {
    if |xs| == 1 {
      assert (xs + ys)[1..] == ys;
    } else {
      JoinConcat(xs[1..], ys, sep);
      assert (xs + ys)[1..] == xs[1..] + ys;
    }
  }

  predicate NoneSatisfy(s: string, p: char -> bool) {
    forall i :: 0 <= i < |s| ==> !p(s[i])
  }

  lemma {:induction false} JoinNoneSatisfy(xs: seq<string>, sep: string, p: char -> bool)
    requires NoneSatisfy(sep, p)
    requires forall k :: 0 <= k < |xs| ==> NoneSatisfy(xs[k], p)
    ensures NoneSatisfy(Join(xs, sep), p)
    decreases |xs|
  {
    if |xs| > 1 {
      JoinNoneSatisfy(xs[1..], sep, p);
      var j := Join(xs[1..], sep);
      assert Join(xs, sep) == xs[0] + sep + j;
      assert forall i :: 0 <= i < |xs[0] + sep + j| ==>
        (xs[0] + sep + j)[i] == if i < |xs[0]| then xs[0][i] else if i < |xs[0]| + |sep| then sep[i - |xs[0]|] else j[i - |xs[0]| - |sep|];
    }
  }

  /** `re.split` on a one-character class: every separator ends a part, so the
      result has one more part than `s` has separators. */
  function Split(s: string, isSep: char -> bool): (parts: seq<string>)
    ensures |parts| >= 1
    ensures forall k :: 0 <= k < |parts| ==> NoneSatisfy(parts[k], isSep)
    decreases |s|
  {
    if |s| == 0 then [""]
    else
      var rest := Split(s[1..], isSep);
      if isSep(s[0]) then [""] + rest
      else [[s[0]] + rest[0]] + rest[1..]
  }

  /** `s.split(c)` for a single character `c`. */
  function SplitChar(s: string, c: char): (parts: seq<string>)
    ensures |parts| >= 1
  {
    Split(s, x => x == c)
  }

  lemma {:induction false} SplitAfterPart(x: string, c: char, rest: string, isSep: char -> bool)
    requires isSep(c) && NoneSatisfy(x, isSep)
    ensures Split(x + [c] + rest, isSep) == [x] + Split(rest, isSep)
    decreases |x|
  {
    if |x| == 0 {
      assert x + [c] + rest == [c] + rest;
      assert ([c] + rest)[1..] == rest;
    } else {
      SplitAfterPart(x[1..], c, rest, isSep);
      assert (x + [c] + rest)[1..] == x[1..] + [c] + rest;
      assert [x[0]] + x[1..] == x;
    }
  }

  lemma {:induction false} SplitOfPart(x: string, isSep: char -> bool)
    requires NoneSatisfy(x, isSep)
    ensures Split(x, isSep) == [x]
    decreases |x|
  {
    if |x| > 0 {
      SplitOfPart(x[1..], isSep);
      assert [x[0]] + x[1..] == x;
    }
  }

  /** Splitting a join on a separator that no part contains gives the parts back. */
  lemma {:induction false} SplitJoin(xs: seq<string>, c: char, isSep: char -> bool)
    requires |xs| >= 1 && isSep(c)
    requires forall k :: 0 <= k < |xs| ==> NoneSatisfy(xs[k], isSep)
    ensures Split(Join(xs, [c]), isSep) == xs
    decreases |xs|
  {
    if |xs| == 1 {
      SplitOfPart(xs[0], isSep);
    } else {
      SplitJoin(xs[1..], c, isSep);
      SplitAfterPart(xs[0], c, Join(xs[1..], [c]), isSep);
      assert [xs[0]] + xs[1..] == xs;
    }
  }

  /** No part of `s.split(c)` holds `c`. */
  lemma SplitCharParts(s: string, c: char)
    ensures forall k :: 0 <= k < |SplitChar(s, c)| ==> c !in SplitChar(s, c)[k]
  {
    var parts := SplitChar(s, c);
    forall k | 0 <= k < |parts| ensures c !in parts[k] {
      assert NoneSatisfy(parts[k], x => x == c);
    }
  }

  /** `c.join(xs).split(c) == xs` when no part holds `c`. */
  lemma SplitCharJoin(xs: seq<string>, c: char)
    requires |xs| >= 1
    requires forall k :: 0 <= k < |xs| ==> c !in xs[k]
    ensures SplitChar(Join(xs, [c]), c) == xs
  {
    var isSep := x => x == c;
    forall k | 0 <= k < |xs| ensures NoneSatisfy(xs[k], isSep) {
      assert forall i :: 0 <= i < |xs[k]| ==> xs[k][i] != c;
    }
    SplitJoin(xs, c, isSep);
  }

  /** Splitting a text that has `c` in the middle splits either side. */
  lemma {:induction false} SplitCharConcat(a: string, c: char, b: string)
    ensures SplitChar(a + [c] + b, c) == SplitChar(a, c) + SplitChar(b, c)
    decreases |a|
  {
    var s := a + [c] + b;
    if |a| == 0 {
      assert s == [c] + b;
      SplitCharStep(s, c);
      assert s[1..] == b;
    } else {
      SplitCharConcat(a[1..], c, b);
      assert s[0] == a[0] && s[1..] == a[1..] + [c] + b;
      var ra, sb := SplitChar(a[1..], c), SplitChar(b, c);
      SplitCharStep(s, c);
      SplitCharStep(a, c);
      if a[0] == c {
        AppendAssoc([""], ra, sb);
      } else {
        AppendTail(ra, sb);
        AppendAssoc([[a[0]] + ra[0]], ra[1..], sb);
      }
    }
  }

  /** One step of the split: a leading `c` closes an empty part; any other
      character opens the first part. */
  lemma SplitCharStep(s: string, c: char)
    requires s != []
    ensures s[0] == c ==> SplitChar(s, c) == [""] + SplitChar(s[1..], c)
    ensures s[0] != c ==> SplitChar(s, c) == [[s[0]] + SplitChar(s[1..], c)[0]] + SplitChar(s[1..], c)[1..]
  {
  }

  /** A text without `c` is its own single part. */
  lemma SplitCharNone(x: string, c: char)
    requires c !in x
    ensures SplitChar(x, c) == [x]
  {
    var isSep := y => y == c;
    assert NoneSatisfy(x, isSep);
    SplitOfPart(x, isSep);
  }

  /** A leading `c` adds an empty first part. */
  lemma SplitCharLead(x: string, c: char)
    ensures SplitChar([c] + x, c) == [""] + SplitChar(x, c)
  {
    SplitCharConcat("", c, x);
    assert "" + [c] + x == [c] + x;
    SplitCharNone("", c);
  }

  /** A text between two separators splits into an empty part, its own
      parts and another empty part. */
  lemma SplitCharFramed(mid: string, c: char)
    ensures SplitChar([c] + mid + [c], c) == [""] + SplitChar(mid, c) + [""]
  {
    SplitCharConcat("", c, mid + [c] + "");
    assert "" + [c] + (mid + [c] + "") == [c] + mid + [c];
    SplitCharConcat(mid, c, "");
    SplitCharNone("", c);
  }

  /** Two separator-free lines in front split off as two parts. */
  lemma SplitCharTwoLines(x: string, y: string, z: string, c: char)
    requires c !in x && c !in y
    ensures SplitChar(x + [c] + y + [c] + z, c) == [x, y] + SplitChar(z, c)
  {
    SplitCharConcat(x, c, y + [c] + z);
    assert x + [c] + (y + [c] + z) == x + [c] + y + [c] + z;
    SplitCharConcat(y, c, z);
    SplitCharNone(x, c);
    SplitCharNone(y, c);
  }

  /** Lines each closed by a line break. */
  function Terminated(xs: seq<string>): string
    decreases |xs|
  {
    if xs == [] then "" else xs[0] + "\n" + Terminated(xs[1..])
  }

  /** Lines without breaks, each closed by one, split back into the lines
      and the empty text after the last break. */
  lemma {:induction false} SplitTerminated(xs: seq<string>)
    requires forall i :: 0 <= i < |xs| ==> '\n' !in xs[i]
    ensures SplitChar(Terminated(xs), '\n') == xs + [""]
    decreases |xs|
  {
    if xs == [] {
      SplitCharNone("", '\n');
    } else {
      SplitTerminated(xs[1..]);
      assert Terminated(xs) == xs[0] + ['\n'] + Terminated(xs[1..]);
      SplitCharConcat(xs[0], '\n', Terminated(xs[1..]));
      SplitCharNone(xs[0], '\n');
      assert xs == [xs[0]] + xs[1..];
    }
  }

  /** Joining the parts of a split with the one separator gives the text back. */
  lemma {:induction false} JoinSplit(s: string, c: char)
    ensures Join(SplitChar(s, c), [c]) == s
    decreases |s|
  {
    if |s| > 0 {
      JoinSplit(s[1..], c);
      var rest := SplitChar(s[1..], c);
      assert Split(s[1..], x => x == c) == rest;
      if s[0] == c {
        assert SplitChar(s, c) == [""] + rest;
        assert ([""] + rest)[1..] == rest;
        assert [s[0]] + s[1..] == s;
      } else {
        var parts := SplitChar(s, c);
        assert parts == [[s[0]] + rest[0]] + rest[1..];
        if |rest| == 1 {
          assert Join(rest, [c]) == rest[0];
        } else {
          assert parts[1..] == rest[1..];
          assert Join(rest, [c]) == rest[0] + [c] + Join(rest[1..], [c]);
        }
        assert [s[0]] + s[1..] == s;
      }
    }
  }

  /** Index of the last `c` in `s`, or `-1`. */
  function LastIndex(s: string, c: char): (i: int)
    ensures -1 <= i < |s|
    ensures i >= 0 ==> s[i] == c
    ensures forall j :: i < j < |s| ==> s[j] != c
    decreases |s|
  {
    if |s| == 0 then -1
    else if s[|s| - 1] == c then |s| - 1
    else LastIndex(s[..|s| - 1], c)
  }

  /** The one position that has `c` with no `c` after it is the last one. */
  lemma LastIndexUnique(s: string, c: char, i: int)
    requires -1 <= i < |s|
    requires i >= 0 ==> s[i] == c
    requires forall j :: i < j < |s| ==> s[j] != c
    ensures LastIndex(s, c) == i
  {
  }

  /** The last `c` of `a + b` is the last one of `b` if it has one, else of `a`. */
  lemma LastIndexConcat(a: string, b: string, c: char)
    ensures LastIndex(a + b, c) == if LastIndex(b, c) >= 0 then |a| + LastIndex(b, c) else LastIndex(a, c)
  {
    var s, k := a + b, LastIndex(b, c);
    if k >= 0 {
      assert s[|a| + k] == c;
      assert forall j :: |a| + k < j < |s| ==> s[j] == b[j - |a|];
      LastIndexUnique(s, c, |a| + k);
    } else {
      var m := LastIndex(a, c);
      assert forall j :: |a| <= j < |s| ==> s[j] == b[j - |a|];
      assert forall j :: 0 <= j < |a| ==> s[j] == a[j];
      LastIndexUnique(s, c, m);
    }
  }

  /** The line boundaries of `str.splitlines()`. */
  predicate IsLineBreak(c: char) {
    || c == '\n' || c == '\r' || c == '\U{b}' || c == '\U{c}'
    || c == '\U{1c}' || c == '\U{1d}' || c == '\U{1e}'
    || c == '\U{85}' || c == '\U{2028}' || c == '\U{2029}'
  }

  /** `s.splitlines()`: `"\r\n"` is one boundary and a final boundary does not
      start an empty last line. */
  function SplitLines(s: string): (lines: seq<string>)
    ensures forall k :: 0 <= k < |lines| ==> NoneSatisfy(lines[k], IsLineBreak)
    decreases |s|
  {
    if |s| == 0 then []
    else
      var i := Find(s, IsLineBreak);
      if i == |s| then [s]
      else
        var next := if s[i] == '\r' && i + 1 < |s| && s[i + 1] == '\n' then i + 2 else i + 1;
        [s[..i]] + SplitLines(s[next..])
  }

  function DigitChar(d: nat): char
    requires d < 10
  {
    "0123456789"[d]
  }

  /** Python's `str(n)` for a natural number. */
  function NatToString(n: nat): (r: string)
    ensures |r| >= 1
    ensures forall i :: 0 <= i < |r| ==> IsDigit(r[i])
    decreases n
  {
    if n < 10 then [DigitChar(n)] else NatToString(n / 10) + [DigitChar(n % 10)]
  }

  /** Decimal rendering is injective, so numbered candidates never repeat. */
  lemma {:induction false} NatToStringInjective(m: nat, n: nat)
    requires NatToString(m) == NatToString(n)
    ensures m == n
    decreases m
  {
    var rm, rn := NatToString(m), NatToString(n);
    if m < 10 && n < 10 {
    } else if m < 10 || n < 10 {
    } else {
      assert rm[..|rm| - 1] == NatToString(m / 10);
      assert rn[..|rn| - 1] == NatToString(n / 10);
      NatToStringInjective(m / 10, n / 10);
      assert rm[|rm| - 1] == DigitChar(m % 10);
      assert rn[|rn| - 1] == DigitChar(n % 10);
    }
  }
}

=== FILE: unique_names.dfy ===
/** Choosing an output file name that is not taken yet, as the two CSV
    scripts do it differently.  The directory's existing names are a finite
    set; writing the file adds the chosen name to it.

    - scripts/csv_to_md_multi.py `safe_write_unique` renames the CURRENT
      candidate on every round, so suffixes pile up: `x.md`, `x-1.md`,
      `x-1-2.md`, ...
    - scripts/csv_sessions_to_md.py numbers the slug afresh on every round:
      `x.md`, `x-1.md`, `x-2.md`, ... */
module UniqueNames {
  import opened Text

  /** The longest name in a finite set: names longer than it are free. */
  ghost function MaxLen(names: set<string>): (m: nat)
    ensures forall x :: x in names ==> |x| <= m
    decreases names
  {
    if names == {} then 0
    else
      var x :| x in names;
      var rest := MaxLen(names - {x});
      if |x| > rest then |x| else rest
  }

  /** `PurePath.suffix`: from the last dot, unless that dot starts the name
      or ends it. */
  function Suffix(name: string): (suf: string)
    ensures suf == "" || (2 <= |suf| < |name| && suf[0] == '.' && suf == name[|name| - |suf|..])
  {
    var i := LastIndex(name, '.');
    if 0 < i < |name| - 1 then name[i..] else ""
  }

  /** `PurePath.stem`: the name without its suffix. */
  function Stem(name: string): string {
    name[..|name| - |Suffix(name)|]
  }

  /** Stem and suffix make up the name. */
  lemma StemSuffix(name: string)
    ensures Stem(name) + Suffix(name) == name
  {
    var suf := Suffix(name);
    assert name == name[..|name| - |suf|] + name[|name| - |suf|..];
  }

  /** One renaming round of `safe_write_unique`, the `i`-th. */
  function Renamed(name: string, i: nat): (r: string)
    ensures |r| > |name|
  {
    if Suffix(name) != "" then Stem(name) + "-" + NatToString(i) + Suffix(name)
    else name + "-" + NatToString(i)
  }

  /** The candidates `safe_write_unique` tries, in order: the `k`-th is the
      (`k`-1)-th renamed with the number `k`. */
  function Chain(name: string, k: nat): string
    decreases k
  {
    if k == 0 then name else Renamed(Chain(name, k - 1), k)
  }

  /** The loop of `safe_write_unique` from round `i` on, with candidate `p`. */
  function SafeNameFrom(existing: set<string>, p: string, i: nat): (r: string)
    ensures r !in existing
    ensures p !in existing ==> r == p
    decreases MaxLen(existing) + 1 - |p|
  {
    if p !in existing then p
    else SafeNameFrom(existing, Renamed(p, i), i + 1)
  }

  /** `safe_write_unique(out_dir / name, ...)`: the name it writes. */
  function SafeWriteUnique(existing: set<string>, name: string): (r: string)
    ensures r !in existing
    ensures name !in existing ==> r == name
  {
    SafeNameFrom(existing, name, 1)
  }

  /** The first `n` candidates of the chain are all taken. */
  predicate Taken(existing: set<string>, name: string, n: nat)
    decreases n
  {
    n == 0 || (Taken(existing, name, n - 1) && Chain(name, n - 1) in existing)
  }

  /** From round `k + 1` on, with the `k`-th candidate in hand and all
      before it taken, the loop ends at the first free candidate of the
      chain; `safe_write_unique` is the case `k = 0`, whose candidate is
      the name itself. */
  lemma {:induction false} SafeNameFromIsFirstFree(existing: set<string>, name: string, k: nat, p: string) returns (n: nat)
    requires p == Chain(name, k) && Taken(existing, name, k)
    ensures k <= n && SafeNameFrom(existing, p, k + 1) == Chain(name, n)
    ensures Taken(existing, name, n)
    decreases MaxLen(existing) + 1 - |p|
  {
    if p !in existing {
      n := k;
    } else {
      var q := NextCandidate(existing, name, k, p);
      n := SafeNameFromIsFirstFree(existing, name, k + 1, q);
    }
  }

  /** A taken candidate sends the loop on to the next, longer one. */
  lemma NextCandidate(existing: set<string>, name: string, k: nat, p: string) returns (q: string)
    requires p == Chain(name, k) && Taken(existing, name, k) && p in existing
    ensures q == Chain(name, k + 1) && Taken(existing, name, k + 1)
    ensures SafeNameFrom(existing, p, k + 1) == SafeNameFrom(existing, q, k + 2)
    ensures |p| < |q| && |p| <= MaxLen(existing)
  {
    q := Renamed(p, k + 1);
    ChainStep(name, k, p);
    SafeNameStep(existing, p, k + 1);
    assert Taken(existing, name, k + 1);
  }

  /** A taken candidate sends the loop on to the next one. */
  lemma SafeNameStep(existing: set<string>, p: string, i: nat)
    requires p in existing
    ensures SafeNameFrom(existing, p, i) == SafeNameFrom(existing, Renamed(p, i), i + 1)
  {
  }

  lemma RenamedMd(stem: string, i: nat, name: string)
    requires |stem| > 0 && Dotless(stem)
    requires name == stem + ".md"
    ensures Renamed(name, i) == stem + "-" + NatToString(i) + ".md"
  {
    assert name[..|name| - 1] == stem + ".m";
    assert (stem + ".m")[..|stem| + 1] == stem + ".";
    assert LastIndex(stem + ".", '.') == |stem|;
    assert LastIndex(name, '.') == |stem|;
    assert Stem(name) == stem;
  }

  predicate Dotless(s: string) {
    forall i :: 0 <= i < |s| ==> s[i] != '.'
  }

  /** `-1-2-...-k`: the suffixes `k` renaming rounds pile up. */
  function Piled(k: nat): (r: string)
    ensures Dotless(r)
    decreases k
  {
    if k == 0 then ""
    else
      var prev, num := Piled(k - 1), NatToString(k);
      var r := prev + "-" + num;
      assert Dotless(r) by {
        forall i | 0 <= i < |r| ensures r[i] != '.' {
          if i < |prev| {
            assert r[i] == prev[i];
          } else if i > |prev| {
            assert r[i] == num[i - |prev| - 1];
            assert IsDigit(num[i - |prev| - 1]);
          }
        }
      }
      r
  }

  lemma ChainStep(name: string, k: nat, prev: string)
    requires Chain(name, k) == prev
    ensures Chain(name, k + 1) == Renamed(prev, k + 1)
  {
  }

  /** A dot-free `stem.md` renamed in round `k`. */
  lemma ChainRenameStep(stem: string, k: nat, prev: string)
    requires k > 0 && |prev| > 0 && Dotless(prev)
    requires Chain(stem + ".md", k - 1) == prev + ".md"
    ensures Chain(stem + ".md", k) == prev + "-" + NatToString(k) + ".md"
  {
    ChainStep(stem + ".md", k - 1, prev + ".md");
    RenamedMd(prev, k, prev + ".md");
  }

  lemma PiledStep(stem: string, k: nat)
    requires k > 0
    ensures stem + Piled(k) + ".md" == (stem + Piled(k - 1)) + "-" + NatToString(k) + ".md"
  {
  }

  /** Suffixes pile up: for `stem.md`, the `k`-th candidate is
      `stem-1-2-...-k.md`, not `stem-k.md`. */
  lemma {:induction false} CumulativeSuffixes(stem: string, k: nat)
    requires |stem| > 0 && Dotless(stem)
    ensures Chain(stem + ".md", k) == stem + Piled(k) + ".md"
    decreases k
  {
    if k > 0 {
      CumulativeSuffixes(stem, k - 1);
      PiledOnce(stem, k);
    } else {
      assert stem + Piled(0) == stem;
    }
  }

  /** One more round piles one more suffix on. */
  lemma PiledOnce(stem: string, k: nat)
    requires k > 0 && |stem| > 0 && Dotless(stem)
    requires Chain(stem + ".md", k - 1) == stem + Piled(k - 1) + ".md"
    ensures Chain(stem + ".md", k) == stem + Piled(k) + ".md"
  {
    var prev := stem + Piled(k - 1);
    assert Dotless(prev) by {
      forall i | 0 <= i < |prev| ensures prev[i] != '.' {
        if i >= |stem| {
          assert prev[i] == Piled(k - 1)[i - |stem|];
        }
      }
    }
    ChainRenameStep(stem, k, prev);
    PiledStep(stem, k);
  }

  /** The sessions script's `k`-th candidate: `slug.md`, then `slug-k.md`. */
  function Numbered(slug: string, k: nat): string {
    if k == 0 then slug + ".md" else slug + "-" + NatToString(k) + ".md"
  }

  /** Different numbers give different candidates. */
  lemma NumberedInjective(slug: string, j: nat, k: nat)
    requires Numbered(slug, j) == Numbered(slug, k)
    ensures j == k
  {
    if j != 0 && k != 0 {
      var a, b := NatToString(j), NatToString(k);
      assert |a| == |b|;
      assert a == Numbered(slug, j)[|slug| + 1..|slug| + 1 + |a|];
      assert b == Numbered(slug, k)[|slug| + 1..|slug| + 1 + |b|];
      NatToStringInjective(j, k);
    }
  }

  /** The first `k` candidates. */
  function Tried(slug: string, k: nat): (s: set<string>)
    ensures forall j :: 0 <= j < k ==> Numbered(slug, j) in s
  {
    set j | 0 <= j < k :: Numbered(slug, j)
  }

  lemma {:induction false} TriedSize(slug: string, k: nat)
    ensures |Tried(slug, k)| == k
    decreases k
  {
    if k > 0 {
      TriedSize(slug, k - 1);
      assert Tried(slug, k) == Tried(slug, k - 1) + {Numbered(slug, k - 1)};
      if Numbered(slug, k - 1) in Tried(slug, k - 1) {
        var j :| 0 <= j < k - 1 && Numbered(slug, j) == Numbered(slug, k - 1);
        NumberedInjective(slug, j, k - 1);
      }
    }
  }

  lemma SubsetSize(a: set<string>, b: set<string>)
    requires a <= b
    ensures |a| <= |b|
  {
    assert b == a + (b - a);
  }

  /** The sessions loop from candidate `k` on; every earlier one is taken. */
  function FirstFreeFrom(existing: set<string>, slug: string, k: nat): (r: string)
    requires forall j :: 0 <= j < k ==> Numbered(slug, j) in existing
    ensures r !in existing
    ensures exists n: nat :: k <= n && r == Numbered(slug, n) && forall j :: 0 <= j < n ==> Numbered(slug, j) in existing
    decreases |existing| - k
  {
    TriedSize(slug, k);
    SubsetSize(Tried(slug, k), existing);
    if Numbered(slug, k) !in existing then Numbered(slug, k)
    else
      TriedSize(slug, k + 1);
      SubsetSize(Tried(slug, k + 1), existing);
      FirstFreeFrom(existing, slug, k + 1)
  }

  /** The name the sessions script writes: the first free of `slug.md`,
      `slug-1.md`, `slug-2.md`, ... */
  function FirstFree(existing: set<string>, slug: string): (r: string)
    ensures r !in existing
    ensures exists n: nat :: r == Numbered(slug, n) && forall j :: 0 <= j < n ==> Numbered(slug, j) in existing
    ensures slug + ".md" !in existing ==> r == slug + ".md"
  {
    FirstFreeFrom(existing, slug, 0)
  }
}

=== FILE: values.dfy ===
/** The values the indexer reads from YAML front matter, stores as document
    metadata, and the query endpoint reads back: `None`, strings, lists,
    mappings and other scalars, with Python's notion of truth. */
module Values {

  /** A value as `yaml.safe_load` returns it. Numbers, booleans and dates
      only keep whether they are truthy; nothing here looks further. */
  datatype Value = Str(s: string) | Items(items: seq<Value>) | Mapping(entries: map<string, Value>) | Null | Scalar(truthy: bool)

  /** Python truthiness. */
  predicate Truthy(v: Value) {
    match v
    case Str(s) => s != ""
    case Items(xs) => xs != []
    case Mapping(m) => m != map[]
    case Null => false
    case Scalar(t) => t
  }

  /** The empty mapping `{}`. */
  const NoMeta: Value := Mapping(map[])

  /** `v or default` */
  function OrElse(v: Value, default: Value): Value {
    if Truthy(v) then v else default
  }

  /** `m.get(k, default)` */
  function GetOr(m: map<string, Value>, k: string, default: Value): Value {
    if k in m then m[k] else default
  }

  /** `m.get(k)`: a missing key reads as `None`. */
  function Lookup(m: map<string, Value>, k: string): Value {
    GetOr(m, k, Null)
  }

  /** The metadata keys the indexer writes for every document, which are
      also the keys the query endpoint's `pick` copies out. */
  const MetadataKeys: set<string> := {"title", "source_url", "tags", "category", "last_updated", "relpath", "filename", "ext"}
}

=== FILE: wrappers.dfy ===
/** Failure-compatible wrappers used across the model: Python's `None`-or-value
    results become `Option`, and raised errors (`SystemExit`, `IndexError`,
    a failing model call) become the `Failure` side of `Result`. */
module Wrappers {

  datatype Option<+T> = None | Some(value: T) {

    /** Python's `x or default` for an optional value. */
    function GetOr(default: T): T {
      match this
      case Some(v) => v
      case None => default
    }
  }

  datatype Result<+R, +E> = Success(value: R) | Failure(error: E)

  /** `[f(x) for x in xs]` where `f` may raise: the first failure stops the
      loop, otherwise every result is collected in order. */
  function MapAll<T, U, E>(f: T -> Result<U, E>, xs: seq<T>): (r: Result<seq<U>, E>)
    ensures r.Success? ==> |r.value| == |xs| && forall i :: 0 <= i < |xs| ==> f(xs[i]) == Success(r.value[i])
    ensures r.Failure? ==> exists i :: 0 <= i < |xs| && f(xs[i]) == Failure(r.error) && AllSucceed(f, xs[..i])
    decreases |xs|
  {
    if xs == [] then Success([])
    else
      match f(xs[0])
      case Failure(e) =>
        assert xs[..0] == [];
        Failure(e)
      case Success(y) =>
        match MapAll(f, xs[1..])
        case Failure(e) =>
          FailureBehind(f, xs, e);
          Failure(e)
        case Success(ys) =>
          assert forall i :: 0 < i < |xs| ==> xs[i] == xs[1..][i - 1];
          Success([y] + ys)
  }

  predicate AllSucceed<T, U, E>(f: T -> Result<U, E>, xs: seq<T>) {
    forall i :: 0 <= i < |xs| ==> f(xs[i]).Success?
  }

  lemma FailureBehind<T, U, E>(f: T -> Result<U, E>, xs: seq<T>, e: E)
    requires xs != [] && f(xs[0]).Success?
    requires exists i :: 0 <= i < |xs| - 1 && f(xs[1..][i]) == Failure(e) && AllSucceed(f, xs[1..][..i])
    ensures exists i :: 0 <= i < |xs| && f(xs[i]) == Failure(e) && AllSucceed(f, xs[..i])
  {
    var i :| 0 <= i < |xs| - 1 && f(xs[1..][i]) == Failure(e) && AllSucceed(f, xs[1..][..i]);
    assert xs[i + 1] == xs[1..][i];
    assert xs[..i + 1] == [xs[0]] + xs[1..][..i];
  }

  /** `x` is what `f` makes of one of the `xs`. */
  predicate MadeFrom<T, U(==)>(f: T -> Option<U>, xs: seq<T>, x: U) {
    exists j :: 0 <= j < |xs| && f(xs[j]) == Some(x)
  }

  /** The values `f` gives, in order, skipping the `None`s. */
  function Collect<T, U(==)>(f: T -> Option<U>, xs: seq<T>): (r: seq<U>)
    ensures |r| <= |xs|
    ensures forall i :: 0 <= i < |r| ==> MadeFrom(f, xs, r[i])
    decreases |xs|
  {
    if xs == [] then []
    else
      var rest := Collect(f, xs[1..]);
      assert forall i :: 0 <= i < |rest| ==> MadeFrom(f, xs, rest[i]) by {
        forall i | 0 <= i < |rest| ensures MadeFrom(f, xs, rest[i]) {
          var j :| 0 <= j < |xs| - 1 && f(xs[1..][j]) == Some(rest[i]);
          assert xs[j + 1] == xs[1..][j];
        }
      }
      match f(xs[0])
      case None => rest
      case Some(x) => [x] + rest
  }

  /** When `f` gives a value for every input, collecting skips nothing. */
  lemma {:induction false} CollectTotal<T, U>(f: T -> Option<U>, xs: seq<T>, ys: seq<U>)
    requires |ys| == |xs| && forall i :: 0 <= i < |xs| ==> f(xs[i]) == Some(ys[i])
    ensures Collect(f, xs) == ys
    decreases |xs|
  {
    if xs != [] {
      CollectTotal(f, xs[1..], ys[1..]);
      assert ys == [ys[0]] + ys[1..];
    }
  }
}
